=== FILE: README.md ===
# tock-ui core, modelled in Dafny

tock-ui is a desktop front end for the `tock` time-tracking command-line tool.
Its Rust back end runs `tock` with argument vectors built from the user's form,
turns the process outcome into a `CommandResult` (success flag, standard output,
optional error), checks report-saving and API-fetch requests, and keeps
favourites, API routes, report settings, cached projects, a calendar cache and
preferences in an SQLite database. Its React front end parses `tock`'s text
output:

- the activity tab reads the active-activity table and the recent-activity list;
- the history tab splits a month's report into days, reads each day's project
  headers and activities, assigns colours and sums timeline minutes;
- the project picker filters projects by a case-insensitive query and, when
  an API route's tab is chosen and its project list is not loaded yet, fetches
  that list.

The project models these pieces as pure functions over immutable datatypes. It
proves what they promise: argument vectors carry exactly the form's values,
rendered tables, month reports and day reports parse back to what was rendered, formatted
durations read back to the same number of seconds, the recent-project list is
sorted and free of duplicates, the picker's filter is idempotent, and every
database write keeps the table constraints.

Modules (one per file):

- `Wrappers`: `Option`/`Result`.
- `Text`: `trim`, `includes`, `split`, `toLowerCase`.
- `Numerals`: decimal rendering and `parseInt`.
- `Ordering`: code-point order, stable sort, filtering.
- `Commands`: the back-end command layer in `lib.rs`.
- `ActivityTab`, `HistoryTab`, `ProjectPicker`: the three React components.
- `Store`: the database in `db.rs`, as tables of rows with SQLite's
  `INSERT OR IGNORE`, `INSERT OR REPLACE`, `UNIQUE` and `AUTOINCREMENT`
  behaviour.

The clock, the environment, the `tock` process, the file system and the HTTP
exchange are parameters of the functions that use them.

## Model

| member | source | states |
|---|---|---|
| Commands.ToCommandResult | tock-ui/src-tauri/src/lib.rs:36-58 | a finished process gives its exit status as success and its stdout as output, with stderr as the error exactly when stderr is non-empty; a process that could not be started is a failure with empty output and an error |
| Commands.StartArgs | tock-ui/src-tauri/src/lib.rs:61-70 | `start` carries the project under `-p`, the description under `-d` and the optional time under `-t`, in that order, and nothing else |
| Commands.StopArgs | tock-ui/src-tauri/src/lib.rs:73-82 | `stop` carries the optional time under `-t` and no other option |
| Commands.AddArgs | tock-ui/src-tauri/src/lib.rs:85-97 | `add` carries project, description and start under `-p`, `-d`, `-s` in that order, then either the end time under `-e` or, only when there is no end time, the optional duration; nothing else |
| Commands.ContinueArgs | tock-ui/src-tauri/src/lib.rs:100-125 | `continue` has the index as a decimal word directly after the verb exactly when one is given; after it come exactly the given ones of description, project and time, under `-d`, `-p`, `-t` in that order, each followed by its value, so the vector's length is fixed by which values are given |
| Commands.RecentArgs | tock-ui/src-tauri/src/lib.rs:133-144 | `last` has `-n` followed by the count in decimal exactly when a count is given |
| Commands.ReportArgs | tock-ui/src-tauri/src/lib.rs:147-163 | `report` gets `--today`, `--yesterday` or `--date d` for those date types and no option for any other date type or a missing date |
| Commands.SaveReportQuery | tock-ui/src-tauri/src/lib.rs:203-251 | the save request is refused exactly for an unknown date type, a `date` request without a date, or a `range` request lacking either end; a range reports its start date only |
| Commands.ReportFileName | tock-ui/src-tauri/src/lib.rs:257-282 | the file name always ends in `_tock.txt`, preceded by today's date for `today`, yesterday's for `yesterday`, the given date for `date`, start and end joined with `_` for `range`; a `date` without a date or a `range` lacking an end gives `report` or `range` before the suffix, and any other date type gives `report` |
| Commands.SaveReport | tock-ui/src-tauri/src/lib.rs:195-319 | nothing is written when the request is invalid, the report fails (then the report's failure is returned as is) or the file cannot be created; otherwise the report's output is written to the report file name in the custom directory, else `HOME`, else `USERPROFILE`, else `.`; success holds exactly when the file was created and fully written, and then reports `Report saved to: ` and the path; a valid request runs the query the request check built |
| Commands.FetchProjects | tock-ui/src-tauri/src/lib.rs:471-535 | a URL without an `http://` or `https://` prefix is refused before any request; the call succeeds exactly when a body was read and neither the declared length nor the body's UTF-8 size exceeds 10 000 000 bytes, and then returns the body |
| Commands.FromDb | tock-ui/src-tauri/src/lib.rs:323-336 | a database call answers success exactly when it succeeded, with the fixed confirmation text, and otherwise an empty output and the prefixed database error |
| Commands.IsFavoriteResult | tock-ui/src-tauri/src/lib.rs:355-368 | the answer is always the word `true` or `false`, `true` exactly when the lookup succeeded and found the pair, and a failed lookup is a failure |
| ActivityTab.LayOut | tock-ui/src/components/ActivityTab.tsx:108-110 | a line after its time stamp is cut into gap, description, gap, project, gap and duration that reassemble it, with no whitespace at the edges of the description and none inside project or duration |
| ActivityTab.LayOutComplete | tock-ui/src/components/ActivityTab.tsx:108-110 | every well-laid line is cut back into the very pieces it was built from: the lazy description leaves exactly two words after it |
| ActivityTab.ParseLine | tock-ui/src/components/ActivityTab.tsx:62-123 | a parsed row has a well-formed time stamp taken from the start of the line, a non-empty description and whitespace-free project and duration |
| ActivityTab.ParseLineComplete | tock-ui/src/components/ActivityTab.tsx:77-119 | a stamped, well-laid line parses to its own stamp, description and project; the duration is normalised only when the description is one word (strict pattern) and kept verbatim otherwise (flexible pattern) |
| ActivityTab.ParseLineIff | tock-ui/src/components/ActivityTab.tsx:77-119 | a line parses exactly when it is a time stamp followed by a well-laid rest |
| ActivityTab.NormalizeDuration | tock-ui/src/components/ActivityTab.tsx:84-99 | a duration is rewritten exactly when it ends in `s`, has no `m` or `h`, and its `parseInt` value is at least 60; the rewrite then reads back to that many seconds, and every other duration is kept as it is |
| ActivityTab.FormatSeconds | tock-ui/src/components/ActivityTab.tsx:88-97 | n seconds (at least 60) are written as hours, minutes and seconds with minutes and seconds below 60 and recombining to n, each group with its letter and zero groups left out; an `h` appears exactly from 3600 seconds on, and below that an `m` always does |
| ActivityTab.FormatSecondsReadsBack | tock-ui/src/components/ActivityTab.tsx:88-97 | the h/m/s text built for n seconds, with zero minutes or seconds left out, reads back to exactly n |
| ActivityTab.FormatSecondsExamples | tock-ui/src/components/ActivityTab.tsx:88-97 | 3700 seconds is `1h1m40s`, 7200 is `2h`, 90 is `1m30s` |
| ActivityTab.NormalizeKeepsWord | tock-ui/src/components/ActivityTab.tsx:84-99 | normalising a whitespace-free duration gives a whitespace-free duration again |
| ActivityTab.ParseActivityOutput | tock-ui/src/components/ActivityTab.tsx:53-127 | blank output or output containing the idle message `No current activity` (`NO_ACTIVITY`) gives no rows; there are never more rows than lines, and every row is well formed |
| ActivityTab.TableRoundTrip | tock-ui/src/components/ActivityTab.tsx:53-127 | a header line followed by the rendered rows of well-formed activities parses back to exactly those rows, provided no description holds a line break or the idle message `No current activity` and a one-word description's duration is already normalised |
| ActivityTab.RowIdle | tock-ui/src/components/ActivityTab.tsx:57 | a rendered row contains the idle message exactly when its description does: the message cannot straddle the column gaps |
| ActivityTab.IdleInRowEmptiesTable | tock-ui/src/components/ActivityTab.tsx:57-59 | a table one of whose descriptions contains the idle message parses to no rows at all, since the check looks at the whole output |
| ActivityTab.HeaderedOutput | tock-ui/src/components/ActivityTab.tsx:62-73 | when the first line is the column header, the result is the parse of the remaining lines alone |
| ActivityTab.SingleLineNoRow | tock-ui/src/components/ActivityTab.tsx:62-73 | a one-line output that does not start with a digit gives no rows |
| ActivityTab.CurrentActivities | tock-ui/src/components/ActivityTab.tsx:129-134 | a successful lookup shows the parsed output; a failure shows the parse of its error text, and nothing when there is no error text (the fallback `No active activities` parses to no rows) |
| ActivityTab.ErrorShownAsTable | tock-ui/src/components/ActivityTab.tsx:129-134 | a failure whose error text is a rendered table of printable activities shows exactly those activities |
| ActivityTab.Collect | tock-ui/src/components/ActivityTab.tsx:144-156 | the project map holds one entry per project name, namely the one built from that project's first activity in the output (the reversed walk sets it last), and nothing else |
| ActivityTab.RecentProjects | tock-ui/src/components/ActivityTab.tsx:136-164 | the recent projects are sorted by name with no name twice, and are exactly the members of the project map |
| ActivityTab.RecentProjectOf | tock-ui/src/components/ActivityTab.tsx:144-161 | a project's first activity in the output appears in the list, and is the only entry under that project's name |
| ActivityTab.LoadRecentProjects | tock-ui/src/components/ActivityTab.tsx:136-164 | a failed lookup leaves the list as it was; a successful one yields a sorted, duplicate-free list |
| ActivityTab.MapSet | tock-ui/src/components/ActivityTab.tsx:150-156 | setting a key in the map keeps the keys distinct, holds the new entry, and keeps every entry under another name |
| ActivityTab.IsAddingActivity | tock-ui/src/components/ActivityTab.tsx:251-261 | a submission adds a past activity exactly when a start time is set and either an end, a duration or a date (a `-` in the start) is present |
| ActivityTab.PlanSubmit | tock-ui/src/components/ActivityTab.tsx:263-294 | an empty project or description is refused with the fixed message; otherwise `add` carries start, end or duration, while `start` carries the optional time, and both carry project and description |
| ActivityTab.Optional | tock-ui/src/components/ActivityTab.tsx:284-292 | an optional field is sent exactly when it is not blank, and then unchanged |
| ActivityTab.AfterRun | tock-ui/src/components/ActivityTab.tsx:296-314 | on success the form is cleared and the pair is starred exactly when the star was set; on failure the form is kept, nothing is starred and a non-empty error is shown |
| ActivityTab.SelectProject | tock-ui/src/components/ActivityTab.tsx:245-248 | choosing a project fills project and description and leaves the time fields alone |
| ActivityTab.CheckIfFavoriteStore | tock-ui/src/components/ActivityTab.tsx:196-204 | the star shows exactly when both fields are set and the database holds the pair |
| HistoryTab.SplitMonthRoundTrip | tock-ui/src/components/HistoryTab.tsx:133-139 | a month rendered as a head followed by dated sections splits back into that head and those (date, text) pairs, provided no head or section text holds `===` followed by optional white space and a date (rule lines such as `=====` may occur), the head does not end in a line feed, and each section text is non-empty and neither starts nor ends with a line feed |
| HistoryTab.NoDigitsPlain | tock-ui/src/components/HistoryTab.tsx:30 | text without digits, such as a `=====` rule line, meets that condition whenever it does not end in a line feed |
| HistoryTab.MonthOfRendered | tock-ui/src/components/HistoryTab.tsx:123-147 | under the same condition on head and sections as `SplitMonthRoundTrip`, the day map of a rendered month is the aggregation of exactly its sections |
| HistoryTab.MonthKeysAreDates | tock-ui/src/components/HistoryTab.tsx:133-144 | every key of the month's day map is a `dddd-dd-dd` date |
| HistoryTab.Aggregate | tock-ui/src/components/HistoryTab.tsx:137-144 | a day is present exactly when some section has that date and non-blank text, and each day records its own date |
| HistoryTab.AggregateLast | tock-ui/src/components/HistoryTab.tsx:137-144 | when a date occurs in several sections, the last non-blank one wins |
| HistoryTab.BlankIsTrimEmpty | tock-ui/src/components/HistoryTab.tsx:141 | a section is skipped exactly when its text trims to nothing |
| HistoryTab.ReadLines | tock-ui/src/components/HistoryTab.tsx:44-88 | the day's projects are the project headers without repeats, led by the first header, and there is at most one activity per line |
| HistoryTab.LeadingLinesIgnored | tock-ui/src/components/HistoryTab.tsx:72 | lines before the first project header contribute nothing |
| HistoryTab.HeaderStep | tock-ui/src/components/HistoryTab.tsx:61-69 | a header line `📁 project: total` whose project has no colon makes that project the current one and records it, listing no activity |
| HistoryTab.EntryStep | tock-ui/src/components/HistoryTab.tsx:72-82 | under a current project, an activity line `time \| description` appends `time \| project \| description` and changes nothing else |
| HistoryTab.VerbatimStep | tock-ui/src/components/HistoryTab.tsx:72-86 | under a current project, an activity line without `\|` is appended as it stands, trimmed |
| HistoryTab.SkippedStep | tock-ui/src/components/HistoryTab.tsx:54-59 | blank lines and lines holding the report title or a `=====` rule change nothing |
| HistoryTab.DayLinesRoundTrip | tock-ui/src/components/HistoryTab.tsx:44-88 | the lines of a day rendered as project blocks (a header, then `time \| description` lines) read back as every entry, in order, as `time \| project \| description` with the project of its block; provided names, totals, times and descriptions are non-empty one-line trimmed text without `\|`, project names have no colon, times hold `-` and `(` and do not start with the folder, and no line holds the report title or `=====` |
| HistoryTab.ParseDayRoundTrip | tock-ui/src/components/HistoryTab.tsx:44-96 | under the same conditions, the report text of those blocks, lines joined by line feeds, parses to the same activity lines |
| HistoryTab.Colors | tock-ui/src/components/HistoryTab.tsx:90-93 | every project gets a colour, and the i-th distinct project gets palette entry i mod 8 |
| HistoryTab.ParseDayColors | tock-ui/src/components/HistoryTab.tsx:44-96 | a parsed day colours exactly the projects named in its headers, the first one with the first palette entry |
| HistoryTab.ColorsFirstEightDistinct | tock-ui/src/components/HistoryTab.tsx:33-42 | the first eight distinct projects of a day get pairwise different colours |
| HistoryTab.ColorOf | tock-ui/src/components/HistoryTab.tsx:355 | a timeline bar always has a colour: the project's own when set, the neutral default otherwise |
| HistoryTab.TimelineEntry | tock-ui/src/components/HistoryTab.tsx:336-364 | an activity line yields a bar exactly when it has at least three `\|`-separated parts; the bar's minutes are the line's duration, and its project and description are trimmed |
| HistoryTab.TimelineOfFormatted | tock-ui/src/components/HistoryTab.tsx:81 | a line formatted as time, project and description gives back that project and description |
| HistoryTab.BarInProjectMisread | tock-ui/src/components/HistoryTab.tsx:337-341 | a project name containing `\|` is read back split at the bar |
| HistoryTab.MinutesOfText | tock-ui/src/components/HistoryTab.tsx:349-353 | the first `(Hh Mm)` in a line gives H·60+M minutes |
| HistoryTab.TotalOfTimeline | tock-ui/src/components/HistoryTab.tsx:336-367 | the day's total is the sum of the minutes of the lines that make bars |
| HistoryTab.SplitTotal | tock-ui/src/components/HistoryTab.tsx:369-370 | the total splits into hours and fewer than 60 minutes that recombine to it |
| HistoryTab.YearMonthKey | tock-ui/src/components/HistoryTab.tsx:100-102 | the cache key is the year in decimal, `-` and the two-digit month; a four-digit year gives a seven-character `YYYY-MM` key |
| HistoryTab.YearMonthKeyInjective | tock-ui/src/components/HistoryTab.tsx:100-102 | two months share a cache key only when they are the same year and month |
| HistoryTab.LoadMonth | tock-ui/src/components/HistoryTab.tsx:98-152 | the report is fetched exactly unless the cache is allowed and hit; a cache hit shows the cached days; the fresh days are written to the cache exactly when the fetch succeeded with non-blank output |
| HistoryTab.RefreshIgnoresCache | tock-ui/src/components/HistoryTab.tsx:154-156 | a refresh always fetches, and its result does not depend on the cache |
| HistoryTab.CachedMonthReloads | tock-ui/src/components/HistoryTab.tsx:105-147 | a month written to the cache loads back from it unchanged, without fetching |
| HistoryTab.Toggle | tock-ui/src/components/HistoryTab.tsx:175-188 | toggling flips the pair's star, touches no other key, and calls remove exactly when the pair was starred |
| HistoryTab.ToggleTwice | tock-ui/src/components/HistoryTab.tsx:175-188 | toggling twice restores the favourites |
| HistoryTab.FavoriteKeys | tock-ui/src/components/HistoryTab.tsx:158-169 | every loaded pair is starred, and every key comes from a loaded pair |
| HistoryTab.FavKeyInjective | tock-ui/src/components/HistoryTab.tsx:171-173 | when project names hold no `\|`, distinct pairs have distinct keys |
| HistoryTab.FavKeyCollision | tock-ui/src/components/HistoryTab.tsx:171-176 | with `\|` in names, starring one pair shows a different pair as starred |
| ProjectPicker.FilterProjects | tock-ui/src/components/ProjectSelectionModal.tsx:59-64 | the filtered list is a subsequence of the source list (source order kept) holding, with their multiplicity, exactly the projects whose lower-cased name or description contains the lower-cased query |
| ProjectPicker.FilteredProjects | tock-ui/src/components/ProjectSelectionModal.tsx:46-67 | a route whose projects are not loaded shows nothing, and everything shown matches the query |
| ProjectPicker.FilterEmptyQuery | tock-ui/src/components/ProjectSelectionModal.tsx:59-64 | an empty query shows the whole source list |
| ProjectPicker.FilterIdempotent | tock-ui/src/components/ProjectSelectionModal.tsx:59-64 | filtering again with the same query changes nothing |
| ProjectPicker.FilterAppend | tock-ui/src/components/ProjectSelectionModal.tsx:59-64 | filtering distributes over concatenation of the source lists |
| ProjectPicker.ChangeFilter | tock-ui/src/components/ProjectSelectionModal.tsx:69-84 | changing the filter keeps the query and every loaded route; it adds the fetched route only when that route was not yet loaded, and a rejected fetch stores nothing |
| ProjectPicker.FetchAtMostOnce | tock-ui/src/components/ProjectSelectionModal.tsx:73-77 | when every fetch resolves to a list before the next filter change, then over any sequence of filter changes each route is fetched at most once and never when already loaded |
| ProjectPicker.Select | tock-ui/src/components/ProjectSelectionModal.tsx:86-90 | selecting hands over the chosen project and clears the query, keeping filter and loaded routes |
| ProjectPicker.SelectShowsAll | tock-ui/src/components/ProjectSelectionModal.tsx:42-90 | after a selection the list shows the whole source of the current filter again |
| Numerals.JsParseIntOfNat | tock-ui/src/components/ActivityTab.tsx:86 | a decimal number followed by neither a digit nor `x`/`X` parses to that number (after a `0`, an `x` would make it a hexadecimal prefix) |
| Text.Split | tock-ui/src/components/ActivityTab.tsx:54 | splitting on a character gives at least one piece, no piece holds the separator, and joining the pieces restores the text |
| Text.SplitJoin | tock-ui/src/components/ActivityTab.tsx:54 | splitting a join of separator-free pieces gives the pieces back |
| Text.Trim | tock-ui/src/components/ActivityTab.tsx:54 | the trimmed text has no whitespace at either end, and is empty exactly when the text was all whitespace |
| Store.AddFavorite | tock-ui/src-tauri/src/db.rs:173-184 | afterwards the pair is a favourite and the other favourites are unchanged; an existing pair keeps its row, id and `created_at`; a new pair is appended with the id one past the `AUTOINCREMENT` counter; either way the counter moves on by one, since SQLite draws the id before `OR IGNORE` drops the row |
| Store.RepeatedAddSkipsId | tock-ui/src-tauri/src/db.rs:173-184 | adding a pair twice and then another pair stores the other one three ids past the old counter: the ignored insert leaves a gap in the `AUTOINCREMENT` ids |
| Store.RemoveFavorite | tock-ui/src-tauri/src/db.rs:186-193 | afterwards the pair is not a favourite, every other pair keeps its status, and pairs stay unique |
| Store.AllFavorites | tock-ui/src-tauri/src/db.rs:205-222 | the favourites are listed exactly as stored, latest creation time first |
| Store.LoadedFavorites | tock-ui/src/components/HistoryTab.tsx:158-173 | every stored favourite shows as starred in the history tab, and without `\|` in project names nothing else does |
| Store.IsFavoriteCommand | tock-ui/src-tauri/src/lib.rs:355-368 | the command answers `true` exactly for stored pairs |
| Store.AddApiRoute | tock-ui/src-tauri/src/db.rs:225-235 | a route name already in use is refused with SQLite's unique-constraint error and changes nothing; otherwise the route is stored enabled under the id one past the `AUTOINCREMENT` counter, which becomes the new counter and belongs to no stored route |
| Store.AddApiRouteCommand | tock-ui/src-tauri/src/lib.rs:397-410 | adding succeeds exactly for a fresh name; a failure leaves the database unchanged and reports the constraint error |
| Store.UpdateApiRoute | tock-ui/src-tauri/src/db.rs:237-244 | an update is refused exactly when another route already has the new name; otherwise only the row with that id changes |
| Store.UpdateRows | tock-ui/src-tauri/src/db.rs:237-244 | an update keeps every row's id and creation time, changes only the row with the given id, and gives it the new name, URL and flag |
| Store.UpdateAbsentRow | tock-ui/src-tauri/src/db.rs:237-244 | updating an id that is not stored changes nothing |
| Store.DeleteRows | tock-ui/src-tauri/src/db.rs:246-253 | deleting removes exactly the row with that id and keeps ids ordered and names unique |
| Store.DeleteApiRoute | tock-ui/src-tauri/src/db.rs:246-253 | deleting a route touches no other table; its cached projects stay (foreign keys taken as not enforced) |
| Store.ByName | tock-ui/src-tauri/src/db.rs:255-273 | all routes are listed sorted by name, each once |
| Store.EnabledByName | tock-ui/src-tauri/src/db.rs:275-293 | exactly the enabled routes are listed, sorted by name |
| Store.EnabledIsFilteredAll | tock-ui/src-tauri/src/db.rs:255-293 | the enabled routes are the full list with the disabled ones dropped |
| Store.AddReportRoute | tock-ui/src-tauri/src/db.rs:296-306 | a report route is always stored, enabled, under the id one past the `AUTOINCREMENT` counter, which becomes the new counter and belongs to no stored route |
| Store.SameNameTwice | tock-ui/src-tauri/src/db.rs:97-118 | report routes may share a name, while a second API route with the same name is refused |
| Store.GetReportSettings | tock-ui/src-tauri/src/db.rs:367-404 | stored settings are returned unchanged; when there are none, the default (auto-send off, no route, never sent) is stored and returned |
| Store.GetSettingsTwice | tock-ui/src-tauri/src/db.rs:367-404 | reading the settings twice gives the same settings, and the second read stores nothing |
| Store.UpdateReportSettings | tock-ui/src-tauri/src/db.rs:406-430 | the settings afterwards hold the new flag and route and keep their id and last-sent time; missing settings are created |
| Store.SettingsRoundTrip | tock-ui/src-tauri/src/db.rs:367-430 | the auto-send flag and route read after an update are the ones just written |
| Store.UpdateLastSentAt | tock-ui/src-tauri/src/db.rs:432-442 | every settings row gets the new last-sent time; without settings nothing changes |
| Store.LastSentRoundTrip | tock-ui/src-tauri/src/db.rs:367-442 | with settings present, the last-sent time read back is the one just written |
| Store.SaveCalendarCache | tock-ui/src-tauri/src/db.rs:467-477 | the month reads back as the data just saved, and other months are untouched |
| Store.ClearCalendarCache | tock-ui/src-tauri/src/db.rs:479-486 | the month reads back as absent, and other months are untouched |
| Store.CalendarLastSaveWins | tock-ui/src-tauri/src/db.rs:445-477 | of two saves for one month, the later is the one read |
| Store.SaveProject | tock-ui/src-tauri/src/db.rs:526-539 | a saved project replaces the row with the same name, description and route, and is stored under a new id |
| Store.SaveCachedProjects | tock-ui/src-tauri/src/db.rs:526-539 | every saved project is present afterwards, no other row is lost, and every row is an old one or a saved one; a row with a saved key is a new row (an id past the old counter) stamped with the save time, as `INSERT OR REPLACE` gives |
| Store.DeleteCachedProjects | tock-ui/src-tauri/src/db.rs:541-548 | exactly the projects of that route are removed |
| Store.GetCachedProjects | tock-ui/src-tauri/src/db.rs:488-524 | the listed projects are sorted by name and are exactly the cached ones, restricted to the route when one is given |
| Store.DeletedRouteListsNothing | tock-ui/src-tauri/src/db.rs:488-548 | after deleting a route's projects, listing that route gives nothing |
| Store.SetPreference | tock-ui/src-tauri/src/db.rs:566-576 | the key reads back as the value just set, and other keys are untouched |
| Store.ApplyValid | tock-ui/src-tauri/src/db.rs:81-170 | each write keeps the table constraints: unique favourite pairs, increasing route ids below the counter, unique API route names, at most one settings row, unique cached projects |
| Store.ReachableValid | tock-ui/src-tauri/src/db.rs:81-170 | every database reached from the empty one by any sequence of writes satisfies the table constraints |

## Left out

- Process spawning, file creation, the HTTP client, environment variables, the clock, the Tauri runtime, the `Mutex` around the connection and the database file location are not modelled. Their outcomes are parameters: `ProcessOutcome`, `FileOutcome`, `HttpOutcome`, the `today`/`yesterday`/`now` strings and the `home`/`userProfile` options.
- JSON serialisation and parsing are not modelled. This covers the favourite, route and project lists returned by the back end, the calendar cache contents, and the API project payload read by `handleFetchFromApi` (ActivityTab.tsx:206-235). The cache holds the day map itself.
- Only the back-end commands that build non-trivial arguments are modelled. `get_current_activity`, `get_activities_for_date` and `check_tock_installed` pass fixed argument vectors and are left out.
- `get_activities_for_month` and the calendar-cache commands that the history tab calls are not in the handler list of lib.rs. Their answers are parameters of `HistoryTab.LoadMonth`, and the cache table is modelled on its own in `Store`.
- The React rendering is not modelled. That covers the calendar grid, the modals, the loading flags, the `displayTime` regex of the timeline (HistoryTab.tsx:345-346) and the key hash of the picker's list items (ProjectSelectionModal.tsx:228-232). The same goes for `toggleFavorite` and `handleStopActivity` in the activity tab, which only call commands and refresh, and for the other components (App, SettingsTab, ApiRouteManager, ReportApiSender, TabSelector, UpdateChecker).
- SQLite failures other than the unique constraint on API route names, such as I/O errors and locking, are not modelled: every other statement succeeds.
- Foreign keys: the model assumes they are not enforced, so deleting a route leaves its cached projects and `Store` has no cascades. db.rs declares them but never issues `PRAGMA foreign_keys`. Whether SQLite enforces them then depends on how the library is built (rusqlite's `bundled` build turns them on by default), and the build configuration is not part of this model. With enforcement, deleting an API route would also delete its cached projects (`ON DELETE CASCADE`, db.rs:142) and deleting a report route would clear the settings' route (`ON DELETE SET NULL`, db.rs:128).
- Store.DeleteApiRoute: holds only when foreign keys are not enforced; see the line on foreign keys above.
- The row id that `add_favorite` returns is not modelled; the command discards it.
- Text.IsSpace: whitespace is the ASCII set only. JavaScript's `\s` and `trim` also strip Unicode spaces, and Rust's `trim` does the same.
- Text.Lower: case folding is ASCII only, whereas `toLowerCase` folds all of Unicode.
- Ordering.Less: `localeCompare` and SQLite's `ORDER BY` are both modelled as code-point order. This is SQLite's default collation, but the browser's locale order may differ.
- Store.AllFavorites: rows with equal creation times are listed in a fixed order of the model. SQLite leaves their order unspecified.
- Store.ByName: report routes and cached projects with the same name come out in rowid order here. SQLite's `ORDER BY name` leaves their order unspecified.
- Store.GetReportSettings: `LIMIT 1` without `ORDER BY` is taken as the first row in insertion order.
- Numerals.JsParseInt: integers are unbounded. JavaScript numbers lose precision above 2^53 and Rust's `u32` arguments are limited by `requires` clauses, so very large seconds counts and durations are not modelled.
- HistoryTab.HeaderAt: the folder emoji of the project headers is one character here, while JavaScript strings hold it as two UTF-16 code units. The patterns used match it the same way.
- HistoryTab.ColorOf: colour lookup is a map lookup. A project named like an `Object.prototype` property (`constructor`, say) would pick up that property in JavaScript.
- ProjectPicker.FetchAtMostOnce: each fetch is taken to resolve before the next filter change. In `handleFilterChange` the loaded-check reads the map captured at render time and the result is stored only after the `await`, and route buttons are disabled only for disabled routes. So clicking a route, another tab and the route again before the first fetch resolves fetches that route twice, and whichever fetch finishes first clears the loading flag of the other. A rejected fetch stores nothing, so the route is fetched again on its next click.
- Commands.SaveReport: the save directory's existence and Windows path rules are not modelled. A path is joined the way `PathBuf::join` does it on Unix.

=== FILE: activity.dfy ===
/** The activity tab (`ActivityTab.tsx`): reading the table that `tock current`
    and `tock last` print, tidying durations given in seconds, deriving the list
    of recent projects, and deciding which command the form runs. */
module ActivityTab {
  import opened Wrappers
  import opened Text
  import opened Numerals
  import opened Ordering
  import opened Commands
  import ProjectPicker

  /** One row of the activity table. */
  datatype ParsedActivity = ParsedActivity(start: string, description: string, project: string, duration: string)

  // ---------------------------------------------------------------------------
  // Recognising one row

  /** Width of the `YYYY-MM-DD HH:MM` start stamp. */
  const STAMP_LEN: nat := 16

  /** What the start stamp demands at position `i`. */
  predicate StampChar(i: nat, c: char) {
    if i == 4 || i == 7 then c == '-'
    else if i == 10 then c == ' '
    else if i == 13 then c == ':'
    else IsDigit(c)
  }

  /** `\d{4}-\d{2}-\d{2} \d{2}:\d{2}`. */
  predicate IsStamp(s: string) {
    |s| == STAMP_LEN && forall i :: 0 <= i < |s| ==> StampChar(i, s[i])
  }

  /** Several words separated by white space: what `[^\s]+(?:\s+[^\s]+)*` matches. */
  predicate IsPhrase(s: string) {
    |s| > 0 && !IsSpace(s[0]) && !IsSpace(s[|s| - 1])
  }

  /** The text after the stamp, cut into the pieces both row patterns name:
      a gap, the description, a gap, the project, a gap, the duration. */
  datatype Layout = Layout(gap0: string, description: string, gap1: string, project: string,
                           gap2: string, duration: string)

  function Compose(l: Layout): string {
    l.gap0 + l.description + l.gap1 + l.project + l.gap2 + l.duration
  }

  /** The pieces have the shapes the flexible pattern asks for. */
  predicate WellLaid(l: Layout) {
    IsGap(l.gap0) && IsPhrase(l.description) && IsGap(l.gap1) && IsWord(l.project)
    && IsGap(l.gap2) && IsWord(l.duration)
  }

  /** Length of the longest suffix of `s` made only of white space (`space`)
      or only of other characters (`!space`). */
  function TrailingRun(s: string, space: bool): (k: nat)
    ensures k <= |s|
    ensures forall i :: |s| - k <= i < |s| ==> IsSpace(s[i]) == space
    ensures k < |s| ==> IsSpace(s[|s| - k - 1]) != space
  {
    if |s| > 0 && IsSpace(s[|s| - 1]) == space then 1 + TrailingRun(s[..|s| - 1], space) else 0
  }

  /** A run of one kind after a character of the other kind is exactly the trailing run. */
  lemma {:induction false} TrailingRunOf(x: string, y: string, space: bool)
    requires forall i :: 0 <= i < |y| ==> IsSpace(y[i]) == space
    requires |x| > 0 ==> IsSpace(x[|x| - 1]) != space
    ensures TrailingRun(x + y, space) == |y|
    decreases |y|
  {
    if |y| == 0 {
      assert x + y == x;
    } else {
      assert (x + y)[..|x + y| - 1] == x + y[..|y| - 1];
      TrailingRunOf(x, y[..|y| - 1], space);
    }
  }

  /** Splits `s` before its trailing run of non-white characters. */
  function CutWord(s: string): (r: (string, string))
    ensures r.0 + r.1 == s && NoSpace(r.1)
    ensures |r.0| > 0 ==> IsSpace(r.0[|r.0| - 1])
  {
    var k := TrailingRun(s, false);
    (s[..|s| - k], s[|s| - k..])
  }

  /** Splits `s` before its trailing white space. */
  function CutGap(s: string): (r: (string, string))
    ensures r.0 + r.1 == s && AllSpace(r.1)
    ensures |r.0| > 0 ==> !IsSpace(r.0[|r.0| - 1])
  {
    var k := TrailingRun(s, true);
    (s[..|s| - k], s[|s| - k..])
  }

  /** Splits a text ending in a non-white character into its leading gap and a
      phrase; `None` when either would be empty. */
  function CutLead(s: string): (r: Option<(string, string)>)
    requires |s| > 0 ==> !IsSpace(s[|s| - 1])
    ensures r.Some? ==> r.value.0 + r.value.1 == s && IsGap(r.value.0) && IsPhrase(r.value.1)
  {
    var description := TrimStart(s);
    if |description| == 0 || |description| == |s| then None
    else
      assert description[|description| - 1] == s[|s| - 1];
      Some((s[..|s| - |description|], description))
  }

  /** Cuts `rest` from the right: the last word is the duration, the one before
      it the project, and what precedes them, without its leading gap, the
      description. `None` when the text has no such shape. */
  function LayOut(rest: string): (r: Option<Layout>)
    ensures r.Some? ==> WellLaid(r.value) && Compose(r.value) == rest
  {
    var (r1, duration) := CutWord(rest);
    var (r2, gap2) := CutGap(r1);
    var (r3, project) := CutWord(r2);
    var (r4, gap1) := CutGap(r3);
    if |duration| == 0 || |gap2| == 0 || |project| == 0 || |gap1| == 0 then None
    else
      match CutLead(r4)
      case None => None
      case Some((gap0, description)) =>
        Some(Layout(gap0, description, gap1, project, gap2, duration))
  }

  /** Every well-laid text is cut back into exactly its pieces: the cut is unique. */
  lemma LayOutComplete(l: Layout)
    requires WellLaid(l)
    ensures LayOut(Compose(l)) == Some(l)
  {
    var r4 := l.gap0 + l.description;
    var r3 := r4 + l.gap1;
    var r2 := r3 + l.project;
    var r1 := r2 + l.gap2;
    LastOf(r2, l.gap2);
    CutWordOf(r1, l.duration);
    LastOf(r3, l.project);
    CutGapOf(r2, l.gap2);
    LastOf(r4, l.gap1);
    CutWordOf(r3, l.project);
    LastOf(l.gap0, l.description);
    CutGapOf(r4, l.gap1);
    CutLeadOf(l.gap0, l.description);
  }

  lemma LastOf(x: string, y: string)
    requires |y| > 0
    ensures (x + y)[|x + y| - 1] == y[|y| - 1]
  {
  }

  /** A word after a white-space character is cut off whole. */
  lemma CutWordOf(x: string, y: string)
    requires NoSpace(y) && (|x| > 0 ==> IsSpace(x[|x| - 1]))
    ensures CutWord(x + y) == (x, y)
  {
    TrailingRunOf(x, y, false);
    assert (x + y)[..|x|] == x;
  }

  /** A gap after a non-white character is cut off whole. */
  lemma CutGapOf(x: string, y: string)
    requires AllSpace(y) && (|x| > 0 ==> !IsSpace(x[|x| - 1]))
    ensures CutGap(x + y) == (x, y)
  {
    TrailingRunOf(x, y, true);
    assert (x + y)[..|x|] == x;
  }

  /** A gap before a phrase is cut off whole. */
  lemma CutLeadOf(x: string, y: string)
    requires IsGap(x) && IsPhrase(y)
    ensures CutLead(x + y) == Some((x, y))
  {
    TrimStartPrefix(x, y);
    assert (x + y)[..|x|] == x;
  }

  // ---------------------------------------------------------------------------
  // Durations

  /** `<v><u>` when `v` is not zero, nothing otherwise. */
  function Group(v: nat, u: char): string {
    if v > 0 then NatToString(v) + [u] else ""
  }

  /** Hours, then minutes and seconds when not zero. */
  function FormatHours(h: nat, m: nat, sec: nat): string {
    NatToString(h) + "h" + (Group(m, 'm') + Group(sec, 's'))
  }

  /** Minutes, then seconds when not zero. */
  function FormatMinutes(m: nat, sec: nat): string {
    NatToString(m) + "m" + Group(sec, 's')
  }

  /** Hours, minutes and seconds, each group left out when zero. */
  function Hms(h: nat, m: nat, sec: nat): string {
    Group(h, 'h') + Group(m, 'm') + Group(sec, 's')
  }

  /** The display form of a duration of at least a minute given in seconds:
      hours, then minutes and seconds, each shown only when not zero (minutes
      always shown below an hour). Whichever way `n` is written as hours plus
      minutes and seconds below sixty, the text is that split with the zero
      groups left out; it has an `h` exactly from an hour on, and an `m`
      below an hour. */
  function FormatSeconds(n: nat): (r: string)
    requires n >= 60
    ensures forall h: nat, m: nat, sec: nat {:trigger Hms(h, m, sec)} ::
              m < 60 && sec < 60 && h * 3600 + m * 60 + sec == n ==> r == Hms(h, m, sec)
    ensures 'h' in r <==> n >= 3600
    ensures n < 3600 ==> 'm' in r
  {
    var r := if n >= 3600 then FormatHours(n / 3600, (n % 3600) / 60, n % 60)
             else FormatMinutes(n / 60, n % 60);
    FormatShape(n, r);
    r
  }

  /** `h`, `m` and `sec` are the only split of `n` into hours and minutes and
      seconds below sixty. */
  lemma SplitUnique(n: nat, h: nat, m: nat, sec: nat)
    requires m < 60 && sec < 60 && h * 3600 + m * 60 + sec == n
    ensures h == n / 3600 && m == (n % 3600) / 60 && sec == n % 60
  {
    var t := m * 60 + sec;
    assert 0 <= t < 3600;
    assert n == h * 3600 + t;
    assert n / 3600 == h && n % 3600 == t;
    SixtyDivMod(t, m, sec);
    SixtyDivMod(n, h * 60 + m, sec);
  }

  /** The shape of the two renderings `FormatSeconds` chooses between. */
  lemma FormatShape(n: nat, r: string)
    requires n >= 60
    requires r == if n >= 3600 then FormatHours(n / 3600, (n % 3600) / 60, n % 60)
                  else FormatMinutes(n / 60, n % 60)
    ensures forall h: nat, m: nat, sec: nat {:trigger Hms(h, m, sec)} ::
              m < 60 && sec < 60 && h * 3600 + m * 60 + sec == n ==> r == Hms(h, m, sec)
    ensures 'h' in r <==> n >= 3600
    ensures n < 3600 ==> 'm' in r
  {
    forall h: nat, m: nat, sec: nat | m < 60 && sec < 60 && h * 3600 + m * 60 + sec == n
      ensures r == Hms(h, m, sec)
    {
      SplitUnique(n, h, m, sec);
      if n >= 3600 {
        HoursShape(h, m, sec);
      } else {
        assert m == n / 60 by { SixtyDivMod(n, m, sec); }
        MinutesShape(m, sec);
      }
    }
    if n >= 3600 {
      HoursLetter(n / 3600, (n % 3600) / 60, n % 60);
    } else {
      MinutesLetters(n / 60, n % 60);
    }
  }

  /** With at least an hour, the hours group is shown. */
  lemma HoursShape(h: nat, m: nat, sec: nat)
    requires h > 0
    ensures FormatHours(h, m, sec) == Hms(h, m, sec)
  {
  }

  /** Below an hour the hours group is left out. */
  lemma MinutesShape(m: nat, sec: nat)
    requires m > 0
    ensures FormatMinutes(m, sec) == Hms(0, m, sec)
  {
  }

  lemma HoursLetter(h: nat, m: nat, sec: nat)
    ensures 'h' in FormatHours(h, m, sec)
  {
    assert FormatHours(h, m, sec)[|NatToString(h)|] == 'h';
  }

  lemma MinutesLetters(m: nat, sec: nat)
    ensures 'm' in FormatMinutes(m, sec) && 'h' !in FormatMinutes(m, sec)
  {
    var d := NatToString(m);
    DigitsNoLetters(d);
    assert FormatMinutes(m, sec)[|d|] == 'm';
    if sec > 0 { DigitsNoLetters(NatToString(sec)); }
    assert 'h' !in Group(sec, 's');
  }

  /** Seconds per unit letter of a duration. */
  function UnitSeconds(u: char): nat {
    if u == 'h' then 3600 else if u == 'm' then 60 else 1
  }

  /** Reads a duration written as groups `<digits><unit>`, unit one of `h`, `m`,
      `s`, adding up the seconds; `None` for any other text. */
  function ReadUnits(s: string): Option<nat>
    decreases |s|
  {
    if |s| == 0 then Some(0)
    else
      var k := DigitRun(s);
      if k == 0 || k == |s| || !(s[k] in "hms") then None
      else match ReadUnits(s[k + 1..])
        case None => None
        case Some(v) => Some(DigitsValue(s[..k]) * UnitSeconds(s[k]) + v)
  }

  /** Reading one rendered group and the rest after it. */
  lemma ReadUnitsGroup(n: nat, u: char, rest: string, v: nat)
    requires u in "hms" && ReadUnits(rest) == Some(v)
    ensures ReadUnits(NatToString(n) + [u] + rest) == Some(n * UnitSeconds(u) + v)
  {
    ReadUnitsDigits(NatToString(n), u, rest, v);
  }

  /** Reading a run of digits followed by a unit letter and the rest. */
  lemma ReadUnitsDigits(d: string, u: char, rest: string, v: nat)
    requires |d| > 0 && AllDigits(d)
    requires u in "hms" && ReadUnits(rest) == Some(v)
    ensures ReadUnits(d + [u] + rest) == Some(DigitsValue(d) * UnitSeconds(u) + v)
  {
    var s := d + [u] + rest;
    assert s == d + ([u] + rest);
    DigitRunOf(d, [u] + rest);
    assert s[..|d|] == d && s[|d|] == u && s[|d| + 1..] == rest;
    ReadUnitsStep(s, |d|, v);
    SomeValue(ReadUnits(s), DigitsValue(d) * UnitSeconds(u) + v);
  }

  lemma SomeValue(x: Option<nat>, b: nat)
    requires x.Some? && x.value == b
    ensures x == Some(b)
  {
  }

  /** One step of reading: digits up to `k`, a unit letter at `k`, and a rest
      that reads as `v`. */
  lemma ReadUnitsStep(s: string, k: nat, v: nat)
    requires 0 < k < |s| && DigitRun(s) == k && s[k] in "hms" && ReadUnits(s[k + 1..]) == Some(v)
    ensures ReadUnits(s).Some? && ReadUnits(s).value == DigitsValue(s[..k]) * UnitSeconds(s[k]) + v
  {
  }

  /** An omitted or shown group adds its value. */
  lemma ReadUnitsOptionalGroup(n: nat, u: char, rest: string, v: nat)
    requires u in "hms" && ReadUnits(rest) == Some(v)
    ensures ReadUnits(Group(n, u) + rest) == Some(n * UnitSeconds(u) + v)
  {
    if n > 0 {
      ReadUnitsGroup(n, u, rest, v);
    } else {
      assert Group(n, u) + rest == rest;
    }
  }

  lemma SplitSeconds(n: nat)
    ensures n == (n / 3600) * 3600 + ((n % 3600) / 60) * 60 + n % 60
    ensures n == (n / 60) * 60 + n % 60
  {
    var h, r := n / 3600, n % 3600;
    var q, sec := r / 60, r % 60;
    assert n == h * 3600 + r && 0 <= r < 3600;
    assert r == q * 60 + sec && 0 <= sec < 60;
    SixtyDivMod(n, h * 60 + q, sec);
  }

  /** Division by sixty is determined by quotient and remainder. */
  lemma SixtyDivMod(n: nat, q: int, sec: int)
    requires n == q * 60 + sec && 0 <= sec < 60
    ensures n / 60 == q && n % 60 == sec
  {
  }

  /** The seconds group alone reads back as its value. */
  lemma ReadSecondsGroup(sec: nat)
    ensures ReadUnits(Group(sec, 's')) == Some(sec)
  {
    ReadUnitsOptionalGroup(sec, 's', "", 0);
    assert Group(sec, 's') + "" == Group(sec, 's');
  }

  /** Minutes and seconds groups together read back as their sum. */
  lemma ReadMinutesSeconds(m: nat, sec: nat)
    ensures ReadUnits(Group(m, 'm') + Group(sec, 's')) == Some(m * 60 + sec)
  {
    ReadSecondsGroup(sec);
    ReadUnitsOptionalGroup(m, 'm', Group(sec, 's'), sec);
  }

  /** The display form reads back as the same number of seconds. */
  lemma FormatSecondsReadsBack(n: nat)
    requires n >= 60
    ensures ReadUnits(FormatSeconds(n)) == Some(n)
  {
    if n >= 3600 {
      HoursReadBack(n);
    } else {
      MinutesReadBack(n);
    }
  }

  lemma HoursReadBack(n: nat)
    requires n >= 3600
    ensures ReadUnits(FormatSeconds(n)) == Some(n)
  {
    var h, m, sec := n / 3600, (n % 3600) / 60, n % 60;
    assert h * 3600 + (m * 60 + sec) == n by { SplitSeconds(n); }
    assert FormatSeconds(n) == FormatHours(h, m, sec);
    var v := m * 60 + sec;
    ReadMinutesSeconds(m, sec);
    ReadHoursGroup(h, m, sec, v);
    SomeValue(ReadUnits(FormatSeconds(n)), n);
  }

  lemma MinutesReadBack(n: nat)
    requires 60 <= n < 3600
    ensures ReadUnits(FormatSeconds(n)) == Some(n)
  {
    var m, sec := n / 60, n % 60;
    assert m * 60 + sec == n by { SplitSeconds(n); }
    assert FormatSeconds(n) == FormatMinutes(m, sec);
    ReadMinutes(m, sec);
    SomeValue(ReadUnits(FormatSeconds(n)), n);
  }

  /** An hours group in front of readable minutes and seconds adds its seconds. */
  lemma ReadHoursGroup(h: nat, m: nat, sec: nat, v: nat)
    requires ReadUnits(Group(m, 'm') + Group(sec, 's')) == Some(v)
    ensures ReadUnits(FormatHours(h, m, sec)) == Some(h * 3600 + v)
  {
    ReadUnitsGroup(h, 'h', Group(m, 'm') + Group(sec, 's'), v);
    assert UnitSeconds('h') == 3600;
  }

  lemma ReadMinutes(m: nat, sec: nat)
    ensures ReadUnits(FormatMinutes(m, sec)) == Some(m * 60 + sec)
  {
    ReadSecondsGroup(sec);
    ReadUnitsGroup(m, 'm', Group(sec, 's'), sec);
    assert FormatMinutes(m, sec) == NatToString(m) + ['m'] + Group(sec, 's');
  }

  /** Three concrete renderings. */
  lemma FormatSecondsExamples()
    ensures FormatSeconds(3700) == "1h1m40s"
    ensures FormatSeconds(7200) == "2h"
    ensures FormatSeconds(90) == "1m30s"
  {
    FormatHoursExample();
    FormatWholeHoursExample();
    FormatMinutesExample();
  }

  lemma FormatHoursExample()
    ensures FormatSeconds(3700) == "1h1m40s"
  {
    assert 3700 / 3600 == 1 && (3700 % 3600) / 60 == 1 && 3700 % 60 == 40;
    assert NatToString(40) == "40";
    assert Group(1, 'm') + Group(40, 's') == "1m40s";
  }

  lemma FormatWholeHoursExample()
    ensures FormatSeconds(7200) == "2h"
  {
    assert 7200 / 3600 == 2 && (7200 % 3600) / 60 == 0 && 7200 % 60 == 0;
  }

  lemma FormatMinutesExample()
    ensures FormatSeconds(90) == "1m30s"
  {
    assert 90 / 60 == 1 && 90 % 60 == 30;
    assert NatToString(30) == "30";
  }

  /** A duration given in seconds only: it ends in `s` and has no `m` or `h`. */
  predicate SecondsOnly(d: string) {
    |d| > 0 && d[|d| - 1] == 's' && 'm' !in d && 'h' !in d
  }

  /** The duration shown for a row: a text ending in `s`, free of `m` and `h`,
      whose `parseInt` is at least 60 is re-rendered by `FormatSeconds`; any
      other duration is shown as it is. */
  function NormalizeDuration(d: string): (r: string)
    ensures r != d ==> SecondsOnly(d)
    ensures r != d ==> JsParseInt(d).Some? && JsParseInt(d).value >= 60
                       && ReadUnits(r) == Some(JsParseInt(d).value)
    ensures SecondsOnly(d) && JsParseInt(d).Some? && JsParseInt(d).value >= 60 ==> r != d
  {
    if SecondsOnly(d) then
      match JsParseInt(d)
      case Some(n) =>
        if n >= 60 then
          FormatSecondsReadsBack(n);
          FormatSeconds(n)
        else d
      case None => d
    else d
  }

  /** Digits contain neither unit letter. */
  lemma DigitsNoLetters(t: string)
    requires AllDigits(t)
    ensures 'm' !in t && 'h' !in t && 's' !in t
  {
  }

  /** A whole number of seconds as tock prints it: at least a minute is re-rendered,
      less is left alone. */
  lemma NormalizeSeconds(n: nat)
    ensures NormalizeDuration(NatToString(n) + "s")
            == if n >= 60 then FormatSeconds(n) else NatToString(n) + "s"
  {
    var t := NatToString(n);
    var d := t + "s";
    JsParseIntOfNat(n, "s");
    DigitsNoLetters(t);
    assert SecondsOnly(d) by {
      assert d[|d| - 1] == 's';
      assert forall c :: c in d ==> c in t || c == 's';
    }
  }

  /** The display form has no white space, so the row keeps its shape. */
  lemma NormalizeKeepsWord(d: string)
    requires IsWord(d)
    ensures IsWord(NormalizeDuration(d))
  {
    var r := NormalizeDuration(d);
    if r != d {
      var n := JsParseInt(d).value;
      FormatWord(n);
    }
  }

  lemma NatToStringWord(n: nat)
    ensures NoSpace(NatToString(n))
  {
    var t := NatToString(n);
    forall i | 0 <= i < |t| ensures !IsSpace(t[i]) {
      assert IsDigit(t[i]);
    }
  }

  lemma NoSpaceConcat(a: string, b: string)
    requires NoSpace(a) && NoSpace(b)
    ensures NoSpace(a + b)
  {
    forall i | 0 <= i < |a + b| ensures !IsSpace((a + b)[i]) {
      if i >= |a| { assert (a + b)[i] == b[i - |a|]; }
    }
  }

  lemma GroupWord(v: nat, u: char)
    requires !IsSpace(u)
    ensures NoSpace(Group(v, u))
  {
    if v > 0 {
      NatToStringWord(v);
      NoSpaceConcat(NatToString(v), [u]);
    }
  }

  lemma FormatWord(n: nat)
    requires n >= 60
    ensures IsWord(FormatSeconds(n))
  {
    var head := if n >= 3600 then NatToString(n / 3600) + "h" else NatToString(n / 60) + "m";
    NatToStringWord(if n >= 3600 then n / 3600 else n / 60);
    NoSpaceConcat(if n >= 3600 then NatToString(n / 3600) else NatToString(n / 60),
                  if n >= 3600 then "h" else "m");
    GroupWord((n % 3600) / 60, 'm');
    GroupWord(n % 60, 's');
    if n >= 3600 {
      NoSpaceConcat(head, Group((n % 3600) / 60, 'm'));
      NoSpaceConcat(head + Group((n % 3600) / 60, 'm'), Group(n % 60, 's'));
    } else {
      NoSpaceConcat(head, Group(n % 60, 's'));
    }
  }

  // ---------------------------------------------------------------------------
  // Rows and tables

  /** What a parsed row always looks like. */
  predicate WellFormed(a: ParsedActivity) {
    IsStamp(a.start) && IsPhrase(a.description) && IsWord(a.project) && IsWord(a.duration)
  }

  /** A stamp followed by well-laid fields. */
  function Row(stamp: string, l: Layout): string {
    stamp + Compose(l)
  }

  /** One trimmed line of the table. The strict pattern (a one-word description)
      is tried first and tidies the duration; otherwise the flexible pattern
      keeps the duration as printed. `None` when neither pattern matches. */
  function ParseLine(line: string): (r: Option<ParsedActivity>)
    ensures r.Some? ==> WellFormed(r.value) && |line| >= STAMP_LEN && r.value.start == line[..STAMP_LEN]
  {
    if |line| < STAMP_LEN || !IsStamp(line[..STAMP_LEN]) then None
    else match LayOut(line[STAMP_LEN..])
      case None => None
      case Some(l) =>
        if NoSpace(l.description) then
          NormalizeKeepsWord(l.duration);
          Some(ParsedActivity(line[..STAMP_LEN], l.description, l.project, NormalizeDuration(l.duration)))
        else
          TrimTrimmed(l.description);
          Some(ParsedActivity(line[..STAMP_LEN], Trim(l.description), l.project, l.duration))
  }

  /** Every line of the flexible shape is read back into its fields; the
      duration is tidied exactly when the description is a single word. */
  lemma ParseLineComplete(stamp: string, l: Layout)
    requires IsStamp(stamp) && WellLaid(l)
    ensures ParseLine(Row(stamp, l))
            == Some(ParsedActivity(stamp, l.description, l.project,
                                   if NoSpace(l.description) then NormalizeDuration(l.duration) else l.duration))
  {
    var line := Row(stamp, l);
    assert line[..STAMP_LEN] == stamp && line[STAMP_LEN..] == Compose(l);
    LayOutComplete(l);
    TrimTrimmed(l.description);
  }

  lemma SplitAt(s: string, k: nat)
    requires k <= |s|
    ensures s[..k] + s[k..] == s
  {
  }

  /** A line parses exactly when it is a stamp followed by well-laid fields. */
  lemma ParseLineIff(line: string)
    ensures ParseLine(line).Some? <==> exists stamp, l :: IsStamp(stamp) && WellLaid(l) && Row(stamp, l) == line
  {
    if ParseLine(line).Some? {
      var l := LayOut(line[STAMP_LEN..]).value;
      SplitAt(line, STAMP_LEN);
      assert IsStamp(line[..STAMP_LEN]) && WellLaid(l) && Row(line[..STAMP_LEN], l) == line;
    }
    if exists stamp, l :: IsStamp(stamp) && WellLaid(l) && Row(stamp, l) == line {
      var stamp, l :| IsStamp(stamp) && WellLaid(l) && Row(stamp, l) == line;
      ParseLineComplete(stamp, l);
    }
  }

  /** The text `tock` prints when nothing is running. */
  const NO_ACTIVITY := "No current activity"

  /** A first line naming the Start, Description and Project columns. */
  predicate IsHeader(line: string) {
    Contains(line, "Start") && Contains(line, "Description") && Contains(line, "Project")
  }

  /** The activity read from one trimmed line, if any. */
  function ParseRow(line: string): (r: seq<ParsedActivity>)
    ensures |r| <= 1 && forall k :: 0 <= k < |r| ==> WellFormed(r[k])
  {
    if line == [] then []
    else match ParseLine(line)
      case Some(a) => [a]
      case None => []
  }

  /** The activities of the lines after the first. */
  function ParseBody(lines: seq<string>): (r: seq<ParsedActivity>)
    ensures |r| <= |lines| && forall k :: 0 <= k < |r| ==> WellFormed(r[k])
  {
    if |lines| == 0 then [] else ParseRow(Trim(lines[0])) + ParseBody(lines[1..])
  }

  /** `parseActivityOutput`: nothing for blank output or the idle message;
      otherwise the trimmed text is cut into lines, a header in the first line
      is skipped, and every line that parses gives one activity, in order. */
  function ParseActivityOutput(output: string): (r: seq<ParsedActivity>)
    ensures AllSpace(output) || Contains(output, NO_ACTIVITY) ==> r == []
    ensures |r| <= |Split(Trim(output), '\n')|
    ensures forall k :: 0 <= k < |r| ==> WellFormed(r[k])
  {
    if AllSpace(output) || Contains(output, NO_ACTIVITY) then []
    else ParseLines(Split(Trim(output), '\n'))
  }

  /** The activities of the lines of a listing: a header in the first line is
      skipped. */
  function ParseLines(lines: seq<string>): (r: seq<ParsedActivity>)
    requires |lines| > 0
    ensures |r| <= |lines| && forall k :: 0 <= k < |r| ==> WellFormed(r[k])
  {
    var first := Trim(lines[0]);
    (if IsHeader(first) then [] else ParseRow(first)) + ParseBody(lines[1..])
  }

  /** `refreshCurrentActivities`: the text parsed is the output on success,
      otherwise the error text, or a fixed message when there is none. */
  function CurrentActivities(res: CommandResult): (r: seq<ParsedActivity>)
    ensures res.success ==> r == ParseActivityOutput(res.output)
    ensures !res.success && (res.error.None? || res.error.value == []) ==> r == []
    ensures !res.success && res.error.Some? && res.error.value != [] ==>
              r == ParseActivityOutput(res.error.value)
  {
    if res.success then ParseActivityOutput(res.output)
    else if res.error.Some? && res.error.value != [] then ParseActivityOutput(res.error.value)
    else
      NoActiveActivities();
      ParseActivityOutput("No active activities")
  }

  /** A failure whose error text happens to be a table is shown as that table:
      the error text is parsed like the output. */
  lemma ErrorShownAsTable(acts: seq<ParsedActivity>, output: string)
    requires forall k :: 0 <= k < |acts| ==> Printable(acts[k])
    ensures CurrentActivities(CommandResult(false, output, Some(RenderTable(acts)))) == acts
  {
    TableRoundTrip(acts);
  }

  /** A single trimmed line that cannot start a row yields nothing, header or not. */
  lemma SingleLineNoRow(t: string)
    requires |t| > 0 && IsTrimmed(t) && '\n' !in t && !IsDigit(t[0])
    ensures ParseActivityOutput(t) == []
  {
    assert !AllSpace(t) by { assert !IsSpace(t[0]); }
    TrimTrimmed(t);
    SplitJoin([t], '\n');
    assert |t| >= STAMP_LEN ==> !IsStamp(t[..STAMP_LEN]) by {
      if |t| >= STAMP_LEN { assert !StampChar(0, t[..STAMP_LEN][0]); }
    }
  }

  /** The fallback message is a single line that is neither a header nor a row. */
  lemma NoActiveActivities()
    ensures ParseActivityOutput("No active activities") == []
  {
    var t := "No active activities";
    assert t[0] == 'N' && t[|t| - 1] == 's';
    SingleLineNoRow(t);
  }

  // A rendering partner: tables in the layout of `tock current` / `tock last`.

  /** A header line of the table. */
  const SAMPLE_HEADER := "Start" + "  " + "Description" + "  " + "Project" + "  " + "Duration"

  /** One activity as a table line, columns separated by two spaces. */
  function RenderRow(a: ParsedActivity): string {
    a.start + "  " + a.description + "  " + a.project + "  " + a.duration
  }

  function RenderRows(acts: seq<ParsedActivity>): (r: seq<string>)
    ensures |r| == |acts| && forall k :: 0 <= k < |r| ==> r[k] == RenderRow(acts[k])
  {
    if |acts| == 0 then [] else [RenderRow(acts[0])] + RenderRows(acts[1..])
  }

  /** The header and one line per activity. */
  function RenderTable(acts: seq<ParsedActivity>): string {
    Join([SAMPLE_HEADER] + RenderRows(acts), '\n')
  }

  /** An activity the table can carry and the parser gives back unchanged: its
      fields have the row's shapes, the description holds no line break and
      not the idle message, and a single-word description comes with a
      duration that needs no tidying. */
  predicate Printable(a: ParsedActivity) {
    WellFormed(a) && '\n' !in a.description && !Contains(a.description, NO_ACTIVITY)
    && (NoSpace(a.description) ==> NormalizeDuration(a.duration) == a.duration)
  }

  /** The idle message is one line, starts with a capital `N`, neither starts
      nor ends with a space, and never has two spaces in a row, so it cannot
      straddle a line break or the gap between two columns. */
  lemma IdleMessageShape()
    ensures |NO_ACTIVITY| > 2 && NO_ACTIVITY[0] == 'N' && NO_ACTIVITY[2] == ' '
    ensures NO_ACTIVITY[|NO_ACTIVITY| - 1] != ' ' && '\n' !in NO_ACTIVITY
    ensures NoDoubleSpace(NO_ACTIVITY)
  {
    IdleSpaces(2);
    IdleSpaces(|NO_ACTIVITY| - 1);
    IdleOneLine();
    IdleNoDoubleSpace();
  }

  lemma IdleOneLine()
    ensures '\n' !in NO_ACTIVITY
  {
    forall j | 0 <= j < |NO_ACTIVITY| ensures NO_ACTIVITY[j] != '\n' {
      IdleSpaces(j);
    }
  }

  lemma IdleNoDoubleSpace()
    ensures NoDoubleSpace(NO_ACTIVITY)
  {
    forall j | 0 <= j < |NO_ACTIVITY| - 1 ensures NO_ACTIVITY[j] != ' ' || NO_ACTIVITY[j + 1] != ' ' {
      IdleSpaces(j);
      IdleSpaces(j + 1);
    }
  }

  /** The idle message has spaces at positions 2 and 10 only, and no line break. */
  lemma IdleSpaces(j: nat)
    requires j < |NO_ACTIVITY|
    ensures NO_ACTIVITY[j] == ' ' <==> j == 2 || j == 10
    ensures NO_ACTIVITY[j] != '\n'
  {
    if j < 5 {} else if j < 10 {} else if j < 15 {} else {}
  }

  lemma HeaderPlain()
    ensures '\n' !in SAMPLE_HEADER && 'N' !in SAMPLE_HEADER
  {
    var h := SAMPLE_HEADER;
    forall i | 0 <= i < |h| ensures h[i] != '\n' && h[i] != 'N' {
      if i < 10 {} else if i < 20 {} else if i < 30 {} else {}
    }
  }

  lemma SpaceNotInWord(w: string, c: char)
    requires NoSpace(w) && IsSpace(c)
    ensures c !in w
  {
  }

  lemma StampPlain(s: string)
    requires IsStamp(s)
    ensures 'N' !in s && '\n' !in s && !IsSpace(s[0])
  {
    forall i | 0 <= i < |s| ensures s[i] != 'N' && s[i] != '\n' {
      assert StampChar(i, s[i]);
    }
  }

  /** A rendered row has no line break, and is trimmed and non-empty. */
  lemma RowPlain(a: ParsedActivity)
    requires IsStamp(a.start) && IsWord(a.project) && IsWord(a.duration) && '\n' !in a.description
    ensures var line := RenderRow(a);
            '\n' !in line && IsTrimmed(line) && |line| > 0
  {
    StampPlain(a.start);
    SpaceNotInWord(a.project, '\n');
    SpaceNotInWord(a.duration, '\n');
    var line := RenderRow(a);
    var pre := a.start + "  " + a.description + "  " + a.project + "  ";
    assert line == pre + a.duration;
    assert line[|line| - 1] == a.duration[|a.duration| - 1];
    assert line[0] == a.start[0];
  }

  /** The idle message occurs in a row exactly when it occurs in the
      description: the stamp has no `N`, the project and duration no space,
      and the message cannot straddle a column gap. */
  lemma RowIdle(a: ParsedActivity)
    requires IsStamp(a.start) && IsWord(a.project) && IsWord(a.duration)
    ensures Contains(RenderRow(a), NO_ACTIVITY) <==> Contains(a.description, NO_ACTIVITY)
  {
    if Contains(a.description, NO_ACTIVITY) {
      ContainsIn(a.start + "  ", a.description, "  " + a.project + "  " + a.duration, NO_ACTIVITY);
      assert a.start + "  " + a.description + ("  " + a.project + "  " + a.duration) == RenderRow(a);
    } else {
      IdleMessageShape();
      StampPlain(a.start);
      NotContainsWithoutHead(a.start, NO_ACTIVITY);
      RowAvoids(a.start, a.description, a.project, a.duration, NO_ACTIVITY);
    }
  }

  /** A text that no column holds, which cannot straddle a column gap and
      holds a space where a word cannot, is not in the row. */
  lemma RowAvoids(start: string, description: string, project: string, duration: string, sub: string)
    requires |sub| > 2 && sub[0] != ' ' && sub[|sub| - 1] != ' ' && sub[2] == ' ' && NoDoubleSpace(sub)
    requires !Contains(start, sub) && !Contains(description, sub)
    requires NoSpace(project) && NoSpace(duration)
    ensures !Contains(start + "  " + description + "  " + project + "  " + duration, sub)
  {
    SpaceNotInWord(project, ' ');
    SpaceNotInWord(duration, ' ');
    NotContainsMissing(project, sub, 2);
    NotContainsMissing(duration, sub, 2);
    NotContainsAcrossGap(start, description, sub);
    NotContainsAcrossGap(start + "  " + description, project, sub);
    NotContainsAcrossGap(start + "  " + description + "  " + project, duration, sub);
  }

  /** A printable activity's row parses back to the activity. */
  lemma RowParses(a: ParsedActivity)
    requires Printable(a)
    ensures ParseRow(RenderRow(a)) == [a]
  {
    var l := Layout("  ", a.description, "  ", a.project, "  ", a.duration);
    assert WellLaid(l);
    assert RenderRow(a) == Row(a.start, l);
    ParseLineComplete(a.start, l);
  }

  /** A printable activity's line: no line break, no idle message, trimmed,
      and parsed back. */
  lemma RowRoundTrip(a: ParsedActivity)
    requires Printable(a)
    ensures var line := RenderRow(a);
            '\n' !in line && !Contains(line, NO_ACTIVITY) && IsTrimmed(line) && ParseRow(Trim(line)) == [a]
  {
    RowPlain(a);
    RowIdle(a);
    TrimTrimmed(RenderRow(a));
    RowParses(a);
  }

  /** A plain line in front of plain lines keeps them plain. */
  lemma PlainCons(h: string, rest: seq<string>)
    requires '\n' !in h && !Contains(h, NO_ACTIVITY) && IsTrimmed(h) && |h| > 0
    requires PlainLines(rest)
    ensures PlainLines([h] + rest)
  {
    var parts := [h] + rest;
    forall i | 0 <= i < |parts|
      ensures '\n' !in parts[i] && !Contains(parts[i], NO_ACTIVITY) && IsTrimmed(parts[i]) && |parts[i]| > 0
    {
      if i > 0 {
        assert parts[i] == rest[i - 1];
      }
    }
  }

  /** The rows of printable activities parse back to them, in order. */
  lemma BodyRoundTrip(acts: seq<ParsedActivity>)
    requires forall k :: 0 <= k < |acts| ==> Printable(acts[k])
    ensures ParseBody(RenderRows(acts)) == acts
  {
    RowsReadBack(acts);
    ParseBodyOfRows(RenderRows(acts), acts);
  }

  /** Each rendered row of printable activities parses back to its activity. */
  lemma RowsReadBack(acts: seq<ParsedActivity>)
    requires forall k :: 0 <= k < |acts| ==> Printable(acts[k])
    ensures |RenderRows(acts)| == |acts|
    ensures forall k :: 0 <= k < |acts| ==> ParseRow(Trim(RenderRows(acts)[k])) == [acts[k]]
  {
    forall k | 0 <= k < |acts| ensures ParseRow(Trim(RenderRows(acts)[k])) == [acts[k]] {
      RowAtReadBack(acts, k);
    }
  }

  /** The `k`-th rendered row parses back to the `k`-th activity. */
  lemma RowAtReadBack(acts: seq<ParsedActivity>, k: nat)
    requires forall j :: 0 <= j < |acts| ==> Printable(acts[j])
    requires k < |acts|
    ensures ParseRow(Trim(RenderRows(acts)[k])) == [acts[k]]
  {
    RowReadBack(acts[k]);
  }

  /** Lines that each parse back to one activity parse back together, in order. */
  lemma {:induction false} ParseBodyOfRows(rows: seq<string>, acts: seq<ParsedActivity>)
    requires |rows| == |acts|
    requires forall k :: 0 <= k < |acts| ==> ParseRow(Trim(rows[k])) == [acts[k]]
    ensures ParseBody(rows) == acts
    decreases |rows|
  {
    if |rows| > 0 {
      ParseBodyOfRows(rows[1..], acts[1..]);
      Reassemble(ParseBody(rows), ParseRow(Trim(rows[0])), ParseBody(rows[1..]), acts);
    }
  }

  /** A printable activity's row, trimmed, parses back to it. */
  lemma RowReadBack(a: ParsedActivity)
    requires Printable(a)
    ensures ParseRow(Trim(RenderRow(a))) == [a]
  {
    RowRoundTrip(a);
  }

  /** The rows of printable activities are plain lines. */
  lemma BodyPlain(acts: seq<ParsedActivity>)
    requires forall k :: 0 <= k < |acts| ==> Printable(acts[k])
    ensures PlainLines(RenderRows(acts))
  {
    RowsLines(acts);
  }

  /** Each rendered row of printable activities is a plain line. */
  lemma RowsLines(acts: seq<ParsedActivity>)
    requires forall k :: 0 <= k < |acts| ==> Printable(acts[k])
    ensures |RenderRows(acts)| == |acts|
    ensures forall k :: 0 <= k < |acts| ==> PlainLine(RenderRows(acts)[k])
  {
    forall k | 0 <= k < |acts| ensures PlainLine(RenderRows(acts)[k]) {
      RowAtLine(acts, k);
    }
  }

  /** The `k`-th rendered row is a plain line. */
  lemma RowAtLine(acts: seq<ParsedActivity>, k: nat)
    requires forall j :: 0 <= j < |acts| ==> Printable(acts[j])
    requires k < |acts|
    ensures PlainLine(RenderRows(acts)[k])
  {
    RowLine(acts[k]);
  }

  /** A printable activity's row is a plain line. */
  lemma RowLine(a: ParsedActivity)
    requires Printable(a)
    ensures PlainLine(RenderRow(a))
  {
    RowPlain(a);
    RowIdle(a);
  }

  /** The sample header is a header line of a printable table. */
  lemma HeaderFacts()
    ensures IsHeader(SAMPLE_HEADER) && IsTrimmed(SAMPLE_HEADER) && |SAMPLE_HEADER| > 0
    ensures '\n' !in SAMPLE_HEADER && !Contains(SAMPLE_HEADER, NO_ACTIVITY)
  {
    HeaderPlain();
    NotContainsWithoutHead(SAMPLE_HEADER, NO_ACTIVITY);
    var a := "Start" + "  ";
    var b := a + "Description" + "  ";
    assert SAMPLE_HEADER == a + "Description" + ("  " + "Project" + "  " + "Duration");
    assert SAMPLE_HEADER == b + "Project" + ("  " + "Duration");
    assert StartsWith(SAMPLE_HEADER, "Start");
    assert OccursAt(SAMPLE_HEADER, "Description", |a|);
    assert OccursAt(SAMPLE_HEADER, "Project", |b|);
    ContainsIff(SAMPLE_HEADER, "Description");
    ContainsIff(SAMPLE_HEADER, "Project");
  }

  /** A non-empty trimmed line without a line break or the idle message. */
  predicate PlainLine(line: string) {
    '\n' !in line && !Contains(line, NO_ACTIVITY) && IsTrimmed(line) && |line| > 0
  }

  /** Lines that are all plain. */
  predicate PlainLines(parts: seq<string>) {
    forall i :: 0 <= i < |parts| ==> PlainLine(parts[i])
  }

  /** The lines of a printable table are plain. */
  lemma TableLines(acts: seq<ParsedActivity>)
    requires forall k :: 0 <= k < |acts| ==> Printable(acts[k])
    ensures PlainLines([SAMPLE_HEADER] + RenderRows(acts))
  {
    BodyPlain(acts);
    HeaderFacts();
    PlainCons(SAMPLE_HEADER, RenderRows(acts));
  }

  /** A join of non-empty trimmed lines is trimmed and not blank. */
  lemma JoinTrimmed(parts: seq<string>)
    requires |parts| > 0 && PlainLines(parts)
    ensures IsTrimmed(Join(parts, '\n')) && !AllSpace(Join(parts, '\n'))
  {
    var t := Join(parts, '\n');
    JoinFirst(parts, '\n');
    JoinLast(parts, '\n');
    var last := parts[|parts| - 1];
    assert t[0] == parts[0][0];
    assert t[|t| - 1] == t[|t| - |last|..][|last| - 1];
  }

  /** Plain lines joined are trimmed, not blank, free of the idle message, and
      split back into the same lines. */
  lemma PlainTable(parts: seq<string>)
    requires |parts| > 0 && PlainLines(parts)
    ensures var t := Join(parts, '\n');
            IsTrimmed(t) && !AllSpace(t) && !Contains(t, NO_ACTIVITY) && Split(t, '\n') == parts
  {
    IdleMessageShape();
    NotContainsJoin(parts, '\n', NO_ACTIVITY);
    JoinTrimmed(parts);
    SplitJoin(parts, '\n');
  }

  /** Output whose first line is a header is read from the remaining lines. */
  lemma HeaderedOutput(t: string)
    requires !AllSpace(t) && !Contains(t, NO_ACTIVITY) && IsTrimmed(t)
    requires IsHeader(Trim(Split(t, '\n')[0]))
    ensures ParseActivityOutput(t) == ParseBody(Split(t, '\n')[1..])
  {
    TrimTrimmed(t);
  }

  /** Parsing a rendered table gives back exactly the activities, in order. */
  lemma TableRoundTrip(acts: seq<ParsedActivity>)
    requires forall k :: 0 <= k < |acts| ==> Printable(acts[k])
    ensures ParseActivityOutput(RenderTable(acts)) == acts
  {
    var lines := [SAMPLE_HEADER] + RenderRows(acts);
    TablePlain(acts);
    HeaderedOutput(RenderTable(acts));
    assert lines[1..] == RenderRows(acts);
    BodyRoundTrip(acts);
  }

  /** A rendered table of printable activities splits back into its lines and
      starts with the header. */
  lemma TablePlain(acts: seq<ParsedActivity>)
    requires forall k :: 0 <= k < |acts| ==> Printable(acts[k])
    ensures var t := RenderTable(acts);
            IsTrimmed(t) && !AllSpace(t) && !Contains(t, NO_ACTIVITY)
            && Split(t, '\n') == [SAMPLE_HEADER] + RenderRows(acts)
            && IsHeader(Trim(Split(t, '\n')[0]))
  {
    var lines := [SAMPLE_HEADER] + RenderRows(acts);
    TableLines(acts);
    PlainTable(lines);
    HeaderFacts();
    TrimTrimmed(SAMPLE_HEADER);
  }

  /** A description holding the idle message empties the whole table: the
      parser sees the message anywhere in the output and returns no rows. */
  lemma IdleInRowEmptiesTable(acts: seq<ParsedActivity>, k: nat)
    requires k < |acts| && IsStamp(acts[k].start) && IsWord(acts[k].project) && IsWord(acts[k].duration)
    requires Contains(acts[k].description, NO_ACTIVITY)
    ensures ParseActivityOutput(RenderTable(acts)) == []
  {
    RowIdle(acts[k]);
    var lines := [SAMPLE_HEADER] + RenderRows(acts);
    assert lines[k + 1] == RenderRow(acts[k]);
    ContainsJoin(lines, '\n', k + 1, NO_ACTIVITY);
  }

  // ---------------------------------------------------------------------------
  // Recent projects

  type Project = ProjectPicker.Project

  /** The picker entry an activity stands for. */
  function FromActivity(a: ParsedActivity): Project {
    ProjectPicker.Project(a.project, a.description, Some(a.start), None, None)
  }

  /** `Map.set` on a map kept as its entries in insertion order: an entry with
      the same name is replaced where it stands, otherwise `p` is appended. */
  function MapSet(m: seq<Project>, p: Project): (r: seq<Project>)
    requires KeysDistinct(m, ProjectPicker.NameOf)
    ensures KeysDistinct(r, ProjectPicker.NameOf)
    ensures p in r
    ensures forall e :: e in r ==> e == p || (e in m && e.name != p.name)
    ensures forall e :: e in m && e.name != p.name ==> e in r
  {
    if |m| == 0 then [p]
    else if m[0].name == p.name then
      ReplaceHead(m, p);
      [p] + m[1..]
    else
      KeysDistinctTail(m);
      var t := MapSet(m[1..], p);
      KeepHead(m, p, t);
      [m[0]] + t
  }

  /** The entry with the same name is the first: it is replaced in place. */
  lemma ReplaceHead(m: seq<Project>, p: Project)
    requires KeysDistinct(m, ProjectPicker.NameOf) && |m| > 0 && m[0].name == p.name
    ensures var r := [p] + m[1..];
            KeysDistinct(r, ProjectPicker.NameOf)
            && (forall e :: e in r ==> e == p || (e in m && e.name != p.name))
            && (forall e :: e in m && e.name != p.name ==> e in r)
  {
    var r := [p] + m[1..];
    forall e | e in m[1..] ensures e in m && e.name != p.name {
      var j :| 0 <= j < |m[1..]| && m[1..][j] == e;
      assert m[j + 1] == e;
    }
    forall i, j | 0 <= i < |r| && 0 <= j < |r| && i != j ensures r[i].name != r[j].name {
      assert i > 0 ==> r[i] == m[i];
      assert j > 0 ==> r[j] == m[j];
    }
  }

  /** The first entry has another name: it stays in front of the updated rest. */
  lemma KeepHead(m: seq<Project>, p: Project, t: seq<Project>)
    requires KeysDistinct(m, ProjectPicker.NameOf) && |m| > 0 && m[0].name != p.name
    requires KeysDistinct(t, ProjectPicker.NameOf) && p in t
    requires forall e :: e in t ==> e == p || (e in m[1..] && e.name != p.name)
    requires forall e :: e in m[1..] && e.name != p.name ==> e in t
    ensures var r := [m[0]] + t;
            KeysDistinct(r, ProjectPicker.NameOf)
            && (forall e :: e in r ==> e == p || (e in m && e.name != p.name))
            && (forall e :: e in m && e.name != p.name ==> e in r)
  {
    var r := [m[0]] + t;
    forall e | e in m[1..] ensures e in m {
      var j :| 0 <= j < |m[1..]| && m[1..][j] == e;
      assert m[j + 1] == e;
    }
    forall e | e in m ensures e == m[0] || e in m[1..] {
      var j :| 0 <= j < |m| && m[j] == e;
      if j > 0 { assert m[1..][j - 1] == e; }
    }
    forall k | 0 <= k < |t| ensures t[k].name != m[0].name {
      assert t[k] in t;
      if t[k] != p {
        var j :| 0 <= j < |m[1..]| && m[1..][j] == t[k];
        assert m[j + 1] == t[k];
      }
    }
    forall i, j | 0 <= i < |r| && 0 <= j < |r| && i != j ensures r[i].name != r[j].name {
      if i > 0 && j > 0 {
        assert r[i] == t[i - 1] && r[j] == t[j - 1];
      }
    }
  }

  lemma KeysDistinctTail(m: seq<Project>)
    requires |m| > 0 && KeysDistinct(m, ProjectPicker.NameOf)
    ensures KeysDistinct(m[1..], ProjectPicker.NameOf)
  {
    forall i, j | 0 <= i < |m[1..]| && 0 <= j < |m[1..]| && i != j
      ensures m[1..][i].name != m[1..][j].name
    {
      assert m[1..][i] == m[i + 1] && m[1..][j] == m[j + 1];
    }
  }

  /** No earlier activity has the project of activity `i`. */
  ghost predicate FirstWith(acts: seq<ParsedActivity>, i: int)
    requires 0 <= i < |acts|
  {
    forall j :: 0 <= j < i ==> acts[j].project != acts[i].project
  }

  /** The project map built from the activities (newest first) taken oldest
      first, so the newest activity of each project is the one kept. */
  function Collect(acts: seq<ParsedActivity>): (r: seq<Project>)
    ensures KeysDistinct(r, ProjectPicker.NameOf)
    ensures forall i :: 0 <= i < |acts| && FirstWith(acts, i) ==> FromActivity(acts[i]) in r
    ensures forall e :: e in r ==>
              exists i :: 0 <= i < |acts| && FirstWith(acts, i) && e == FromActivity(acts[i])
  {
    if |acts| == 0 then []
    else
      var rest := Collect(acts[1..]);
      var r := MapSet(rest, FromActivity(acts[0]));
      forall i | 0 <= i < |acts| && FirstWith(acts, i) ensures FromActivity(acts[i]) in r {
        if i > 0 {
          assert acts[1..][i - 1] == acts[i];
          assert FirstWith(acts[1..], i - 1) by {
            forall j | 0 <= j < i - 1 ensures acts[1..][j].project != acts[1..][i - 1].project {
              assert acts[1..][j] == acts[j + 1];
            }
          }
          assert acts[0].project != acts[i].project;
        }
      }
      forall e | e in r
        ensures exists i :: 0 <= i < |acts| && FirstWith(acts, i) && e == FromActivity(acts[i])
      {
        if e == FromActivity(acts[0]) {
          assert FirstWith(acts, 0);
        } else {
          var i :| 0 <= i < |acts[1..]| && FirstWith(acts[1..], i) && e == FromActivity(acts[1..][i]);
          assert acts[1..][i] == acts[i + 1];
          assert FirstWith(acts, i + 1) by {
            forall j | 0 <= j < i + 1 ensures acts[j].project != acts[i + 1].project {
              if j > 0 {
                assert acts[1..][j - 1] == acts[j];
              }
            }
          }
        }
      }
      r
  }

  /** `loadRecentProjects`: one entry per project, from its newest activity,
      listed by name. */
  function RecentProjects(acts: seq<ParsedActivity>): (r: seq<Project>)
    ensures SortedBy(r, ProjectPicker.NameOf) && KeysDistinct(r, ProjectPicker.NameOf)
    ensures forall e :: e in r <==> e in Collect(acts)
  {
    var c := Collect(acts);
    var r := SortBy(c, ProjectPicker.NameOf);
    SameMembers(r, c);
    r
  }

  lemma SameMembers<T>(a: seq<T>, b: seq<T>)
    requires multiset(a) == multiset(b)
    ensures forall e :: e in a <==> e in b
  {
    forall e ensures e in a <==> e in b {
      assert e in a <==> e in multiset(a);
      assert e in b <==> e in multiset(b);
    }
  }

  /** The recent list holds exactly the newest activity of every project. */
  lemma RecentProjectsMembers(acts: seq<ParsedActivity>)
    ensures forall i :: 0 <= i < |acts| && FirstWith(acts, i) ==> FromActivity(acts[i]) in RecentProjects(acts)
    ensures forall e :: e in RecentProjects(acts) ==>
              exists i :: 0 <= i < |acts| && FirstWith(acts, i) && e == FromActivity(acts[i])
  {
  }

  /** Every project named by an activity appears once, with the description
      and start of its newest activity. */
  lemma RecentProjectOf(acts: seq<ParsedActivity>, i: int)
    requires 0 <= i < |acts| && FirstWith(acts, i)
    ensures exists k :: 0 <= k < |RecentProjects(acts)| && RecentProjects(acts)[k] == FromActivity(acts[i])
    ensures forall k :: 0 <= k < |RecentProjects(acts)| && RecentProjects(acts)[k].name == acts[i].project ==>
              RecentProjects(acts)[k] == FromActivity(acts[i])
  {
    var r := RecentProjects(acts);
    RecentProjectsMembers(acts);
    assert FromActivity(acts[i]) in r;
    var k0 :| 0 <= k0 < |r| && r[k0] == FromActivity(acts[i]);
    forall k | 0 <= k < |r| && r[k].name == acts[i].project ensures r[k] == FromActivity(acts[i]) {
      assert r[k].name == r[k0].name;
    }
  }

  /** The picker's recent list after `tock last`: replaced on success, kept otherwise. */
  function LoadRecentProjects(res: CommandResult, current: seq<Project>): (r: seq<Project>)
    ensures !res.success ==> r == current
    ensures res.success ==> SortedBy(r, ProjectPicker.NameOf) && KeysDistinct(r, ProjectPicker.NameOf)
  {
    if !res.success then current else RecentProjects(ParseActivityOutput(res.output))
  }

  // ---------------------------------------------------------------------------
  // The form

  /** The text fields of the form. */
  datatype Form = Form(project: string, description: string, startTime: string,
                       endTime: string, duration: string)

  const EMPTY_FORM := Form("", "", "", "", "")

  /** `isAddingActivity`: a start with an end or a duration, or a start that
      holds a date, records a past activity; anything else starts one now. */
  function IsAddingActivity(f: Form): (r: bool)
    ensures r ==> f.startTime != []
    ensures f.startTime != [] && (f.endTime != [] || f.duration != []) ==> r
    ensures f.startTime != [] && '-' in f.startTime ==> r
    ensures f.endTime == [] && f.duration == [] && '-' !in f.startTime ==> !r
  {
    if f.startTime != [] && (f.endTime != [] || f.duration != []) then true
    else f.startTime != [] && '-' in f.startTime
  }

  /** A field the command receives only when it holds more than white space. */
  function Optional(s: string): (r: Option<string>)
    ensures r.None? <==> AllSpace(s)
    ensures r.Some? ==> r.value == s
  {
    if Trim(s) == [] then None else Some(s)
  }

  /** What submitting does: refuse with a message, or run `tock` with these
      arguments, recording a past activity (`adding`) or starting one. */
  datatype Plan = Refused(message: string) | Run(adding: bool, args: seq<string>)

  const MISSING_FIELDS := "Project and description are required"

  /** `handleSubmit` up to the command it runs. The guard for a missing start
      when adding can never fire, since adding requires a start. */
  function PlanSubmit(f: Form): (r: Plan)
    ensures r.Refused? <==> f.project == [] || f.description == []
    ensures r.Refused? ==> r.message == MISSING_FIELDS
    ensures r.Run? ==> r.adding == IsAddingActivity(f) && |r.args| > 0
    ensures r.Run? ==> OptionValue(r.args[1..], "-p") == Some(f.project)
                       && OptionValue(r.args[1..], "-d") == Some(f.description)
    ensures r.Run? && r.adding ==>
              r.args[0] == "add" && OptionValue(r.args[1..], "-s") == Some(f.startTime)
              && OptionValue(r.args[1..], "-e") == Optional(f.endTime)
              && OptionValue(r.args[1..], "--duration") == (if Optional(f.endTime).Some? then None else Optional(f.duration))
    ensures r.Run? && !r.adding ==>
              r.args[0] == "start" && OptionValue(r.args[1..], "-t") == Optional(f.startTime)
  {
    if f.project == [] || f.description == [] then Refused(MISSING_FIELDS)
    else if IsAddingActivity(f) then
      if f.startTime == [] then Refused("Start time is required for adding activities")
      else Run(true, AddArgs(f.project, f.description, f.startTime, Optional(f.endTime), Optional(f.duration)))
    else Run(false, StartArgs(f.project, f.description, Optional(f.startTime)))
  }

  /** What the tab shows after a submission. */
  datatype Notice = Success(text: string) | Error(text: string)

  /** The rest of `handleSubmit` once the command has answered: on success the
      pair is added to the favourites when the star is set, the form is
      cleared and a success notice shown; on failure the form is kept and the
      error shown. Returns the new form, the favourite to add, and the notice. */
  function AfterRun(f: Form, adding: bool, starred: bool, res: CommandResult)
    : (r: (Form, Option<(string, string)>, Notice))
    ensures res.success ==> r.0 == EMPTY_FORM && r.2.Success?
    ensures res.success ==> (r.1.Some? <==> starred) && (r.1.Some? ==> r.1.value == (f.project, f.description))
    ensures !res.success ==> r.0 == f && r.1.None? && r.2.Error? && r.2.text != []
  {
    if res.success then
      (EMPTY_FORM, if starred then Some((f.project, f.description)) else None,
       Success(if adding then "Activity added successfully!" else "Activity started successfully!"))
    else
      (f, None, Error(if res.error.Some? && res.error.value != [] then res.error.value else "Operation failed"))
  }

  /** `handleProjectSelect`: the chosen project fills the project and description fields. */
  function SelectProject(f: Form, p: Project): (r: Form)
    ensures r.project == p.name && r.description == p.description
    ensures r.startTime == f.startTime && r.endTime == f.endTime && r.duration == f.duration
  {
    f.(project := p.name, description := p.description)
  }

  /** `checkIfFavorite`: the star is set only for a filled-in pair the
      favourites lookup answered `true` for. */
  function CheckIfFavorite(f: Form, lookup: CommandResult): (r: bool)
    ensures r ==> f.project != [] && f.description != [] && lookup.success
  {
    f.project != [] && f.description != [] && lookup.success && lookup.output == "true"
  }

  /** Against the lookup command: the star is set exactly when the pair is
      filled in and the store found it. */
  lemma CheckIfFavoriteStore(f: Form, found: Result<bool>)
    ensures CheckIfFavorite(f, IsFavoriteResult(found)) <==> f.project != [] && f.description != [] && found == Ok(true)
  {
  }
}

=== FILE: commands.dfy ===
/** The native command layer (`lib.rs`): the `tock` argument vectors each
    command builds, the checks made before anything is run, the report file
    name, and how process, database and HTTP outcomes become a
    `CommandResult`. Running processes, files and the network are parameters:
    each function receives what the outside world answered. */
module Commands {
  import opened Wrappers
  import opened Text
  import opened Numerals

  /** What every command returns to the interface. */
  datatype CommandResult = CommandResult(success: bool, output: string, error: Option<string>)

  /** What starting `tock` gave back: its exit status and captured streams, or
      the reason it could not be started. */
  datatype ProcessOutcome =
    | Exited(succeeded: bool, stdout: string, stderr: string)
    | SpawnFailed(reason: string)

  function Failure(message: string): CommandResult {
    CommandResult(false, "", Some(message))
  }

  /** `execute_tock_command`: success mirrors the exit status, the output is
      standard output, and there is an error exactly when standard error is
      non-empty; a process that cannot be started is a failure. */
  function ToCommandResult(o: ProcessOutcome): (r: CommandResult)
    ensures o.Exited? ==> r.success == o.succeeded && r.output == o.stdout
    ensures o.Exited? ==> (r.error.None? <==> o.stderr == [])
    ensures o.Exited? && r.error.Some? ==> r.error.value == o.stderr
    ensures o.SpawnFailed? ==> !r.success && r.output == [] && r.error.Some?
  {
    match o
    case Exited(ok, out, err) => CommandResult(ok, out, if err == [] then None else Some(err))
    case SpawnFailed(e) =>
      Failure("Failed to execute tock command: " + e + ". Make sure tock is installed and in your PATH.")
  }

  /** The value that follows `flag` in a vector of `flag value` pairs, read
      pairwise from the front: how the command line reads the options back. */
  function OptionValue(pairs: seq<string>, flag: string): Option<string>
    decreases |pairs|
  {
    if |pairs| < 2 then None
    else if pairs[0] == flag then Some(pairs[1])
    else OptionValue(pairs[2..], flag)
  }

  /** `[flag, v]` when a value is given, nothing otherwise. */
  function Opt(flag: string, v: Option<string>): seq<string> {
    match v
    case Some(x) => [flag, x]
    case None => []
  }

  /** The flags of a vector of `flag value` pairs, in order. */
  function Flags(pairs: seq<string>): seq<string>
    decreases |pairs|
  {
    if |pairs| < 2 then [] else [pairs[0]] + Flags(pairs[2..])
  }

  /** `[flag]` when a value is given, nothing otherwise. */
  function Present(flag: string, v: Option<string>): (r: seq<string>)
    ensures |r| == if v.Some? then 1 else 0
  {
    if v.Some? then [flag] else []
  }

  /** The flags of two concatenated pair vectors are those of each, in turn. */
  lemma {:induction false} FlagsAppend(p: seq<string>, rest: seq<string>)
    requires |p| % 2 == 0
    ensures Flags(p + rest) == Flags(p) + Flags(rest)
    decreases |p|
  {
    if |p| >= 2 {
      assert (p + rest)[2..] == p[2..] + rest;
      FlagsAppend(p[2..], rest);
    } else {
      assert p + rest == rest;
    }
  }

  lemma FlagsPair(flag: string, x: string)
    ensures Flags([flag, x]) == [flag]
  {
    assert [flag, x][2..] == [];
  }

  lemma FlagsOpt(flag: string, v: Option<string>)
    ensures Flags(Opt(flag, v)) == Present(flag, v)
  {
    if v.Some? {
      assert Opt(flag, v)[2..] == [];
    }
  }

  /** Reading a flag from two concatenated pair vectors: the first part wins. */
  lemma {:induction false} OptionValueAppend(p: seq<string>, rest: seq<string>, flag: string)
    requires |p| % 2 == 0
    ensures OptionValue(p + rest, flag)
            == if OptionValue(p, flag).Some? then OptionValue(p, flag) else OptionValue(rest, flag)
    decreases |p|
  {
    if |p| >= 2 {
      assert (p + rest)[2..] == p[2..] + rest;
      OptionValueAppend(p[2..], rest, flag);
    } else {
      assert p + rest == rest;
    }
  }

  lemma OptionValueOpt(flag: string, v: Option<string>, other: string)
    ensures OptionValue(Opt(flag, v), flag) == v
    ensures other != flag ==> OptionValue(Opt(flag, v), other).None?
  {
  }

  lemma OptionValuePair(a: string, x: string, flag: string)
    ensures OptionValue([a, x], flag) == if a == flag then Some(x) else None
  {
    assert [a, x][2..] == [];
  }

  /** `start_activity`: `start -p P -d D`, then `-t T` when a time is given. */
  function StartArgs(project: string, description: string, time: Option<string>): (r: seq<string>)
    ensures |r| == (if time.Some? then 7 else 5)
    ensures r[0] == "start"
    ensures OptionValue(r[1..], "-p") == Some(project)
    ensures OptionValue(r[1..], "-d") == Some(description)
    ensures OptionValue(r[1..], "-t") == time
    ensures Flags(r[1..]) == ["-p", "-d"] + Present("-t", time)
  {
    var r := ["start", "-p", project, "-d", description] + Opt("-t", time);
    assert r[1..] == ["-p", project] + (["-d", description] + Opt("-t", time));
    StartFlags(project, description, time);
    assert forall f :: OptionValue(r[1..], f) == StartLookup(project, description, time, f) by {
      forall f ensures OptionValue(r[1..], f) == StartLookup(project, description, time, f) {
        OptionValuePair("-p", project, f);
        OptionValuePair("-d", description, f);
        OptionValueOpt("-t", time, f);
        OptionValueAppend(["-d", description], Opt("-t", time), f);
        OptionValueAppend(["-p", project], ["-d", description] + Opt("-t", time), f);
      }
    }
    r
  }

  function StartLookup(project: string, description: string, time: Option<string>, f: string): Option<string> {
    if f == "-p" then Some(project) else if f == "-d" then Some(description)
    else if f == "-t" then time else None
  }

  lemma StartFlags(project: string, description: string, time: Option<string>)
    ensures Flags(["-p", project] + (["-d", description] + Opt("-t", time))) == ["-p", "-d"] + Present("-t", time)
  {
    FlagsOpt("-t", time);
    FlagsPair("-d", description);
    FlagsPair("-p", project);
    FlagsAppend(["-d", description], Opt("-t", time));
    FlagsAppend(["-p", project], ["-d", description] + Opt("-t", time));
  }

  /** `stop_activity`: `stop`, then `-t T` when a time is given. */
  function StopArgs(time: Option<string>): (r: seq<string>)
    ensures |r| == (if time.Some? then 3 else 1) && r[0] == "stop"
    ensures OptionValue(r[1..], "-t") == time
  {
    var r := ["stop"] + Opt("-t", time);
    assert r[1..] == Opt("-t", time);
    OptionValueOpt("-t", time, "-t");
    r
  }

  /** `add_activity`: `add -p P -d D -s S`, then `-e E` when an end is given,
      otherwise `--duration X` when a duration is given. */
  function AddArgs(project: string, description: string, start: string,
                   end: Option<string>, duration: Option<string>): (r: seq<string>)
    ensures |r| == (if end.Some? || duration.Some? then 9 else 7) && r[0] == "add"
    ensures OptionValue(r[1..], "-p") == Some(project)
    ensures OptionValue(r[1..], "-d") == Some(description)
    ensures OptionValue(r[1..], "-s") == Some(start)
    ensures OptionValue(r[1..], "-e") == end
    ensures OptionValue(r[1..], "--duration") == (if end.Some? then None else duration)
    ensures Flags(r[1..]) == ["-p", "-d", "-s"] + (if end.Some? then ["-e"] else Present("--duration", duration))
  {
    var tail := if end.Some? then Opt("-e", end) else Opt("--duration", duration);
    var opts := ["-p", project] + (["-d", description] + (["-s", start] + tail));
    AddOptionsRead(project, description, start, tail);
    AddFlags(project, description, start, end, duration);
    OptionValueOpt("-e", end, "--duration");
    OptionValueOpt("--duration", duration, "-e");
    var r := ["add"] + opts;
    assert r[1..] == opts;
    r
  }

  /** The value after a leading pair is read from the pair when the flags match
      and from the rest otherwise. */
  lemma OptionValueCons(a: string, x: string, rest: seq<string>, f: string)
    ensures OptionValue([a, x] + rest, f) == if a == f then Some(x) else OptionValue(rest, f)
  {
    assert ([a, x] + rest)[2..] == rest;
  }

  /** The three leading pairs of `add` are read back, and every other flag is
      read from what follows them. */
  lemma AddOptionsRead(project: string, description: string, start: string, tail: seq<string>)
    ensures var opts := ["-p", project] + (["-d", description] + (["-s", start] + tail));
            && OptionValue(opts, "-p") == Some(project)
            && OptionValue(opts, "-d") == Some(description)
            && OptionValue(opts, "-s") == Some(start)
            && OptionValue(opts, "-e") == OptionValue(tail, "-e")
            && OptionValue(opts, "--duration") == OptionValue(tail, "--duration")
  {
    var t1 := ["-s", start] + tail;
    var t2 := ["-d", description] + t1;
    forall f | f in ["-p", "-d", "-s", "-e", "--duration"]
      ensures OptionValue(["-p", project] + t2, f)
              == if f == "-p" then Some(project) else if f == "-d" then Some(description)
                 else if f == "-s" then Some(start) else OptionValue(tail, f)
    {
      OptionValueCons("-p", project, t2, f);
      OptionValueCons("-d", description, t1, f);
      OptionValueCons("-s", start, tail, f);
    }
  }

  /** The flags of `add` are its three leading ones, then the end or the duration. */
  lemma AddFlags(project: string, description: string, start: string,
                 end: Option<string>, duration: Option<string>)
    ensures var tail := if end.Some? then Opt("-e", end) else Opt("--duration", duration);
            Flags(["-p", project] + (["-d", description] + (["-s", start] + tail)))
            == ["-p", "-d", "-s"] + (if end.Some? then ["-e"] else Present("--duration", duration))
  {
    var tail := if end.Some? then Opt("-e", end) else Opt("--duration", duration);
    FlagsOpt("-e", end);
    FlagsOpt("--duration", duration);
    FlagsPair("-s", start);
    FlagsPair("-d", description);
    FlagsPair("-p", project);
    FlagsAppend(["-s", start], tail);
    FlagsAppend(["-d", description], ["-s", start] + tail);
    FlagsAppend(["-p", project], ["-d", description] + (["-s", start] + tail));
  }

  /** Rust's `u32`. */
  const U32_LIMIT: nat := 0x1_0000_0000

  /** The options of `continue_activity`: `-d D`, `-p P`, `-t T`, each only when
      supplied and in that order. */
  function ContinueOptions(description: Option<string>, project: Option<string>,
                           time: Option<string>): (opts: seq<string>)
    ensures |opts| == 2 * (|Present("-d", description)| + |Present("-p", project)| + |Present("-t", time)|)
    ensures Flags(opts) == Present("-d", description) + Present("-p", project) + Present("-t", time)
    ensures OptionValue(opts, "-d") == description
    ensures OptionValue(opts, "-p") == project
    ensures OptionValue(opts, "-t") == time
  {
    var pt := Opt("-p", project) + Opt("-t", time);
    var opts := Opt("-d", description) + pt;
    ContinueOptionsRead(description, project, time);
    ContinueOptionsFlags(description, project, time);
    opts
  }

  lemma ContinueOptionsRead(description: Option<string>, project: Option<string>, time: Option<string>)
    ensures var opts := Opt("-d", description) + (Opt("-p", project) + Opt("-t", time));
            OptionValue(opts, "-d") == description
            && OptionValue(opts, "-p") == project
            && OptionValue(opts, "-t") == time
  {
    var pt := Opt("-p", project) + Opt("-t", time);
    var opts := Opt("-d", description) + pt;
    forall f | f in ["-d", "-p", "-t"]
      ensures OptionValue(opts, f) == ContinueLookup(description, project, time, f)
    {
      OptionValueOpt("-d", description, f);
      OptionValueOpt("-p", project, f);
      OptionValueOpt("-t", time, f);
      OptionValueAppend(Opt("-p", project), Opt("-t", time), f);
      OptionValueAppend(Opt("-d", description), pt, f);
    }
  }

  lemma ContinueOptionsFlags(description: Option<string>, project: Option<string>, time: Option<string>)
    ensures var opts := Opt("-d", description) + (Opt("-p", project) + Opt("-t", time));
            Flags(opts) == Present("-d", description) + Present("-p", project) + Present("-t", time)
  {
    FlagsOpt("-d", description);
    FlagsOpt("-p", project);
    FlagsOpt("-t", time);
    FlagsAppend(Opt("-p", project), Opt("-t", time));
    FlagsAppend(Opt("-d", description), Opt("-p", project) + Opt("-t", time));
  }

  /** `continue_activity`: `continue`, then the index, then the options, each
      only when supplied and always in that order. */
  function ContinueArgs(index: Option<nat>, description: Option<string>,
                        project: Option<string>, time: Option<string>): (r: seq<string>)
    requires index.Some? ==> index.value < U32_LIMIT
    ensures |r| == 1 + (if index.Some? then 1 else 0)
                   + 2 * (|Present("-d", description)| + |Present("-p", project)| + |Present("-t", time)|)
    ensures r[0] == "continue"
    ensures index.Some? ==> AllDigits(r[1]) && DigitsValue(r[1]) == index.value
    ensures var opts := if index.Some? then r[2..] else r[1..];
            Flags(opts) == Present("-d", description) + Present("-p", project) + Present("-t", time)
            && OptionValue(opts, "-d") == description
            && OptionValue(opts, "-p") == project
            && OptionValue(opts, "-t") == time
  {
    var opts := ContinueOptions(description, project, time);
    match index
    case Some(i) =>
      var r := ["continue", NatToString(i)] + opts;
      assert r[2..] == opts;
      r
    case None =>
      var r := ["continue"] + opts;
      assert r[1..] == opts;
      r
  }

  function ContinueLookup(description: Option<string>, project: Option<string>,
                          time: Option<string>, f: string): Option<string> {
    if f == "-d" then description else if f == "-p" then project
    else if f == "-t" then time else None
  }

  /** `get_recent_activities`: `last`, then `-n N` when a count is given. */
  function RecentArgs(number: Option<nat>): (r: seq<string>)
    requires number.Some? ==> number.value < U32_LIMIT
    ensures |r| > 0 && r[0] == "last"
    ensures number.None? ==> |r| == 1
    ensures number.Some? ==> |r| == 3 && r[1] == "-n" && AllDigits(r[2]) && DigitsValue(r[2]) == number.value
  {
    match number
    case Some(n) => ["last", "-n", NatToString(n)]
    case None => ["last"]
  }

  /** `get_report`: `--today`, `--yesterday` or `--date D` after `report`;
      a `date` request without a date and any other type give a bare `report`. */
  function ReportArgs(dateType: string, date: Option<string>): (r: seq<string>)
    ensures |r| > 0 && r[0] == "report"
    ensures |r| == 1 <==> !(dateType == "today" || dateType == "yesterday" || (dateType == "date" && date.Some?))
    ensures dateType == "today" ==> r == ["report", "--today"]
    ensures dateType == "yesterday" ==> r == ["report", "--yesterday"]
    ensures dateType == "date" && date.Some? ==> OptionValue(r[1..], "--date") == date && |r| == 3
  {
    if dateType == "today" then ["report", "--today"]
    else if dateType == "yesterday" then ["report", "--yesterday"]
    else if dateType == "date" then ["report"] + Opt("--date", date)
    else ["report"]
  }

  /** The report query `save_report_to_file` runs, or the error it returns
      before running anything. A range queries only its start date. */
  function SaveReportQuery(dateType: string, date: Option<string>,
                           startDate: Option<string>, endDate: Option<string>): (r: Result<seq<string>>)
    ensures r.Err? <==> !(dateType in ["today", "yesterday", "date", "range"])
                        || (dateType == "date" && date.None?)
                        || (dateType == "range" && (startDate.None? || endDate.None?))
    ensures r.Ok? && dateType != "range" ==> r.value == ReportArgs(dateType, date)
    ensures r.Ok? && dateType == "range" ==> r.value == ReportArgs("date", startDate)
  {
    if dateType == "today" || dateType == "yesterday" then Ok(ReportArgs(dateType, date))
    else if dateType == "date" then
      if date.None? then Err("Date is required for date type report") else Ok(ReportArgs(dateType, date))
    else if dateType == "range" then
      if startDate.None? || endDate.None? then Err("Start and end dates are required for range report")
      else Ok(ReportArgs("date", startDate))
    else Err("Invalid date type")
  }

  const REPORT_SUFFIX := "_tock.txt"

  /** The report file name. `today` and `yesterday` are the local dates as
      `%Y-%m-%d`, taken from the clock by the caller. */
  function ReportFileName(dateType: string, date: Option<string>, startDate: Option<string>,
                          endDate: Option<string>, today: string, yesterday: string): (r: string)
    ensures |r| >= |REPORT_SUFFIX| && r[|r| - |REPORT_SUFFIX|..] == REPORT_SUFFIX
    ensures dateType == "date" && date.Some? ==> r[..|r| - |REPORT_SUFFIX|] == date.value
    ensures dateType == "range" && startDate.Some? && endDate.Some? ==>
              r[..|r| - |REPORT_SUFFIX|] == startDate.value + "_" + endDate.value
    ensures dateType == "today" ==> r[..|r| - |REPORT_SUFFIX|] == today
    ensures dateType == "yesterday" ==> r[..|r| - |REPORT_SUFFIX|] == yesterday
    ensures dateType == "date" && date.None? ==> r == "report" + REPORT_SUFFIX
    ensures dateType == "range" && (startDate.None? || endDate.None?) ==> r == "range" + REPORT_SUFFIX
    ensures dateType !in ["today", "yesterday", "date", "range"] ==> r == "report" + REPORT_SUFFIX
  {
    var stem :=
      if dateType == "today" then today
      else if dateType == "yesterday" then yesterday
      else if dateType == "date" then (if date.Some? then date.value else "report")
      else if dateType == "range" then
        (if startDate.Some? && endDate.Some? then startDate.value + "_" + endDate.value else "range")
      else "report";
    var r := stem + REPORT_SUFFIX;
    assert r[..|stem|] == stem && r[|stem|..] == REPORT_SUFFIX;
    r
  }

  /** Joining a file name onto a directory the way `PathBuf::join` does on a
      Unix system: an absolute name replaces the directory. */
  function JoinPath(dir: string, name: string): string {
    if StartsWith(name, "/") || dir == [] then name
    else if dir[|dir| - 1] == '/' then dir + name
    else dir + "/" + name
  }

  /** What creating and writing the report file gave back. */
  datatype FileOutcome = Written | CreateFailed(reason: string) | WriteFailed(reason: string)

  /** What `save_report_to_file` did: the query it ran, the file it created
      and what it wrote into it (path and contents; when the write fails, part
      of the contents may be missing), and what it returned. */
  datatype SaveOutcome = SaveOutcome(query: Option<seq<string>>, write: Option<(string, string)>,
                                     result: CommandResult)

  /** The directory a report is saved in: the custom path, else `HOME`, else
      `USERPROFILE`, else the working directory. */
  function SaveDir(customPath: Option<string>, home: Option<string>, userProfile: Option<string>): (r: string)
    ensures customPath.Some? ==> r == customPath.value
    ensures customPath.None? && home.Some? ==> r == home.value
    ensures customPath.None? && home.None? && userProfile.Some? ==> r == userProfile.value
    ensures customPath.None? && home.None? && userProfile.None? ==> r == "."
  {
    if customPath.Some? then customPath.value
    else if home.Some? then home.value
    else if userProfile.Some? then userProfile.value
    else "."
  }

  /** `save_report_to_file`. The environment (`HOME`, `USERPROFILE`), the clock,
      the report process and the file system are parameters. */
  function SaveReport(dateType: string, date: Option<string>, startDate: Option<string>,
                      endDate: Option<string>, customPath: Option<string>,
                      home: Option<string>, userProfile: Option<string>,
                      today: string, yesterday: string,
                      run: ProcessOutcome, file: FileOutcome): (o: SaveOutcome)
    ensures o.query.None? <==> SaveReportQuery(dateType, date, startDate, endDate).Err?
    ensures o.query.None? ==> !o.result.success && o.write.None?
    ensures o.query.Some? && !ToCommandResult(run).success ==>
              o.result == ToCommandResult(run) && o.write.None?
    ensures o.write.Some? <==> o.query.Some? && ToCommandResult(run).success && !file.CreateFailed?
    ensures o.write.Some? ==> o.write.value.1 == ToCommandResult(run).output
    ensures o.result.success <==> o.write.Some? && file == Written
    ensures SaveReportQuery(dateType, date, startDate, endDate).Ok? ==>
              o.query == Some(SaveReportQuery(dateType, date, startDate, endDate).value)
    ensures o.write.Some? ==>
              o.write.value.0 == JoinPath(SaveDir(customPath, home, userProfile),
                                          ReportFileName(dateType, date, startDate, endDate, today, yesterday))
    ensures o.result.success ==> o.result.output == "Report saved to: " + o.write.value.0
  {
    match SaveReportQuery(dateType, date, startDate, endDate)
    case Err(m) => SaveOutcome(None, None, Failure(m))
    case Ok(args) =>
      var report := ToCommandResult(run);
      if !report.success then SaveOutcome(Some(args), None, report)
      else
        var path := JoinPath(SaveDir(customPath, home, userProfile), ReportFileName(dateType, date, startDate, endDate, today, yesterday));
        var result := match file
          case Written => CommandResult(true, "Report saved to: " + path, None)
          case CreateFailed(e) => Failure("Failed to create file: " + e)
          case WriteFailed(e) => Failure("Failed to write to file: " + e);
        var write := if file.CreateFailed? then None else Some((path, report.output));
        SaveOutcome(Some(args), write, result)
  }

  /** Bytes taken by one character in UTF-8. */
  function Utf8Width(c: char): nat {
    if c as int < 0x80 then 1 else if c as int < 0x800 then 2 else if c as int < 0x10000 then 3 else 4
  }

  /** Rust's `String::len`: the UTF-8 length in bytes. */
  function Utf8Len(s: string): (n: nat)
    ensures |s| <= n <= 4 * |s|
  {
    if |s| == 0 then 0 else Utf8Width(s[0]) + Utf8Len(s[1..])
  }

  /** The response size limit of `fetch_projects_from_api`, in bytes. */
  const MAX_RESPONSE_BYTES: nat := 10_000_000

  /** What the HTTP exchange gave back. */
  datatype HttpOutcome =
    | ClientFailed(reason: string)
    | SendFailed(reason: string)
    | Response(contentLength: Option<nat>, body: Result<string>)

  predicate IsHttpUrl(url: string) {
    StartsWith(url, "http://") || StartsWith(url, "https://")
  }

  /** `fetch_projects_from_api`: the URL is checked before any request, and a
      declared or actual body over the limit is refused. */
  function FetchProjects(url: string, http: HttpOutcome): (r: CommandResult)
    ensures !IsHttpUrl(url) ==> r == Failure("Invalid URL: must start with http:// or https://")
    ensures r.success <==> IsHttpUrl(url) && http.Response? && http.body.Ok?
                           && !(http.contentLength.Some? && http.contentLength.value > MAX_RESPONSE_BYTES)
                           && Utf8Len(http.body.value) <= MAX_RESPONSE_BYTES
    ensures r.success ==> r.output == http.body.value && r.error.None?
  {
    if !IsHttpUrl(url) then Failure("Invalid URL: must start with http:// or https://")
    else match http
      case ClientFailed(e) => Failure("Failed to create HTTP client: " + e)
      case SendFailed(e) => Failure("Failed to fetch from API: " + e)
      case Response(length, body) =>
        if length.Some? && length.value > MAX_RESPONSE_BYTES then Failure("Response too large (max 10MB)")
        else match body
          case Err(e) => Failure("Failed to read response: " + e)
          case Ok(text) =>
            if Utf8Len(text) > MAX_RESPONSE_BYTES then Failure("Response too large (max 10MB)")
            else CommandResult(true, text, None)
  }

  /** A database call answered as a command result: the given text on success,
      the prefixed error otherwise. */
  function FromDb<T>(r: Result<T>, okText: string, errPrefix: string): (c: CommandResult)
    ensures c.success <==> r.Ok?
    ensures c.success ==> c.output == okText && c.error.None?
    ensures !c.success ==> c.output == [] && c.error == Some(errPrefix + r.error)
  {
    match r
    case Ok(_) => CommandResult(true, okText, None)
    case Err(e) => Failure(errPrefix + e)
  }

  /** `is_favorite`: the output is "true" or "false", and "false" on error. */
  function IsFavoriteResult(r: Result<bool>): (c: CommandResult)
    ensures c.output == "true" || c.output == "false"
    ensures c.output == "true" <==> r == Ok(true)
    ensures c.success <==> r.Ok?
  {
    match r
    case Ok(b) => CommandResult(true, if b then "true" else "false", None)
    case Err(e) => CommandResult(false, "false", Some("Failed to check favorite: " + e))
  }
}

=== FILE: history.dfy ===
/** The history tab (`HistoryTab.tsx`): cutting a month of reports at the
    `=== YYYY-MM-DD ===` separators, reading each day's report into activity
    lines and project colours, the timeline's minute totals, the month cache
    key and the cache-or-fetch decision, and the favourites toggle. */
module HistoryTab {
  import opened Wrappers
  import opened Text
  import opened Numerals
  import opened Commands

  // ---------------------------------------------------------------------------
  // The date separator

  /** `\d{4}-\d{2}-\d{2}`. */
  predicate IsDate(s: string) {
    |s| == 10 && IsDigit(s[0]) && IsDigit(s[1]) && IsDigit(s[2]) && IsDigit(s[3]) && s[4] == '-'
    && IsDigit(s[5]) && IsDigit(s[6]) && s[7] == '-' && IsDigit(s[8]) && IsDigit(s[9])
  }

  /** Number of leading line feeds. */
  function NewlineRun(t: string): (k: nat)
    ensures k <= |t| && (forall i :: 0 <= i < k ==> t[i] == '\n')
    ensures k < |t| ==> t[k] != '\n'
  {
    if |t| > 0 && t[0] == '\n' then 1 + NewlineRun(t[1..]) else 0
  }

  /** Number of leading white-space characters. */
  function SpaceRun(t: string): (k: nat)
    ensures k <= |t| && (forall i :: 0 <= i < k ==> IsSpace(t[i]))
    ensures k < |t| ==> !IsSpace(t[k])
  {
    if |t| > 0 && IsSpace(t[0]) then 1 + SpaceRun(t[1..]) else 0
  }

  /** The separator pattern `\n*===\s*(date)\s*===\n*` tried at the start of
      `t`: the captured date and the length of the match. Every repetition is
      greedy and no step can give characters back to an earlier one, so the
      match, when there is one, is unique. */
  function MatchSeparator(t: string): (r: Option<(string, nat)>)
    ensures r.Some? ==> IsDate(r.value.0) && 0 < r.value.1 <= |t|
    ensures r.Some? ==> NewlineRun(t) < |t| && t[NewlineRun(t)] == '='
  {
    match OpeningRule(t, NewlineRun(t))
    case None => None
    case Some(b) =>
      var c := b + 10 + SpaceRun(t[b + 10..]);
      if !StartsWith(t[c..], "===") then None
      else
        var tail := t[c + 3..];
        var len: nat := c + 3 + NewlineRun(tail);
        assert len <= |t| by {
          assert |tail| == |t| - (c + 3);
        }
        Some((t[b..b + 10], len))
  }

  /** `===` at position `a` of `t`. */
  predicate RuleAt(t: string, a: nat) {
    a + 3 <= |t| && t[a] == '=' && t[a + 1] == '=' && t[a + 2] == '='
  }

  /** The opening half of the separator, `===\s*(date)`, tried at position
      `a`: where the date starts. */
  function OpeningRule(t: string, a: nat): (r: Option<nat>)
    ensures r.Some? ==> RuleAt(t, a) && a + 3 <= r.value && r.value + 10 <= |t| && IsDate(t[r.value..r.value + 10])
  {
    if !RuleAt(t, a) then None
    else
      var b := a + 3 + SpaceRun(t[a + 3..]);
      if b + 10 > |t| || !IsDate(t[b..b + 10]) then None
      else Some(b)
  }

  /** The text before the first separator, then each captured date with the
      text up to the next separator (or the end). */
  datatype Sections = Sections(head: string, pairs: seq<(string, string)>)

  /** `String.prototype.split` with the separator pattern, from the piece that
      started at `p`, trying a match at `q` and at each later position before
      the end; the captured date is kept between the pieces. */
  function Scan(s: string, p: nat, q: nat): (r: Sections)
    requires p <= q <= |s|
    decreases |s| - q, 1
  {
    if q == |s| then Sections(s[p..], []) else ScanStep(s, p, q, MatchSeparator(s[q..]))
  }

  /** The split after trying the separator at `q`, given the outcome `m`. */
  function ScanStep(s: string, p: nat, q: nat, m: Option<(string, nat)>): (r: Sections)
    requires p <= q < |s| && (m.Some? ==> 0 < m.value.1 <= |s| - q)
    decreases |s| - q, 0
  {
    match m
    case None => Scan(s, p, q + 1)
    case Some((date, len)) =>
      var rest := Scan(s, q + len, q + len);
      Sections(s[p..q], [(date, rest.head)] + rest.pairs)
  }

  /** `output.split(DATE_SEPARATOR_REGEX)`, read as the leading piece and
      (date, section) pairs. */
  function SplitMonth(s: string): (r: Sections)
  {
    Scan(s, 0, 0)
  }

  // A rendering partner: months as the backend writes them.

  /** The separator written before a day's report. */
  function SepText(date: string): string {
    "\n=== " + date + " ===\n"
  }

  function Tail(pairs: seq<(string, string)>): string {
    if |pairs| == 0 then "" else SepText(pairs[0].0) + pairs[0].1 + Tail(pairs[1..])
  }

  /** A leading text followed by each day's separator and report. */
  function RenderMonth(head: string, pairs: seq<(string, string)>): string {
    head + Tail(pairs)
  }

  /** `===` at `k`, then optional white space and a date, all inside `x`:
      where a separator could start. */
  predicate DatedRuleAt(x: string, k: nat) {
    OpeningRule(x, k).Some?
  }

  /** A piece no separator can start in: no `===` in it is followed, after
      optional white space, by a date (so rule lines such as `=====` may
      occur), and it does not end in a line feed (which the next separator
      would take as its own). */
  predicate PlainPiece(x: string) {
    (forall k :: 0 <= k < |x| ==> !DatedRuleAt(x, k)) && (|x| > 0 ==> x[|x| - 1] != '\n')
  }

  /** What follows a piece of a rendered month: nothing, or a separator, which
      starts with a line feed and `=`. */
  predicate SepOrEnd(rest: string) {
    rest == [] || (|rest| >= 2 && rest[0] == '\n' && rest[1] == '=')
  }

  /** A day's report the separator before it leaves whole. */
  predicate PlainReport(x: string) {
    |x| > 0 && PlainPiece(x) && x[0] != '\n'
  }

  /** Text without digits, such as a `=====` rule line, holds no dated rule. */
  lemma NoDigitsPlain(x: string)
    requires forall i :: 0 <= i < |x| ==> !IsDigit(x[i])
    requires |x| > 0 ==> x[|x| - 1] != '\n'
    ensures PlainPiece(x)
  {
    forall k | 0 <= k < |x| ensures !DatedRuleAt(x, k) {
      DateStartsWithDigit(x, k);
    }
  }

  /** A dated rule's date starts with a digit. */
  lemma DateStartsWithDigit(x: string, k: nat)
    ensures DatedRuleAt(x, k) ==> IsDigit(x[OpeningRule(x, k).value])
  {
    var r := OpeningRule(x, k);
    if r.Some? {
      assert x[r.value..r.value + 10][0] == x[r.value];
    }
  }

  predicate PlainPairs(pairs: seq<(string, string)>) {
    forall k :: 0 <= k < |pairs| ==> IsDate(pairs[k].0) && PlainReport(pairs[k].1)
  }

  /** Positions without a match do not change the split. */
  lemma {:induction false} ScanSkip(s: string, p: nat, q: nat, q2: nat)
    requires p <= q <= q2 <= |s|
    requires forall i :: q <= i < q2 ==> MatchSeparator(s[i..]).None?
    ensures Scan(s, p, q) == Scan(s, p, q2)
    decreases q2 - q
  {
    if q < q2 {
      ScanSkip(s, p, q + 1, q2);
    }
  }

  /** No separator starts inside a plain piece followed by a separator or the
      end. */
  lemma NoMatchInPiece(s: string, a: nat, x: string)
    requires a + |x| <= |s| && s[a..a + |x|] == x && PlainPiece(x) && SepOrEnd(s[a + |x|..])
    ensures forall i :: a <= i < a + |x| ==> MatchSeparator(s[i..]).None?
  {
    forall i | a <= i < a + |x| ensures MatchSeparator(s[i..]).None? {
      NoMatchAt(s, a, x, i);
    }
  }

  lemma NoMatchAt(s: string, a: nat, x: string, i: nat)
    requires a + |x| <= |s| && s[a..a + |x|] == x && PlainPiece(x) && SepOrEnd(s[a + |x|..])
    requires a <= i < a + |x|
    ensures MatchSeparator(s[i..]).None?
  {
    var d := i - a;
    var y := x[d..];
    assert s[i..] == y + s[a + |x|..];
    forall k | 0 <= k < |y| ensures !DatedRuleAt(y, k) {
      DatedRuleShift(x, d, k);
      assert !DatedRuleAt(x, d + k);
    }
    NoMatchBefore(y, s[a + |x|..]);
  }

  /** A dated rule in a suffix is one in the whole text, and back. */
  lemma DatedRuleShift(x: string, d: nat, k: nat)
    requires d <= |x|
    ensures DatedRuleAt(x[d..], k) <==> DatedRuleAt(x, d + k)
  {
    var y := x[d..];
    if k + 3 <= |y| {
      assert RuleAt(y, k) <==> RuleAt(x, d + k);
      assert y[k + 3..] == x[d + k + 3..];
      var j := k + 3 + SpaceRun(y[k + 3..]);
      if j + 10 <= |y| {
        assert y[j..j + 10] == x[d + j..d + j + 10];
      }
    }
  }

  /** No separator matches at the start of a piece without a dated rule, when
      what follows it is a separator or nothing. */
  lemma NoMatchBefore(y: string, rest: string)
    requires |y| > 0 && y[|y| - 1] != '\n' && SepOrEnd(rest)
    requires forall k :: 0 <= k < |y| ==> !DatedRuleAt(y, k)
    ensures MatchSeparator(y + rest).None?
  {
    var t := y + rest;
    assert t[|y| - 1] == y[|y| - 1];
    NewlineRunBound(t, |y| - 1);
    var n := NewlineRun(t);
    if RuleAt(t, n) {
      RuleInside(y, rest, n);
      var b := n + 3 + SpaceRun(t[n + 3..]);
      var j := n + 3 + SpaceRun(y[n + 3..]);
      SpaceAcross(y, rest, n + 3, j, b);
      NoDateInside(y, n);
      NoDateAt(y, rest, j, b);
      NoOpening(t, n, b);
    } else {
      assert OpeningRule(t, n).None?;
    }
    MatchNeedsOpening(t);
  }

  /** The white space after position `p` of a piece, in the piece alone
      (`j`) and with the rest of the text after it (`b`). */
  lemma SpaceAcross(y: string, rest: string, p: nat, j: nat, b: nat)
    requires p <= |y| && j == p + SpaceRun(y[p..]) && b == p + SpaceRun((y + rest)[p..])
    ensures j <= |y| && (j < |y| ==> b == j) && (j == |y| ==> b == j + SpaceRun(rest))
  {
    var u := y[p..];
    assert (y + rest)[p..] == u + rest;
    SpaceRunConcat(u, rest);
  }

  /** The separator needs its opening half right after the leading line
      feeds. */
  lemma MatchNeedsOpening(t: string)
    requires OpeningRule(t, NewlineRun(t)).None?
    ensures MatchSeparator(t).None?
  {
  }

  /** No opening half at `n` when no date follows the `===` there. */
  lemma NoOpening(t: string, n: nat, b: nat)
    requires RuleAt(t, n) && b == n + 3 + SpaceRun(t[n + 3..])
    requires !(b + 10 <= |t| && IsDate(t[b..b + 10]))
    ensures OpeningRule(t, n).None?
  {
  }

  /** Inside a piece, a `===` that opens no dated rule is not followed by a
      date. */
  lemma NoDateInside(y: string, n: nat)
    requires RuleAt(y, n) && !DatedRuleAt(y, n)
    ensures var j := n + 3 + SpaceRun(y[n + 3..]); !(j + 10 <= |y| && IsDate(y[j..j + 10]))
  {
  }

  /** A `===` starting inside the piece ends inside it: the text after the
      piece starts with a line feed. */
  lemma RuleInside(y: string, rest: string, n: nat)
    requires n < |y| && SepOrEnd(rest) && RuleAt(y + rest, n)
    ensures RuleAt(y, n)
  {
    var t := y + rest;
    assert |rest| > 0 ==> t[|y|] == '\n';
    assert n + 3 <= |y|;
    assert t[n] == y[n] && t[n + 1] == y[n + 1] && t[n + 2] == y[n + 2];
  }

  /** The date the separator needs after `===` at `n` is not there: inside
      the piece (where `j` is) there is none, and a date cannot reach past
      the piece's end, where a line feed and `=` follow. */
  lemma NoDateAt(y: string, rest: string, j: nat, b: nat)
    requires SepOrEnd(rest) && j <= |y| && !(j + 10 <= |y| && IsDate(y[j..j + 10]))
    requires j < |y| ==> b == j
    requires j == |y| ==> b == j + SpaceRun(rest)
    ensures !(b + 10 <= |y + rest| && IsDate((y + rest)[b..b + 10]))
  {
    var t := y + rest;
    if j < |y| {
      if j + 10 <= |y| {
        assert t[b..b + 10] == y[j..j + 10];
      } else if b + 10 <= |t| {
        assert t[b..b + 10][|y| - b] == t[|y|] == rest[0] == '\n';
      }
    } else if |rest| > 0 {
      assert SpaceRun(rest) == 1 by { assert !IsSpace(rest[1]); assert rest[1..][0] == rest[1]; }
      assert b == |y| + 1 && t[b] == '=';
      if b + 10 <= |t| { assert t[b..b + 10][0] == '='; }
    }
  }

  /** White space runs on from one piece into the next. */
  lemma {:induction false} SpaceRunConcat(u: string, v: string)
    ensures SpaceRun(u + v) == if SpaceRun(u) < |u| then SpaceRun(u) else |u| + SpaceRun(v)
    decreases |u|
  {
    if |u| > 0 {
      assert (u + v)[1..] == u[1..] + v;
      if IsSpace(u[0]) {
        SpaceRunConcat(u[1..], v);
      }
    } else {
      assert u + v == v;
    }
  }

  /** The leading line feeds stop at the first other character. */
  lemma NewlineRunBound(t: string, j: nat)
    requires j < |t| && t[j] != '\n'
    ensures NewlineRun(t) <= j
  {
  }

  /** The separator before a report whose first character is not a line feed
      matches exactly, capturing its date. */
  lemma MatchSepText(date: string, more: string)
    requires IsDate(date) && (|more| > 0 ==> more[0] != '\n')
    ensures MatchSeparator(SepText(date) + more) == Some((date, |SepText(date)|))
  {
    var t := SepText(date) + more;
    assert |SepText(date)| == 20;
    assert t[..20] == SepText(date);
    assert t[0] == '\n' && t[1] == '=' && t[2] == '=' && t[3] == '=' && t[4] == ' ';
    assert NewlineRun(t) == 1;
    assert t[1..][..3] == "===";
    assert t[4] == ' ' && IsDigit(t[5]) by { assert t[5] == date[0]; }
    assert SpaceRun(t[4..]) == 1;
    assert t[5..15] == date;
    assert t[15] == ' ' && t[16] == '=' && t[17] == '=' && t[18] == '=' && t[19] == '\n';
    assert SpaceRun(t[15..]) == 1;
    assert t[16..][..3] == "===";
    assert |t| > 20 ==> t[20] == more[0];
    assert NewlineRun(t[19..]) == 1;
  }

  /** One step of the split at a position where a separator matches. */
  lemma ScanAtMatch(s: string, p: nat, q: nat, date: string, len: nat)
    requires p <= q < |s| && MatchSeparator(s[q..]) == Some((date, len))
    ensures q + len <= |s|
    ensures Scan(s, p, q) == Sections(s[p..q], [(date, Scan(s, q + len, q + len).head)]
                                               + Scan(s, q + len, q + len).pairs)
  {
    assert Scan(s, p, q) == ScanStep(s, p, q, Some((date, len)));
    ScanStepMatch(s, p, q, date, len);
  }

  lemma ScanStepMatch(s: string, p: nat, q: nat, date: string, len: nat)
    requires p <= q < |s| && 0 < len <= |s| - q
    ensures ScanStep(s, p, q, Some((date, len))) == Sections(s[p..q], [(date, Scan(s, q + len, q + len).head)]
                                                             + Scan(s, q + len, q + len).pairs)
  {
  }

  /** A plain piece at the start of the current piece is passed over. */
  lemma ScanSkipPiece(s: string, a: nat, b: nat, chunk: string)
    requires a <= b <= |s| && b == a + |chunk| && s[a..b] == chunk && PlainPiece(chunk) && SepOrEnd(s[b..])
    ensures Scan(s, a, a) == Scan(s, a, b)
  {
    NoMatchInPiece(s, a, chunk);
    ScanSkip(s, a, a, b);
  }

  /** The split of a text that from position `a` on is a rendered month. */
  lemma {:induction false} ScanRendered(s: string, a: nat, chunk: string, pairs: seq<(string, string)>)
    requires PlainPiece(chunk) && PlainPairs(pairs)
    requires a <= |s| && s[a..] == chunk + Tail(pairs)
    ensures Scan(s, a, a) == Sections(chunk, pairs)
    decreases |pairs|, 1
  {
    var b := a + |chunk|;
    assert s[a..b] == chunk;
    assert s[b..] == Tail(pairs) by { assert s[b..] == s[a..][|chunk|..]; }
    TailStart(pairs);
    ScanSkipPiece(s, a, b, chunk);
    if |pairs| == 0 {
      ScanEnd(s, a);
    } else {
      ScanRenderedStep(s, a, b, chunk, pairs);
    }
  }

  lemma ScanEnd(s: string, p: nat)
    requires p <= |s|
    ensures Scan(s, p, |s|) == Sections(s[p..], [])
  {
  }

  lemma PlainPairsTail(pairs: seq<(string, string)>)
    requires PlainPairs(pairs) && |pairs| > 0
    ensures PlainPairs(pairs[1..]) && IsDate(pairs[0].0) && PlainReport(pairs[0].1)
  {
    forall k | 0 <= k < |pairs[1..]| ensures IsDate(pairs[1..][k].0) && PlainReport(pairs[1..][k].1) {
      assert pairs[1..][k] == pairs[k + 1];
    }
  }

  /** The separator after the leading piece matches, and the split continues
      right after it. */
  lemma ScanAtSeparator(s: string, a: nat, b: nat, e: nat, chunk: string, date: string, more: string)
    requires IsDate(date) && (|more| > 0 ==> more[0] != '\n')
    requires a <= b <= e && b == a + |chunk| && e == b + 20
    requires a <= |s| && s[a..] == chunk + (SepText(date) + more)
    ensures e <= |s| && s[e..] == more
    ensures Scan(s, a, b) == Sections(chunk, [(date, Scan(s, e, e).head)] + Scan(s, e, e).pairs)
  {
    SeparatorPositions(s, a, b, e, chunk, date, more);
    MatchSepText(date, more);
    ScanAtMatch(s, a, b, date, 20);
  }

  lemma SeparatorPositions(s: string, a: nat, b: nat, e: nat, chunk: string, date: string, more: string)
    requires |date| == 10 && a <= b <= e && b == a + |chunk| && e == b + 20
    requires a <= |s| && s[a..] == chunk + (SepText(date) + more)
    ensures e <= |s| && s[e..] == more && s[b..] == SepText(date) + more && s[a..b] == chunk
  {
    assert |SepText(date)| == 20;
    assert s[b..] == s[a..][|chunk|..];
    assert s[e..] == s[b..][20..];
  }

  /** A rendered month after its leading text is empty or starts with a
      separator. */
  lemma TailStart(pairs: seq<(string, string)>)
    ensures SepOrEnd(Tail(pairs))
  {
    if |pairs| > 0 {
      var t := Tail(pairs);
      assert t[0] == SepText(pairs[0].0)[0] && t[1] == SepText(pairs[0].0)[1];
    }
  }

  lemma TailCons(pairs: seq<(string, string)>)
    requires |pairs| > 0
    ensures Tail(pairs) == SepText(pairs[0].0) + (pairs[0].1 + Tail(pairs[1..]))
  {
  }

  lemma {:induction false} ScanRenderedStep(s: string, a: nat, b: nat, chunk: string, pairs: seq<(string, string)>)
    requires PlainPiece(chunk) && PlainPairs(pairs) && |pairs| > 0
    requires a <= b && b == a + |chunk|
    requires a <= |s| && s[a..] == chunk + Tail(pairs)
    ensures Scan(s, a, b) == Sections(chunk, pairs)
    decreases |pairs|, 0
  {
    PlainPairsTail(pairs);
    var date, body := pairs[0].0, pairs[0].1;
    TailCons(pairs);
    var e := b + 20;
    ScanAtSeparator(s, a, b, e, chunk, date, body + Tail(pairs[1..]));
    ScanRendered(s, e, body, pairs[1..]);
    assert pairs == [(date, body)] + pairs[1..];
  }

  /** Splitting a rendered month recovers the leading text and every (date,
      report) pair, in order. */
  lemma SplitMonthRoundTrip(head: string, pairs: seq<(string, string)>)
    requires PlainPiece(head) && PlainPairs(pairs)
    ensures SplitMonth(RenderMonth(head, pairs)) == Sections(head, pairs)
  {
    ScanRendered(RenderMonth(head, pairs), 0, head, pairs);
  }

  // ---------------------------------------------------------------------------
  // One day's report

  /** What the history tab keeps for a day: the date, the activity lines and a
      colour per project. */
  datatype DayData = DayData(date: string, activities: seq<string>, colors: map<string, string>)

  /** The folder emoji that opens a project header line. */
  const FOLDER: char := '\U{1F4C1}'

  /** The eight palette colours, in order. */
  const PALETTE: seq<string> :=
    ["#94a3b8", "#60a5fa", "#34d399", "#fbbf24", "#f472b6", "#a78bfa", "#fb923c", "#22d3ee"]

  /** Lines with nothing to read: blank, the report title, or a rule. */
  predicate Skipped(t: string) {
    t == [] || Contains(t, "Time Tracking Report") || Contains(t, "=====")
  }

  /** The header pattern `📁\s*([^:]+):` tried at position `i`: the folder, the
      first colon after it, and a non-empty stretch between them. `\s*` gives
      back one space when nothing else is left for the group. The result is the
      trimmed group. */
  function HeaderAt(t: string, i: nat): (r: Option<string>)
    ensures r.Some? ==> i < |t| && t[i] == FOLDER && ':' in t[i + 1..]
  {
    if i < |t| && t[i] == FOLDER && ':' in t[i + 1..] then
      var j := i + 1 + IndexOf(t[i + 1..], ':');
      if j == i + 1 then None
      else
        var w := SpaceRun(t[i + 1..j]);
        var k := if i + 1 + w < j then w else w - 1;
        Some(Trim(t[i + 1 + k..j]))
    else None
  }

  /** The leftmost match of the header pattern at or after `i`. */
  function HeaderFrom(t: string, i: nat): Option<string>
    decreases |t| - i
  {
    if i >= |t| then None
    else if HeaderAt(t, i).Some? then HeaderAt(t, i)
    else HeaderFrom(t, i + 1)
  }

  /** The project a line names, when it is a header the parser takes. */
  function LineHeader(line: string): Option<string> {
    var t := Trim(line);
    if Skipped(t) || !StartsWith(t, [FOLDER]) then None else HeaderFrom(t, 0)
  }

  /** The line the day view shows for an activity: time, project, description. */
  function FormatActivity(time: string, project: string, description: string): string {
    time + " | " + project + " | " + description
  }

  /** The parser's state between lines: the project of the latest header, the
      activity lines so far, and the header projects in first-seen order. */
  datatype DayState = DayState(current: string, activities: seq<string>, projects: seq<string>)

  const START: DayState := DayState("", [], [])

  predicate Distinct(s: seq<string>) {
    forall i, j :: 0 <= i < j < |s| ==> s[i] != s[j]
  }

  /** `Set.add`: the sequence of insertions, keeping first-seen order. */
  function AddNew(s: seq<string>, x: string): (r: seq<string>)
    ensures Distinct(s) ==> Distinct(r)
    ensures forall y :: y in r <==> y in s || y == x
    ensures |s| > 0 ==> |r| > 0 && r[0] == s[0]
  {
    if x in s then s else s + [x]
  }

  /** One line of a day's report. */
  function StepLine(st: DayState, line: string): DayState {
    var t := Trim(line);
    if Skipped(t) then st
    else if StartsWith(t, [FOLDER]) then
      match HeaderFrom(t, 0)
      case None => st
      case Some(name) => st.(current := name, projects := AddNew(st.projects, name))
    else if '-' in t && '(' in t && st.current != "" then AddActivity(st, t)
    else st
  }

  /** An activity line under the current project: its time and description
      are re-joined with the project, or the line is kept whole when it has no
      `|`. Only the activity list grows. */
  function AddActivity(st: DayState, t: string): (r: DayState)
    ensures r.projects == st.projects && r.current == st.current
    ensures |r.activities| == |st.activities| + 1 && r.activities[..|st.activities|] == st.activities
  {
    var parts := Split(t, '|');
    var a := if |parts| >= 2 then FormatActivity(Trim(parts[0]), st.current, Trim(parts[1])) else t;
    var r := st.(activities := st.activities + [a]);
    assert r.activities[..|st.activities|] == st.activities;
    r
  }

  /** The header projects of `lines`, in order, repeats included. */
  function Headers(lines: seq<string>): seq<string> {
    if |lines| == 0 then []
    else
      var h := LineHeader(lines[|lines| - 1]);
      Headers(lines[..|lines| - 1]) + (if h.Some? then [h.value] else [])
  }

  /** A line changes the project list exactly when it is a header line, and
      adds at most one activity. */
  lemma StepLineProjects(st: DayState, line: string)
    ensures var h := LineHeader(line);
            StepLine(st, line).projects == if h.Some? then AddNew(st.projects, h.value) else st.projects
    ensures |StepLine(st, line).activities| <= |st.activities| + 1
  {
    var t := Trim(line);
    if Skipped(t) {
    } else if StartsWith(t, [FOLDER]) {
      StepHeaderLine(st, line);
    } else {
      StepOtherLine(st, line);
    }
  }

  lemma StepHeaderLine(st: DayState, line: string)
    requires !Skipped(Trim(line)) && StartsWith(Trim(line), [FOLDER])
    ensures var h := LineHeader(line);
            StepLine(st, line).projects == if h.Some? then AddNew(st.projects, h.value) else st.projects
    ensures StepLine(st, line).activities == st.activities
  {
    assert LineHeader(line) == HeaderFrom(Trim(line), 0);
  }

  lemma StepOtherLine(st: DayState, line: string)
    requires !Skipped(Trim(line)) && !StartsWith(Trim(line), [FOLDER])
    ensures LineHeader(line).None?
    ensures StepLine(st, line).projects == st.projects
    ensures |StepLine(st, line).activities| <= |st.activities| + 1
  {
  }

  /** The parser run over `lines`: the projects are the header projects without
      repeats, the first of them first, and there is at most one activity per
      line. */
  function ReadLines(lines: seq<string>): (r: DayState)
    ensures Distinct(r.projects)
    ensures forall p :: p in r.projects <==> p in Headers(lines)
    ensures |Headers(lines)| > 0 ==> |r.projects| > 0 && r.projects[0] == Headers(lines)[0]
    ensures |r.activities| <= |lines|
  {
    if |lines| == 0 then START
    else
      var prev := ReadLines(lines[..|lines| - 1]);
      var r := StepLine(prev, lines[|lines| - 1]);
      StepLineProjects(prev, lines[|lines| - 1]);
      ReadLinesStep(lines, prev.projects, r.projects);
      r
  }

  lemma ReadLinesStep(lines: seq<string>, before: seq<string>, after: seq<string>)
    requires |lines| > 0
    requires var h := LineHeader(lines[|lines| - 1]);
             after == if h.Some? then AddNew(before, h.value) else before
    requires Distinct(before)
    requires forall p :: p in before <==> p in Headers(lines[..|lines| - 1])
    requires |Headers(lines[..|lines| - 1])| > 0 ==> |before| > 0 && before[0] == Headers(lines[..|lines| - 1])[0]
    ensures Distinct(after)
    ensures forall p :: p in after <==> p in Headers(lines)
    ensures |Headers(lines)| > 0 ==> |after| > 0 && after[0] == Headers(lines)[0]
  {
    var h := LineHeader(lines[|lines| - 1]);
    var init := Headers(lines[..|lines| - 1]);
    assert Headers(lines) == init + (if h.Some? then [h.value] else []);
    assert |before| > 0 ==> before[0] in before;
    if |init| > 0 {
      assert Headers(lines)[0] == init[0];
    }
  }

  /** The palette colour of each project by its position: `palette[i % 8]`. */
  function Colors(projects: seq<string>): (r: map<string, string>)
    ensures forall p :: p in r <==> p in projects
    ensures Distinct(projects) ==> forall i :: 0 <= i < |projects| ==> r[projects[i]] == PALETTE[i % 8]
  {
    if |projects| == 0 then map[]
    else
      var n := |projects| - 1;
      var m := Colors(projects[..n]);
      ColorsStep(projects, m);
      m[projects[n] := PALETTE[n % 8]]
  }

  lemma ColorsStep(projects: seq<string>, m: map<string, string>)
    requires |projects| > 0
    requires forall p :: p in m <==> p in projects[..|projects| - 1]
    requires Distinct(projects[..|projects| - 1]) ==>
               forall i :: 0 <= i < |projects| - 1 ==> m[projects[..|projects| - 1][i]] == PALETTE[i % 8]
    ensures var n := |projects| - 1; var r := m[projects[n] := PALETTE[n % 8]];
            (forall p :: p in r <==> p in projects)
            && (Distinct(projects) ==> forall i :: 0 <= i < |projects| ==> r[projects[i]] == PALETTE[i % 8])
  {
    var n := |projects| - 1;
    assert projects == projects[..n] + [projects[n]];
    if Distinct(projects) {
      assert Distinct(projects[..n]);
      forall i | 0 <= i < n ensures projects[..n][i] == projects[i] && projects[i] != projects[n] { }
    }
  }

  /** `parseActivitiesOutput`: the trimmed report cut at line feeds, read line
      by line. */
  function ParseDay(output: string, date: string): (r: DayData)
    ensures r.date == date
  {
    var st := ReadLines(Split(Trim(output), '\n'));
    DayData(date, st.activities, Colors(st.projects))
  }

  /** The lines of a day's report, as the parser cuts them. */
  function DayLines(output: string): seq<string> {
    Split(Trim(output), '\n')
  }

  /** The colour keys of a day are exactly the projects its header lines name,
      and the first header's project has the first palette colour. */
  lemma ParseDayColors(output: string, date: string)
    ensures var r := ParseDay(output, date); var hs := Headers(DayLines(output));
            (forall p :: p in r.colors <==> p in hs)
            && (|hs| > 0 ==> hs[0] in r.colors && r.colors[hs[0]] == PALETTE[0])
  {
    var st := ReadLines(DayLines(output));
    if |Headers(DayLines(output))| > 0 {
      assert st.projects[0] == Headers(DayLines(output))[0];
    }
  }

  lemma PaletteDistinct()
    ensures |PALETTE| == 8
    ensures forall i, j :: 0 <= i < j < 8 ==> PALETTE[i] != PALETTE[j]
  {
    forall i, j | 0 <= i < j < 8 ensures PALETTE[i] != PALETTE[j] {
      var a, b := PALETTE[i], PALETTE[j];
      if i == 0 { assert a[1] == '9'; }
      else if i == 1 { assert a[1] == '6'; }
      else if i == 2 { assert a[1] == '3'; }
      else if i == 3 { assert a[3] == 'b'; }
      else if i == 4 { assert a[2] == '4'; }
      else if i == 5 { assert a[1] == 'a'; }
      else { assert a[1] == 'f'; }
    }
  }

  /** The first eight projects get eight different colours. */
  lemma ColorsFirstEightDistinct(projects: seq<string>, i: nat, j: nat)
    requires Distinct(projects) && i < j < |projects| && j < 8
    ensures Colors(projects)[projects[i]] != Colors(projects)[projects[j]]
  {
    var m := Colors(projects);
    assert m[projects[i]] == PALETTE[i % 8] && m[projects[j]] == PALETTE[j % 8];
    SmallMod(i);
    SmallMod(j);
    PaletteDistinct();
  }

  lemma SmallMod(i: nat)
    requires i < 8
    ensures i % 8 == i
  {
  }

  /** Lines before the first header leave the parser where it started: their
      activity lines are dropped for want of a project. */
  lemma {:induction false} NoHeaderNoChange(lines: seq<string>)
    requires Headers(lines) == []
    ensures ReadLines(lines) == START
    decreases |lines|
  {
    if |lines| > 0 {
      var init := lines[..|lines| - 1];
      NoHeaderNoChange(init);
    }
  }

  /** Whatever precedes the first header does not change the day. */
  lemma {:induction false} LeadingLinesIgnored(pre: seq<string>, rest: seq<string>)
    requires Headers(pre) == []
    ensures ReadLines(pre + rest) == ReadLines(rest)
    decreases |rest|
  {
    if |rest| == 0 {
      assert pre + rest == pre;
      NoHeaderNoChange(pre);
    } else {
      var n := |rest| - 1;
      assert (pre + rest)[..|pre + rest| - 1] == pre + rest[..n];
      assert (pre + rest)[|pre + rest| - 1] == rest[n];
      LeadingLinesIgnored(pre, rest[..n]);
    }
  }

  // ---------------------------------------------------------------------------
  // A rendered day reads back

  /** A project block's header line: `📁 project: total`. */
  function HeaderLine(project: string, total: string): string {
    [FOLDER] + " " + project + ": " + total
  }

  /** An activity line under a header: `time | description`. */
  function EntryLine(time: string, description: string): string {
    time + " | " + description
  }

  /** One project's block of a day's report: its header's total and its
      (time, description) entries. */
  datatype Block = Block(project: string, total: string, entries: seq<(string, string)>)

  function EntryLines(entries: seq<(string, string)>): seq<string> {
    if |entries| == 0 then []
    else
      var e := entries[|entries| - 1];
      EntryLines(entries[..|entries| - 1]) + [EntryLine(e.0, e.1)]
  }

  function BlockLines(b: Block): seq<string> {
    [HeaderLine(b.project, b.total)] + EntryLines(b.entries)
  }

  /** The lines of a day's report made of `blocks`, in order. */
  function RenderDay(blocks: seq<Block>): seq<string> {
    if |blocks| == 0 then [] else RenderDay(blocks[..|blocks| - 1]) + BlockLines(blocks[|blocks| - 1])
  }

  /** The report text: the lines joined by line feeds. */
  function DayReport(blocks: seq<Block>): string {
    if |RenderDay(blocks)| == 0 then "" else Join(RenderDay(blocks), '\n')
  }

  /** What the day view should list for entries under `project`. */
  function Formatted(project: string, entries: seq<(string, string)>): seq<string> {
    if |entries| == 0 then []
    else
      var e := entries[|entries| - 1];
      Formatted(project, entries[..|entries| - 1]) + [FormatActivity(e.0, project, e.1)]
  }

  /** What the day view should list for `blocks`: every entry, in order, with
      its block's project between time and description. */
  function DayActivities(blocks: seq<Block>): seq<string> {
    if |blocks| == 0 then []
    else
      var b := blocks[|blocks| - 1];
      DayActivities(blocks[..|blocks| - 1]) + Formatted(b.project, b.entries)
  }

  /** A piece of a line: non-empty, no surrounding white space, no line break. */
  predicate Field(s: string) {
    |s| > 0 && IsTrimmed(s) && '\n' !in s
  }

  /** Neither the report title nor a `=====` rule occurs in the line. */
  predicate Unmarked(line: string) {
    !Contains(line, "Time Tracking Report") && !Contains(line, "=====")
  }

  /** A header the parser reads: the project name has no colon. */
  predicate GoodHeader(project: string, total: string) {
    Field(project) && ':' !in project && Field(total) && Unmarked(HeaderLine(project, total))
  }

  /** An activity line the parser takes: the time part has the `-` and `(` of
      `13:46 - 14:49 (1h 3m)`, neither part holds `|`, and the line does not
      start with the folder. */
  predicate GoodEntry(time: string, description: string) {
    Field(time) && Field(description) && '|' !in time && '|' !in description
    && '-' in time && '(' in time && time[0] != FOLDER && Unmarked(EntryLine(time, description))
  }

  predicate GoodBlock(b: Block) {
    GoodHeader(b.project, b.total)
    && forall k :: 0 <= k < |b.entries| ==> GoodEntry(b.entries[k].0, b.entries[k].1)
  }

  predicate GoodBlocks(blocks: seq<Block>) {
    forall k :: 0 <= k < |blocks| ==> GoodBlock(blocks[k])
  }

  /** The parser run over `lines` from state `st`. */
  function ReadFrom(st: DayState, lines: seq<string>): DayState {
    if |lines| == 0 then st else StepLine(ReadFrom(st, lines[..|lines| - 1]), lines[|lines| - 1])
  }

  lemma {:induction false} ReadLinesFromStart(lines: seq<string>)
    ensures ReadLines(lines) == ReadFrom(START, lines)
    decreases |lines|
  {
    if |lines| > 0 {
      ReadLinesFromStart(lines[..|lines| - 1]);
    }
  }

  lemma {:induction false} ReadFromAppend(st: DayState, a: seq<string>, b: seq<string>)
    ensures ReadFrom(st, a + b) == ReadFrom(ReadFrom(st, a), b)
    decreases |b|
  {
    if |b| == 0 {
      assert a + b == a;
    } else {
      var n := |b| - 1;
      assert (a + b)[..|a + b| - 1] == a + b[..n];
      assert (a + b)[|a + b| - 1] == b[n];
      ReadFromAppend(st, a, b[..n]);
    }
  }

  /** A header line makes its project the current one and records it. */
  lemma HeaderStep(st: DayState, project: string, total: string)
    requires GoodHeader(project, total)
    ensures StepLine(st, HeaderLine(project, total))
            == st.(current := project, projects := AddNew(st.projects, project))
  {
    var t := HeaderLine(project, total);
    assert IsTrimmed(t) by { assert t[0] == FOLDER && t[|t| - 1] == total[|total| - 1]; }
    TrimTrimmed(t);
    assert StartsWith(t, [FOLDER]) by { assert t[..1] == [FOLDER]; }
    assert HeaderAt(t, 0) == Some(project) by { HeaderAtLine(project, total); }
  }

  lemma HeaderAtLine(project: string, total: string)
    requires Field(project) && ':' !in project
    ensures HeaderAt(HeaderLine(project, total), 0) == Some(project)
  {
    var t := HeaderLine(project, total);
    var u := t[1..];
    assert u == " " + project + ": " + total;
    var j := 1 + |project|;
    assert u[j] == ':';
    assert u[..j] == " " + project;
    IndexOfFirst(u, ':', j);
    assert t[1..1 + j] == " " + project;
    assert SpaceRun(" " + project) == 1 by {
      assert (" " + project)[1..] == project;
    }
    assert t[2..1 + j] == project;
    TrimTrimmed(project);
  }

  /** An entry line under a project appends `time | project | description`. */
  lemma EntryStep(st: DayState, time: string, description: string)
    requires GoodEntry(time, description) && st.current != ""
    ensures StepLine(st, EntryLine(time, description))
            == st.(activities := st.activities + [FormatActivity(time, st.current, description)])
  {
    var t := EntryLine(time, description);
    EntryLineShape(time, description);
    ActivityLineStep(st, t);
    EntryLineParts(time, description);
  }

  /** Under a current project, a line that is neither skipped nor a header and
      holds `-` and `(` is an activity line. */
  lemma ActivityLineStep(st: DayState, line: string)
    requires var t := Trim(line); !Skipped(t) && !StartsWith(t, [FOLDER]) && '-' in t && '(' in t
    requires st.current != ""
    ensures StepLine(st, line) == AddActivity(st, Trim(line))
  {
  }

  /** An entry line is trimmed, taken as an activity line and not as a header. */
  lemma EntryLineShape(time: string, description: string)
    requires GoodEntry(time, description)
    ensures var t := EntryLine(time, description);
            Trim(t) == t && !Skipped(t) && !StartsWith(t, [FOLDER]) && '-' in t && '(' in t
  {
    var t := EntryLine(time, description);
    assert IsTrimmed(t) by { assert t[0] == time[0] && t[|t| - 1] == description[|description| - 1]; }
    TrimTrimmed(t);
    assert !StartsWith(t, [FOLDER]) by { assert t[0] == time[0]; }
  }

  /** An entry line splits at its one `|` into the time and the description. */
  lemma EntryLineParts(time: string, description: string)
    requires GoodEntry(time, description)
    ensures var parts := Split(EntryLine(time, description), '|');
            |parts| == 2 && Trim(parts[0]) == time && Trim(parts[1]) == description
  {
    var parts := [time + " ", " " + description];
    assert Join(parts, '|') == EntryLine(time, description);
    SplitJoin(parts, '|');
    TrimPadded("", time, " ");
    assert "" + time + " " == time + " ";
    TrimPadded(" ", description, "");
    assert " " + description + "" == " " + description;
  }

  /** An activity line without `|` is listed as it stands, trimmed. */
  lemma VerbatimStep(st: DayState, line: string)
    requires var t := Trim(line);
             !Skipped(t) && !StartsWith(t, [FOLDER]) && '-' in t && '(' in t && '|' !in t
    requires st.current != ""
    ensures StepLine(st, line) == st.(activities := st.activities + [Trim(line)])
  {
    assert Split(Trim(line), '|') == [Trim(line)];
  }

  /** Blank lines, the report title and `=====` rules change nothing. */
  lemma SkippedStep(st: DayState, line: string)
    requires AllSpace(line) || Contains(Trim(line), "Time Tracking Report") || Contains(Trim(line), "=====")
    ensures StepLine(st, line) == st
  {
  }

  lemma {:induction false} EntriesRead(st: DayState, entries: seq<(string, string)>)
    requires st.current != ""
    requires forall k :: 0 <= k < |entries| ==> GoodEntry(entries[k].0, entries[k].1)
    ensures ReadFrom(st, EntryLines(entries))
            == st.(activities := st.activities + Formatted(st.current, entries))
    decreases |entries|
  {
    if |entries| > 0 {
      var n := |entries| - 1;
      EntriesRead(st, entries[..n]);
      EntrySnoc(st, EntryLines(entries[..n]), entries[n]);
      var x := FormatActivity(entries[n].0, st.current, entries[n].1);
      assert Formatted(st.current, entries) == Formatted(st.current, entries[..n]) + [x];
      AppendAssoc(st.activities, Formatted(st.current, entries[..n]), [x]);
    }
  }

  lemma AppendAssoc<T>(a: seq<T>, b: seq<T>, c: seq<T>)
    ensures a + b + c == a + (b + c)
  {
  }

  /** One more entry line after `lines`. */
  lemma EntrySnoc(st: DayState, lines: seq<string>, e: (string, string))
    requires GoodEntry(e.0, e.1) && ReadFrom(st, lines).current != ""
    ensures var mid := ReadFrom(st, lines);
            ReadFrom(st, lines + [EntryLine(e.0, e.1)])
            == mid.(activities := mid.activities + [FormatActivity(e.0, mid.current, e.1)])
  {
    assert (lines + [EntryLine(e.0, e.1)])[..|lines|] == lines;
    EntryStep(ReadFrom(st, lines), e.0, e.1);
  }

  lemma BlockRead(st: DayState, b: Block)
    requires GoodBlock(b)
    ensures ReadFrom(st, BlockLines(b)).activities == st.activities + Formatted(b.project, b.entries)
    ensures ReadFrom(st, BlockLines(b)).current == b.project
  {
    var h := HeaderLine(b.project, b.total);
    ReadFromAppend(st, [h], EntryLines(b.entries));
    assert ReadFrom(st, [h]) == StepLine(st, h) by { assert [h][..0] == []; }
    HeaderStep(st, b.project, b.total);
    EntriesRead(StepLine(st, h), b.entries);
  }

  lemma {:induction false} BlocksRead(st: DayState, blocks: seq<Block>)
    requires GoodBlocks(blocks)
    ensures ReadFrom(st, RenderDay(blocks)).activities == st.activities + DayActivities(blocks)
    decreases |blocks|
  {
    if |blocks| == 0 {
      assert st.activities + [] == st.activities;
    } else {
      var n := |blocks| - 1;
      var init := RenderDay(blocks[..n]);
      BlocksRead(st, blocks[..n]);
      ReadFromAppend(st, init, BlockLines(blocks[n]));
      var mid := ReadFrom(st, init);
      BlockRead(mid, blocks[n]);
      var f := Formatted(blocks[n].project, blocks[n].entries);
      assert DayActivities(blocks) == DayActivities(blocks[..n]) + f;
      assert RenderDay(blocks) == init + BlockLines(blocks[n]);
      AppendAssoc(st.activities, DayActivities(blocks[..n]), f);
    }
  }

  /** The lines of a rendered day read back as its entries, each joined with
      the project of the header above it, in order. */
  lemma DayLinesRoundTrip(blocks: seq<Block>)
    requires GoodBlocks(blocks)
    ensures ReadLines(RenderDay(blocks)).activities == DayActivities(blocks)
  {
    ReadLinesFromStart(RenderDay(blocks));
    BlocksRead(START, blocks);
  }

  /** A rendered day's report text parses back to its entries, each joined
      with the project of the header above it, in order. */
  lemma ParseDayRoundTrip(blocks: seq<Block>, date: string)
    requires GoodBlocks(blocks)
    ensures ParseDay(DayReport(blocks), date).activities == DayActivities(blocks)
  {
    var lines := RenderDay(blocks);
    if |lines| == 0 {
      EmptyDay(blocks);
      assert Split(Trim(""), '\n') == [""];
      assert ReadLines([""]) == StepLine(START, "") by { assert [""][..0] == []; }
    } else {
      RenderedShape(blocks);
      JoinFirst(lines, '\n');
      JoinLast(lines, '\n');
      var s := Join(lines, '\n');
      var l := lines[|lines| - 1];
      assert s[0] == lines[0][0];
      assert s[|s| - 1] == l[|l| - 1] by { assert s[|s| - |l|..][|l| - 1] == l[|l| - 1]; }
      TrimTrimmed(s);
      SplitJoin(lines, '\n');
      DayLinesRoundTrip(blocks);
    }
  }

  lemma EmptyDay(blocks: seq<Block>)
    ensures |RenderDay(blocks)| == 0 <==> |blocks| == 0
  {
    if |blocks| > 0 {
      assert |BlockLines(blocks[|blocks| - 1])| > 0;
    }
  }

  /** A rendered day's lines hold no line feed, the first starts with the
      folder and the last ends in a character other than white space. */
  lemma {:induction false} RenderedShape(blocks: seq<Block>)
    requires GoodBlocks(blocks) && |RenderDay(blocks)| > 0
    ensures var lines := RenderDay(blocks);
            (forall i :: 0 <= i < |lines| ==> '\n' !in lines[i])
            && |lines[0]| > 0 && lines[0][0] == FOLDER
            && |lines[|lines| - 1]| > 0 && !IsSpace(lines[|lines| - 1][|lines[|lines| - 1]| - 1])
    decreases |blocks|
  {
    var n := |blocks| - 1;
    var b := blocks[n];
    var init := RenderDay(blocks[..n]);
    var mine := BlockLines(b);
    BlockShape(b);
    if |init| > 0 {
      RenderedShape(blocks[..n]);
    }
    assert RenderDay(blocks) == init + mine;
    assert forall i :: 0 <= i < |init + mine| ==> (init + mine)[i] in init || (init + mine)[i] in mine;
  }

  lemma BlockShape(b: Block)
    requires GoodBlock(b)
    ensures var lines := BlockLines(b);
            (forall i :: 0 <= i < |lines| ==> '\n' !in lines[i])
            && |lines[0]| > 0 && lines[0][0] == FOLDER
            && |lines[|lines| - 1]| > 0 && !IsSpace(lines[|lines| - 1][|lines[|lines| - 1]| - 1])
  {
    EntryLinesShape(b.entries);
    var h := HeaderLine(b.project, b.total);
    assert h[|h| - 1] == b.total[|b.total| - 1];
  }

  lemma {:induction false} EntryLinesShape(entries: seq<(string, string)>)
    requires forall k :: 0 <= k < |entries| ==> GoodEntry(entries[k].0, entries[k].1)
    ensures var lines := EntryLines(entries);
            |lines| == |entries|
            && (forall i :: 0 <= i < |lines| ==> '\n' !in lines[i])
            && (|lines| > 0 ==> |lines[|lines| - 1]| > 0 && !IsSpace(lines[|lines| - 1][|lines[|lines| - 1]| - 1]))
    decreases |entries|
  {
    if |entries| > 0 {
      var n := |entries| - 1;
      EntryLinesShape(entries[..n]);
      var e := entries[n];
      var l := EntryLine(e.0, e.1);
      assert l[|l| - 1] == e.1[|e.1| - 1];
    }
  }

  // ---------------------------------------------------------------------------
  // The day timeline

  /** One entry of the day timeline. */
  datatype TimelineItem = TimelineItem(project: string, description: string, color: string, minutes: nat)

  const DEFAULT_COLOR := "#cbd5e1"

  /** `colors[project] || '#cbd5e1'`. */
  function ColorOf(colors: map<string, string>, project: string): (c: string)
    ensures c != ""
    ensures project in colors && colors[project] != "" ==> c == colors[project]
  {
    if project in colors && colors[project] != "" then colors[project] else DEFAULT_COLOR
  }

  /** The pattern `\((\d+)h\s*(\d+)m\)` tried at position `i`: every repetition
      is followed by a character it cannot take, so a match is unique. The
      value is the hours times sixty plus the minutes. */
  function DurationAt(t: string, i: nat): Option<nat> {
    if i >= |t| || t[i] != '(' then None else HoursPart(t[i + 1..])
  }

  /** `(\d+)h` and the rest of the pattern, at the start of `u`. */
  function HoursPart(u: string): Option<nat> {
    var k := DigitRun(u);
    if k == 0 || k >= |u| || u[k] != 'h' then None
    else match MinutesPart(u[k + 1..])
      case None => None
      case Some(m) => Some(DigitsValue(u[..k]) * 60 + m)
  }

  /** `\s*(\d+)m\)` at the start of `v`. */
  function MinutesPart(v: string): Option<nat> {
    var c := SpaceRun(v);
    var e := c + DigitRun(v[c..]);
    if e == c || e + 1 >= |v| || v[e] != 'm' || v[e + 1] != ')' then None
    else
      assert v[c..e] == v[c..][..e - c];
      Some(DigitsValue(v[c..e]))
  }

  /** The leftmost duration at or after `i`. */
  function DurationFrom(t: string, i: nat): Option<nat>
    decreases |t| - i
  {
    if i >= |t| then None
    else if DurationAt(t, i).Some? then DurationAt(t, i)
    else DurationFrom(t, i + 1)
  }

  /** The minutes an activity line states; none stated counts as zero. */
  function Minutes(activity: string): nat {
    DurationFrom(activity, 0).GetOr(0)
  }

  /** The timeline entry of an activity line with at least three `|` parts. */
  function TimelineEntry(activity: string, colors: map<string, string>): (r: Option<TimelineItem>)
    ensures r.Some? <==> |Split(activity, '|')| >= 3
    ensures r.Some? ==> r.value.minutes == Minutes(activity) && IsTrimmed(r.value.project)
                        && IsTrimmed(r.value.description)
  {
    var parts := Split(activity, '|');
    if |parts| < 3 then None
    else
      var project := Trim(parts[1]);
      Some(TimelineItem(project, Trim(parts[2]), ColorOf(colors, project), Minutes(activity)))
  }

  /** The timeline of a day: one entry per activity line with three parts, in order. */
  function Timeline(activities: seq<string>, colors: map<string, string>): (r: seq<TimelineItem>)
    ensures |r| <= |activities|
  {
    if |activities| == 0 then []
    else
      var rest := Timeline(activities[1..], colors);
      match TimelineEntry(activities[0], colors)
      case None => rest
      case Some(item) => [item] + rest
  }

  function TotalMinutes(items: seq<TimelineItem>): nat {
    if |items| == 0 then 0 else items[0].minutes + TotalMinutes(items[1..])
  }

  /** `Math.floor(total / 60)` hours and `total % 60` minutes. */
  function SplitTotal(total: nat): (r: (nat, nat))
    ensures r.0 * 60 + r.1 == total && r.1 < 60
  {
    (total / 60, total % 60)
  }

  /** Activities whose line has no three parts add nothing to the total. */
  lemma {:induction false} TotalOfTimeline(activities: seq<string>, colors: map<string, string>)
    ensures TotalMinutes(Timeline(activities, colors))
         == SumMinutes(activities)
    decreases |activities|
  {
    if |activities| > 0 {
      TotalOfTimeline(activities[1..], colors);
    }
  }

  /** The reference sum: the minutes of every activity line with three parts. */
  function SumMinutes(activities: seq<string>): nat {
    if |activities| == 0 then 0
    else (if |Split(activities[0], '|')| >= 3 then Minutes(activities[0]) else 0) + SumMinutes(activities[1..])
  }

  /** The three `|` parts of a formatted activity line. */
  lemma FormatParts(time: string, project: string, description: string)
    requires '|' !in time && '|' !in project && '|' !in description
    ensures Split(FormatActivity(time, project, description), '|')
         == [time + " ", " " + project + " ", " " + description]
  {
    var parts := [time + " ", " " + project + " ", " " + description];
    assert Join(parts, '|') == FormatActivity(time, project, description) by {
      assert Join(parts[2..], '|') == parts[2];
      assert Join(parts[1..], '|') == parts[1] + "|" + parts[2];
    }
    assert forall k :: 0 <= k < 3 ==> '|' !in parts[k];
    SplitJoin(parts, '|');
  }

  /** The timeline entry of a line whose three `|` parts are a time, a padded
      project and a padded description. */
  lemma TimelineOfParts(line: string, time: string, project: string, description: string,
                        colors: map<string, string>)
    requires Split(line, '|') == [time + " ", " " + project + " ", " " + description]
    requires IsTrimmed(project) && IsTrimmed(description)
    ensures TimelineEntry(line, colors)
         == Some(TimelineItem(project, description, ColorOf(colors, project), Minutes(line)))
  {
    TrimPadded(" ", project, " ");
    TrimPadded(" ", description, "");
    assert " " + description + "" == " " + description;
  }

  /** The timeline reads the project and the description back out of a line
      the day parser formatted, as long as neither holds a `|`. */
  lemma TimelineOfFormatted(time: string, project: string, description: string, colors: map<string, string>)
    requires '|' !in time && '|' !in project && '|' !in description
    requires IsTrimmed(project) && IsTrimmed(description)
    ensures var line := FormatActivity(time, project, description);
            TimelineEntry(line, colors)
              == Some(TimelineItem(project, description, ColorOf(colors, project), Minutes(line)))
  {
    FormatParts(time, project, description);
    TimelineOfParts(FormatActivity(time, project, description), time, project, description, colors);
  }

  /** The four `|` parts of a formatted activity line whose project holds one `|`. */
  lemma FormatPartsBar(time: string, p1: string, p2: string, description: string)
    requires '|' !in time && '|' !in p1 && '|' !in p2 && '|' !in description
    ensures Split(FormatActivity(time, p1 + "|" + p2, description), '|')
         == [time + " ", " " + p1, p2 + " ", " " + description]
  {
    var parts := [time + " ", " " + p1, p2 + " ", " " + description];
    assert Join(parts, '|') == FormatActivity(time, p1 + "|" + p2, description) by {
      assert Join(parts[3..], '|') == parts[3];
      assert Join(parts[2..], '|') == parts[2] + "|" + parts[3];
      assert Join(parts[1..], '|') == parts[1] + "|" + (parts[2] + "|" + parts[3]);
    }
    assert forall k :: 0 <= k < 4 ==> '|' !in parts[k];
    SplitJoin(parts, '|');
  }

  /** A project name holding a `|` is cut at it when the timeline reads the
      line back: the part before the bar shows as the project and the part
      after it as the description. */
  lemma BarInProjectMisread(time: string, p1: string, p2: string, description: string,
                            colors: map<string, string>)
    requires '|' !in time && '|' !in p1 && '|' !in p2 && '|' !in description
    requires IsTrimmed(p1) && IsTrimmed(p2)
    ensures var e := TimelineEntry(FormatActivity(time, p1 + "|" + p2, description), colors);
            e.Some? && e.value.project == p1 && e.value.description == p2
  {
    FormatPartsBar(time, p1, p2, description);
    BarParts(FormatActivity(time, p1 + "|" + p2, description), time, p1, p2, description, colors);
  }

  lemma BarParts(line: string, time: string, p1: string, p2: string, description: string,
                 colors: map<string, string>)
    requires Split(line, '|') == [time + " ", " " + p1, p2 + " ", " " + description]
    requires IsTrimmed(p1) && IsTrimmed(p2)
    ensures var e := TimelineEntry(line, colors);
            e.Some? && e.value.project == p1 && e.value.description == p2
  {
    var parts := Split(line, '|');
    assert parts[1] == " " + p1 && parts[2] == p2 + " ";
    TrimPadded(" ", p1, "");
    assert " " + p1 + "" == " " + p1;
    TrimPadded("", p2, " ");
    assert "" + p2 + " " == p2 + " ";
    TimelineEntryParts(line, colors, p1, p2);
  }

  /** The entry's project and description are the trimmed second and third parts. */
  lemma TimelineEntryParts(line: string, colors: map<string, string>, project: string, description: string)
    requires |Split(line, '|')| >= 3
    requires Trim(Split(line, '|')[1]) == project && Trim(Split(line, '|')[2]) == description
    ensures var e := TimelineEntry(line, colors);
            e.Some? && e.value.project == project && e.value.description == description
  {
  }

  /** How the report writes a duration: `(1h 3m)`. */
  function DurationText(h: nat, m: nat): string {
    "(" + NatToString(h) + "h " + NatToString(m) + "m)"
  }

  /** One space before a digit is exactly the `\s*` run. */
  lemma SpaceRunOne(t: string)
    requires |t| >= 2 && t[0] == ' ' && IsDigit(t[1])
    ensures SpaceRun(t) == 1
  {
    assert t[1..][0] == t[1];
  }

  lemma MinutesPartOf(d2: string, post: string)
    requires |d2| > 0 && AllDigits(d2)
    ensures MinutesPart(" " + d2 + "m)" + post) == Some(DigitsValue(d2))
  {
    var v := " " + d2 + "m)" + post;
    MinutesSpace(v, d2, post);
    MinutesDigits(v, d2, post);
    MinutesMarks(v, d2, post);
    MinutesPartAt(v, 1, 1 + |d2|);
  }

  lemma MinutesSpace(v: string, d2: string, post: string)
    requires |d2| > 0 && AllDigits(d2) && v == " " + d2 + "m)" + post
    ensures SpaceRun(v) == 1
  {
    assert v[1] == d2[0];
    SpaceRunOne(v);
  }

  lemma MinutesDigits(v: string, d2: string, post: string)
    requires |d2| > 0 && AllDigits(d2) && v == " " + d2 + "m)" + post
    ensures DigitRun(v[1..]) == |d2|
  {
    assert v[1..] == d2 + ("m)" + post);
    DigitRunOf(d2, "m)" + post);
  }

  lemma MinutesMarks(v: string, d2: string, post: string)
    requires v == " " + d2 + "m)" + post
    ensures |d2| + 2 < |v| && v[1 + |d2|] == 'm' && v[2 + |d2|] == ')' && v[1..1 + |d2|] == d2
  {
  }

  /** `MinutesPart` once the positions of its pieces are known. */
  lemma MinutesPartAt(v: string, c: nat, e: nat)
    requires c <= |v| && SpaceRun(v) == c && e == c + DigitRun(v[c..])
    requires c < e && e + 1 < |v| && v[e] == 'm' && v[e + 1] == ')'
    requires AllDigits(v[c..e])
    ensures MinutesPart(v) == Some(DigitsValue(v[c..e]))
  {
  }

  /** Where the hours digits end in `d1 + "h" + w`. */
  lemma HoursDigitsEnd(u: string, d1: string, w: string)
    requires |d1| > 0 && AllDigits(d1) && u == d1 + ['h'] + w
    ensures DigitRun(u) == |d1| && |d1| < |u| && u[|d1|] == 'h' && u[|d1| + 1..] == w && u[..|d1|] == d1
  {
    assert u == d1 + (['h'] + w);
    DigitRunOf(d1, ['h'] + w);
    assert u[..|d1|] == d1;
    assert u[|d1|] == 'h';
    assert u[|d1| + 1..] == w;
  }

  /** At an opening parenthesis the duration pattern is the hours part after it. */
  lemma DurationAtParen(t: string, i: nat, u: string)
    requires i < |t| && t[i] == '(' && t[i + 1..] == u
    ensures DurationAt(t, i) == HoursPart(u)
  {
  }

  lemma HoursPartMatches(u: string, k: nat, m: nat)
    requires 0 < k < |u| && DigitRun(u) == k && u[k] == 'h' && MinutesPart(u[k + 1..]) == Some(m)
    ensures HoursPart(u).Some?
  {
  }

  lemma HoursPartValue(u: string, k: nat, m: nat)
    requires 0 < k < |u| && DigitRun(u) == k && u[k] == 'h' && MinutesPart(u[k + 1..]) == Some(m)
    ensures HoursPart(u).value == DigitsValue(u[..k]) * 60 + m
  {
  }

  lemma DurationTextPieces(h: nat, m: nat, post: string)
    ensures DurationText(h, m) + post
         == ['('] + (NatToString(h) + ['h'] + (" " + NatToString(m) + "m)" + post))
  {
  }

  lemma SuffixAfterHead(t: string, i: nat, c: char, u: string)
    requires i <= |t| && t[i..] == [c] + u
    ensures i < |t| && t[i] == c && t[i + 1..] == u
  {
    assert t[i] == t[i..][0];
    assert t[i + 1..] == t[i..][1..];
  }

  /** A written duration reads back as hours times sixty plus minutes. */
  lemma DurationAtText(t: string, i: nat, h: nat, m: nat, post: string)
    requires i <= |t| && t[i..] == DurationText(h, m) + post
    ensures DurationAt(t, i).Some? && DurationAt(t, i).value == h * 60 + m
  {
    var d1, d2 := NatToString(h), NatToString(m);
    var w := " " + d2 + "m)" + post;
    var u := d1 + ['h'] + w;
    var x := HoursPart(u);
    assert x.Some? && x.value == h * 60 + m by {
      HoursDigitsEnd(u, d1, w);
      MinutesPartOf(d2, post);
      HoursPartMatches(u, |d1|, m);
      HoursPartValue(u, |d1|, m);
    }
    assert i < |t| && t[i] == '(' && t[i + 1..] == u by {
      DurationTextPieces(h, m, post);
      SuffixAfterHead(t, i, '(', u);
    }
    DurationAtParen(t, i, u);
  }

  /** The minutes of a line whose first `(` opens a written duration. */
  lemma MinutesOfText(pre: string, h: nat, m: nat, post: string)
    requires '(' !in pre
    ensures Minutes(pre + DurationText(h, m) + post) == h * 60 + m
  {
    var t := pre + DurationText(h, m) + post;
    assert t[|pre|..] == DurationText(h, m) + post;
    DurationAtText(t, |pre|, h, m, post);
    DurationSkip(t, 0, |pre|);
  }

  /** Positions without an opening parenthesis hold no duration. */
  lemma {:induction false} DurationSkip(t: string, i: nat, j: nat)
    requires i <= j <= |t| && '(' !in t[i..j]
    ensures DurationFrom(t, i) == DurationFrom(t, j)
    decreases j - i
  {
    if i < j {
      assert t[i] == t[i..j][0];
      assert t[i + 1..j] == t[i..j][1..];
      DurationSkip(t, i + 1, j);
    }
  }

  // ---------------------------------------------------------------------------
  // A month

  /** A (date, section) pair the month keeps: a date and a section that is not
      all white space. */
  predicate Kept(pair: (string, string)) {
    pair.0 != "" && !Blank(pair.1)
  }

  /** Nothing but white space: `!s.trim()`. */
  predicate Blank(s: string) {
    |s| == 0 || (IsSpace(s[0]) && Blank(s[1..]))
  }

  lemma {:induction false} BlankIsTrimEmpty(s: string)
    ensures Blank(s) <==> Trim(s) == []
    decreases |s|
  {
    if |s| > 0 {
      BlankIsTrimEmpty(s[1..]);
      assert AllSpace(s) <==> IsSpace(s[0]) && AllSpace(s[1..]) by {
        assert forall i :: 0 < i < |s| ==> s[i] == s[1..][i - 1];
      }
    }
  }

  /** The section each date ends up with: the last kept pair under it wins. */
  function LatestSections(pairs: seq<(string, string)>): map<string, string> {
    if |pairs| == 0 then map[]
    else
      var n := |pairs| - 1;
      var m := LatestSections(pairs[..n]);
      if Kept(pairs[n]) then m[pairs[n].0 := pairs[n].1] else m
  }

  /** The dates that survive are exactly those of the kept pairs. */
  lemma {:induction false} LatestSectionsKeys(pairs: seq<(string, string)>)
    ensures forall k :: k in LatestSections(pairs) <==> exists i :: 0 <= i < |pairs| && pairs[i].0 == k && Kept(pairs[i])
    decreases |pairs|
  {
    if |pairs| > 0 {
      var n := |pairs| - 1;
      LatestSectionsKeys(pairs[..n]);
      var m := LatestSections(pairs[..n]);
      PrefixKeys(pairs, m);
      LatestUnfold(pairs);
      LatestStep(pairs, m);
    }
  }

  /** The kept dates of the prefix without the last pair, indexed in the whole. */
  lemma PrefixKeys(pairs: seq<(string, string)>, m: map<string, string>)
    requires |pairs| > 0
    requires var p := pairs[..|pairs| - 1];
             forall k :: k in m <==> exists i :: 0 <= i < |p| && p[i].0 == k && Kept(p[i])
    ensures forall k :: k in m <==> exists i :: 0 <= i < |pairs| - 1 && pairs[i].0 == k && Kept(pairs[i])
  {
    assert forall i :: 0 <= i < |pairs| - 1 ==> pairs[..|pairs| - 1][i] == pairs[i];
  }

  lemma LatestStep(pairs: seq<(string, string)>, m: map<string, string>)
    requires |pairs| > 0
    requires forall k :: k in m <==> exists i :: 0 <= i < |pairs| - 1 && pairs[i].0 == k && Kept(pairs[i])
    ensures var n := |pairs| - 1; var r := if Kept(pairs[n]) then m[pairs[n].0 := pairs[n].1] else m;
            forall k :: k in r <==> exists i :: 0 <= i < |pairs| && pairs[i].0 == k && Kept(pairs[i])
  {
    var n := |pairs| - 1;
    var r := if Kept(pairs[n]) then m[pairs[n].0 := pairs[n].1] else m;
    forall k ensures k in r <==> exists i :: 0 <= i < |pairs| && pairs[i].0 == k && Kept(pairs[i]) {
      if k in r && k != pairs[n].0 {
        assert k in m;
        var i :| 0 <= i < n && pairs[i].0 == k && Kept(pairs[i]);
      }
      if exists i :: 0 <= i < |pairs| && pairs[i].0 == k && Kept(pairs[i]) {
        var i :| 0 <= i < |pairs| && pairs[i].0 == k && Kept(pairs[i]);
        if i < n {
          assert k in m;
        }
      }
    }
  }

  /** The surviving section of a date is its last kept one. */
  lemma {:induction false} LatestSectionsLast(pairs: seq<(string, string)>, i: nat)
    requires i < |pairs| && Kept(pairs[i])
    requires forall j :: i < j < |pairs| ==> !(pairs[j].0 == pairs[i].0 && Kept(pairs[j]))
    ensures pairs[i].0 in LatestSections(pairs)
    ensures LatestSections(pairs)[pairs[i].0] == pairs[i].1
    decreases |pairs|
  {
    var n := |pairs| - 1;
    LatestUnfold(pairs);
    if i < n {
      assert pairs[..n][i] == pairs[i];
      forall j | i < j < n ensures !(pairs[..n][j].0 == pairs[..n][i].0 && Kept(pairs[..n][j])) {
        assert pairs[..n][j] == pairs[j];
      }
      LatestSectionsLast(pairs[..n], i);
      var init := LatestSections(pairs[..n]);
      assert !(pairs[n].0 == pairs[i].0 && Kept(pairs[n]));
      if Kept(pairs[n]) {
        assert LatestSections(pairs) == init[pairs[n].0 := pairs[n].1];
      } else {
        assert LatestSections(pairs) == init;
      }
    }
  }

  lemma LatestUnfold(pairs: seq<(string, string)>)
    requires |pairs| > 0
    ensures var n := |pairs| - 1;
            LatestSections(pairs) == if Kept(pairs[n]) then LatestSections(pairs[..n])[pairs[n].0 := pairs[n].1]
                                     else LatestSections(pairs[..n])
  {
  }

  /** The month map: each date's surviving section parsed under that date.
      Parsing is pure, so parsing only the survivor gives the map that parsing
      every kept pair in turn and overwriting would give. */
  function Aggregate(pairs: seq<(string, string)>): (r: map<string, DayData>)
    ensures forall k :: k in r <==> exists i :: 0 <= i < |pairs| && pairs[i].0 == k && Kept(pairs[i])
    ensures forall k :: k in r ==> r[k].date == k
  {
    var latest := LatestSections(pairs);
    LatestSectionsKeys(pairs);
    map k | k in latest :: ParseDay(latest[k], k)
  }

  /** The entry for a date is the parse of the last kept section under it;
      text before the first separator, blank sections and earlier sections
      under the same date leave no trace. */
  lemma AggregateLast(pairs: seq<(string, string)>, i: nat)
    requires i < |pairs| && Kept(pairs[i])
    requires forall j :: i < j < |pairs| ==> !(pairs[j].0 == pairs[i].0 && Kept(pairs[j]))
    ensures pairs[i].0 in Aggregate(pairs)
    ensures Aggregate(pairs)[pairs[i].0] == ParseDay(pairs[i].1, pairs[i].0)
  {
    LatestSectionsLast(pairs, i);
  }

  /** The month map of a fetched month: the split pairs, aggregated; the text
      before the first separator takes no part. */
  function MonthData(output: string): map<string, DayData> {
    Aggregate(SplitMonth(output).pairs)
  }

  /** Every date the split captures is a `YYYY-MM-DD` date. */
  lemma {:induction false} ScanDates(s: string, p: nat, q: nat)
    requires p <= q <= |s|
    ensures forall k :: 0 <= k < |Scan(s, p, q).pairs| ==> IsDate(Scan(s, p, q).pairs[k].0)
    decreases |s| - q, 1
  {
    if q < |s| {
      ScanStepDates(s, p, q, MatchSeparator(s[q..]));
    }
  }

  lemma {:induction false} ScanStepDates(s: string, p: nat, q: nat, m: Option<(string, nat)>)
    requires p <= q < |s| && (m.Some? ==> 0 < m.value.1 <= |s| - q && IsDate(m.value.0))
    ensures forall k :: 0 <= k < |ScanStep(s, p, q, m).pairs| ==> IsDate(ScanStep(s, p, q, m).pairs[k].0)
    decreases |s| - q, 0
  {
    match m
    case None => ScanDates(s, p, q + 1);
    case Some((date, len)) =>
      ScanDates(s, q + len, q + len);
      var rest := Scan(s, q + len, q + len);
      var pairs := [(date, rest.head)] + rest.pairs;
      assert forall k :: 0 < k < |pairs| ==> pairs[k] == rest.pairs[k - 1];
  }

  /** Every key of a month map is a date. */
  lemma MonthKeysAreDates(output: string)
    ensures forall k :: k in MonthData(output) ==> IsDate(k)
  {
    ScanDates(output, 0, 0);
  }

  /** A month written as a leading text and (date, report) pairs aggregates
      exactly the pairs, whatever the leading text. */
  lemma MonthOfRendered(head: string, pairs: seq<(string, string)>)
    requires PlainPiece(head) && PlainPairs(pairs)
    ensures MonthData(RenderMonth(head, pairs)) == Aggregate(pairs)
  {
    SplitMonthRoundTrip(head, pairs);
  }

  // ---------------------------------------------------------------------------
  // The cache key and the cache-or-fetch decision

  /** `${year}-${String(month).padStart(2, '0')}` for a month from 1 to 12. */
  function YearMonthKey(year: int, month: int): (r: string)
    requires 1 <= month <= 12
    ensures |r| >= 4 && r[|r| - 3] == '-'
    ensures AllDigits(r[|r| - 2..]) && DigitsValue(r[|r| - 2..]) == month
    ensures year >= 0 ==> AllDigits(r[..|r| - 3]) && DigitsValue(r[..|r| - 3]) == year
    ensures 1000 <= year <= 9999 ==> |r| == 7
  {
    var r := IntToString(year) + "-" + Pad2(month);
    assert r[|r| - 2..] == Pad2(month);
    KeyPrefix(IntToString(year), Pad2(month));
    assert 1000 <= year <= 9999 ==> |IntToString(year)| == 4 by {
      if 1000 <= year <= 9999 { FourDigits(year); }
    }
    r
  }

  /** `${n}` determines the integer. */
  lemma IntToStringInjective(a: int, b: int)
    requires IntToString(a) == IntToString(b)
    ensures a == b
  {
    if a < 0 {
      assert IntToString(a)[1..] == NatToString(-a);
      assert IntToString(b)[1..] == NatToString(-b);
    }
  }

  /** Different months have different keys. */
  lemma YearMonthKeyInjective(y1: int, m1: int, y2: int, m2: int)
    requires 1 <= m1 <= 12 && 1 <= m2 <= 12
    requires YearMonthKey(y1, m1) == YearMonthKey(y2, m2)
    ensures y1 == y2 && m1 == m2
  {
    var a1, a2 := IntToString(y1), IntToString(y2);
    KeyPrefix(a1, Pad2(m1));
    KeyPrefix(a2, Pad2(m2));
    assert a1 == a2;
    IntToStringInjective(y1, y2);
  }

  /** The year part of a key is everything before the last three characters. */
  lemma KeyPrefix(a: string, p: string)
    requires |p| == 2
    ensures |a + "-" + p| - 3 == |a| && (a + "-" + p)[..|a|] == a
  {
  }

  /** What reading the month cache gave: nothing stored (or the read failed),
      a stored value that does not parse, or the stored month. */
  datatype CacheRead = CacheMiss | CacheUnreadable | CacheHit(data: map<string, DayData>)

  /** The outcome of loading a month: the map shown, whether the month command
      ran, and what was written to the cache. */
  datatype MonthLoad = MonthLoad(data: map<string, DayData>, fetched: bool, cacheWrite: Option<map<string, DayData>>)

  /** `loadActivitiesForMonth(useCache)`: a readable cache entry is used when
      the cache is consulted; otherwise the month is fetched, and the cache is
      written only when the fetch succeeded with output that is not blank. */
  function LoadMonth(useCache: bool, cache: CacheRead, fetch: CommandResult): (r: MonthLoad)
    ensures !r.fetched <==> useCache && cache.CacheHit?
    ensures !r.fetched ==> r.data == cache.data && r.cacheWrite.None?
    ensures r.cacheWrite.Some? <==> r.fetched && fetch.success && !AllSpace(fetch.output)
    ensures r.cacheWrite.Some? ==> r.cacheWrite.value == r.data == MonthData(fetch.output)
    ensures r.fetched && r.cacheWrite.None? ==> r.data == map[]
  {
    if useCache && cache.CacheHit? then MonthLoad(cache.data, false, None)
    else if fetch.success && Trim(fetch.output) != [] then
      var d := MonthData(fetch.output);
      MonthLoad(d, true, Some(d))
    else MonthLoad(map[], true, None)
  }

  /** `handleRefresh`: a forced reload does not look at the cache. */
  lemma RefreshIgnoresCache(c1: CacheRead, c2: CacheRead, fetch: CommandResult)
    ensures LoadMonth(false, c1, fetch) == LoadMonth(false, c2, fetch)
    ensures LoadMonth(false, c1, fetch).fetched
  {
  }

  /** A month that was fetched and cached loads from the cache next time,
      unchanged and without a fetch. */
  lemma CachedMonthReloads(cache: CacheRead, fetch: CommandResult, later: CommandResult)
    requires LoadMonth(false, cache, fetch).cacheWrite.Some?
    ensures var first := LoadMonth(false, cache, fetch);
            var again := LoadMonth(true, CacheHit(first.cacheWrite.value), later);
            !again.fetched && again.data == first.data
  {
  }

  // ---------------------------------------------------------------------------
  // Favourites

  /** The key of a favourite in the tab's set: `${project}|${description}`. */
  function FavKey(project: string, description: string): string {
    project + "|" + description
  }

  /** The backend call a toggle makes. */
  datatype FavCall = AddFavorite(project: string, description: string)
                   | RemoveFavorite(project: string, description: string)

  /** `isFavorite`. */
  predicate IsFavorite(favs: set<string>, project: string, description: string) {
    FavKey(project, description) in favs
  }

  /** `toggleFavorite`: the key leaves the set when it is in it and joins it
      otherwise, whatever the backend answers; nothing else changes. */
  function Toggle(favs: set<string>, project: string, description: string): (r: (set<string>, FavCall))
    ensures IsFavorite(r.0, project, description) <==> !IsFavorite(favs, project, description)
    ensures forall k :: k != FavKey(project, description) ==> (k in r.0 <==> k in favs)
    ensures r.1.RemoveFavorite? <==> IsFavorite(favs, project, description)
    ensures r.1.project == project && r.1.description == description
  {
    var key := FavKey(project, description);
    if key in favs then (favs - {key}, RemoveFavorite(project, description))
    else (favs + {key}, AddFavorite(project, description))
  }

  /** Toggling twice restores the set. */
  lemma ToggleTwice(favs: set<string>, project: string, description: string)
    ensures Toggle(Toggle(favs, project, description).0, project, description).0 == favs
  {
    var once := Toggle(favs, project, description).0;
    var twice := Toggle(once, project, description).0;
    assert forall k :: k in twice <==> k in favs;
  }

  /** `loadFavorites`: the keys of the stored favourites. */
  function FavoriteKeys(favs: seq<(string, string)>): (r: set<string>)
    ensures forall p, d :: (p, d) in favs ==> IsFavorite(r, p, d)
    ensures forall k :: k in r ==> exists i :: 0 <= i < |favs| && k == FavKey(favs[i].0, favs[i].1)
  {
    set i | 0 <= i < |favs| :: FavKey(favs[i].0, favs[i].1)
  }

  /** The key is unambiguous when the project holds no `|`. */
  lemma FavKeyInjective(p1: string, d1: string, p2: string, d2: string)
    requires '|' !in p1 && '|' !in p2
    requires FavKey(p1, d1) == FavKey(p2, d2)
    ensures p1 == p2 && d1 == d2
  {
    var k := FavKey(p1, d1);
    assert k == p1 + ['|'] + d1 && k == p2 + ['|'] + d2;
    assert k[|p1|] == '|' && k[..|p1|] == p1;
    assert k[|p2|] == '|' && k[..|p2|] == p2;
    IndexOfFirst(k, '|', |p1|);
    IndexOfFirst(k, '|', |p2|);
    assert d1 == k[|p1| + 1..] && d2 == k[|p2| + 1..];
  }

  /** With a `|` in a project two different favourites share a key: marking
      project `a|b` with description `c` also marks project `a` with
      description `b|c`. */
  lemma FavKeyCollision()
    ensures FavKey("a|b", "c") == FavKey("a", "b|c")
    ensures var (favs, _) := Toggle({}, "a|b", "c"); IsFavorite(favs, "a", "b|c")
  {
  }
}

=== FILE: numerals.dfy ===
/** Decimal and hexadecimal numerals: rendering naturals as text (`String(n)`,
    Rust's `to_string`, `padStart(2, '0')`) and reading them back, including the
    prefix-reading `parseInt` of JavaScript. */
module Numerals {
  import opened Wrappers
  import opened Text

  predicate IsDigit(c: char) {
    '0' <= c <= '9'
  }

  predicate AllDigits(s: string) {
    forall i :: 0 <= i < |s| ==> IsDigit(s[i])
  }

  function DigitValue(c: char): nat
    requires IsDigit(c)
  {
    c as int - '0' as int
  }

  function DigitChar(d: nat): (c: char)
    requires d < 10
    ensures IsDigit(c) && DigitValue(c) == d
  {
    ('0' as int + d) as char
  }

  /** The value of a decimal digit string, most significant digit first. */
  function DigitsValue(s: string): nat
    requires AllDigits(s)
  {
    if |s| == 0 then 0 else DigitsValue(s[..|s| - 1]) * 10 + DigitValue(s[|s| - 1])
  }

  /** Decimal rendering without leading zeros; reading it back gives `n`. */
  function NatToString(n: nat): (r: string)
    ensures |r| > 0 && AllDigits(r)
    ensures DigitsValue(r) == n
    ensures r[0] == '0' ==> r == "0"
    ensures n < 10 ==> |r| == 1
    ensures 10 <= n < 100 ==> |r| == 2
  {
    if n < 10 then [DigitChar(n)]
    else
      var r := NatToString(n / 10) + [DigitChar(n % 10)];
      assert r[..|r| - 1] == NatToString(n / 10);
      r
  }

  /** A number from 1000 to 9999 takes four digits. */
  lemma FourDigits(n: nat)
    requires 1000 <= n <= 9999
    ensures |NatToString(n)| == 4
  {
    assert |NatToString(n / 10)| == 3 by {
      assert NatToString(n / 10) == NatToString(n / 100) + [DigitChar(n / 10 % 10)];
    }
  }

  /** `${i}` for an integer: a minus sign before the magnitude when negative. */
  function IntToString(i: int): (r: string)
    ensures |r| > 0
    ensures i >= 0 <==> r[0] != '-'
  {
    if i < 0 then "-" + NatToString(-i) else NatToString(i)
  }

  /** `String(n).padStart(2, '0')`. */
  function Pad2(n: nat): (r: string)
    ensures |r| >= 2 && AllDigits(r) && DigitsValue(r) == n
    ensures n < 100 ==> |r| == 2
  {
    var s := NatToString(n);
    if |s| < 2 then
      var r := "0" + s;
      assert r[..|r| - 1] == "0";
      r
    else s
  }

  /** Number of leading decimal digits of `s`. */
  function DigitRun(s: string): (k: nat)
    ensures k <= |s| && AllDigits(s[..k])
    ensures k < |s| ==> !IsDigit(s[k])
  {
    if |s| > 0 && IsDigit(s[0]) then
      var k := 1 + DigitRun(s[1..]);
      assert s[..k] == [s[0]] + s[1..][..k - 1];
      k
    else 0
  }

  /** A digit string followed by a non-digit (or nothing) is exactly the leading digit run. */
  lemma {:induction false} DigitRunOf(d: string, rest: string)
    requires AllDigits(d)
    requires |rest| > 0 ==> !IsDigit(rest[0])
    ensures DigitRun(d + rest) == |d|
    decreases |d|
  {
    if |d| > 0 {
      assert (d + rest)[1..] == d[1..] + rest;
      DigitRunOf(d[1..], rest);
    } else {
      assert d + rest == rest;
    }
  }

  predicate IsHexDigit(c: char) {
    IsDigit(c) || 'a' <= c <= 'f' || 'A' <= c <= 'F'
  }

  function HexValue(c: char): nat
    requires IsHexDigit(c)
  {
    if IsDigit(c) then DigitValue(c)
    else if 'a' <= c <= 'f' then c as int - 'a' as int + 10
    else c as int - 'A' as int + 10
  }

  predicate AllHexDigits(s: string) {
    forall i :: 0 <= i < |s| ==> IsHexDigit(s[i])
  }

  function HexDigitsValue(s: string): nat
    requires AllHexDigits(s)
  {
    if |s| == 0 then 0 else HexDigitsValue(s[..|s| - 1]) * 16 + HexValue(s[|s| - 1])
  }

  /** Number of leading hexadecimal digits of `s`. */
  function HexRun(s: string): (k: nat)
    ensures k <= |s| && AllHexDigits(s[..k])
    ensures k < |s| ==> !IsHexDigit(s[k])
  {
    if |s| > 0 && IsHexDigit(s[0]) then
      var k := 1 + HexRun(s[1..]);
      assert s[..k] == [s[0]] + s[1..][..k - 1];
      k
    else 0
  }

  /** The unsigned part of `parseInt`: hexadecimal after a `0x`/`0X` prefix,
      decimal otherwise, up to the first character that is not a digit of that
      radix; `None` when there is no digit at all. */
  function ReadMagnitude(u: string): Option<nat>
  {
    if StartsWith(u, "0x") || StartsWith(u, "0X") then
      var k := HexRun(u[2..]);
      if k == 0 then None else Some(HexDigitsValue(u[2..][..k]))
    else
      var k := DigitRun(u);
      if k == 0 then None else Some(DigitsValue(u[..k]))
  }

  /** JavaScript's one-argument `parseInt`: skip leading whitespace, take an
      optional sign, then read the magnitude; `None` stands for `NaN`. */
  function JsParseInt(s: string): (r: Option<int>)
    ensures r.Some? ==> (r.value < 0 ==> '-' in s)
  {
    var t := TrimStart(s);
    var negative := |t| > 0 && t[0] == '-';
    var u := if |t| > 0 && (t[0] == '-' || t[0] == '+') then t[1..] else t;
    match ReadMagnitude(u)
    case None => None
    case Some(m) =>
      assert negative ==> t[0] in s;
      var v: int := m;
      Some(if negative then -v else v)
  }

  /** A rendered natural followed by neither a digit nor an `x`/`X` reads back as itself. */
  lemma ReadMagnitudeOfNat(n: nat, rest: string)
    requires |rest| > 0 ==> !IsDigit(rest[0]) && rest[0] != 'x' && rest[0] != 'X'
    ensures ReadMagnitude(NatToString(n) + rest) == Some(n)
  {
    var d := NatToString(n);
    var s := d + rest;
    assert !(StartsWith(s, "0x") || StartsWith(s, "0X")) by {
      if |s| >= 2 && s[0] == '0' {
        assert d[0] == '0';
        assert s[1] == rest[0];
      }
    }
    DigitRunOf(d, rest);
    assert s[..|d|] == d;
  }

  /** `parseInt` reads a rendered natural back when what follows can neither
      extend the digits nor turn a leading `0` into a hexadecimal prefix. */
  lemma JsParseIntOfNat(n: nat, rest: string)
    requires |rest| > 0 ==> !IsDigit(rest[0]) && rest[0] != 'x' && rest[0] != 'X'
    ensures JsParseInt(NatToString(n) + rest) == Some(n)
  {
    var d := NatToString(n);
    var s := d + rest;
    assert IsDigit(d[0]);
    assert s[0] == d[0];
    ReadMagnitudeOfNat(n, rest);
    JsParseIntUnsigned(s, n);
  }

  /** Text starting with a digit is read as its magnitude, without sign or
      leading white space. */
  lemma JsParseIntUnsigned(s: string, m: nat)
    requires |s| > 0 && IsDigit(s[0]) && ReadMagnitude(s) == Some(m)
    ensures JsParseInt(s) == Some(m)
  {
    TrimStartKeeps(s);
    assert TrimStart(s) == s;
  }
}

=== FILE: ordering.dfy ===
/** A total order on strings and a stable sort by a string key. The order is
    code-point lexicographic order; it stands for SQLite's BINARY collation
    (`ORDER BY name`) and for `localeCompare`. */
module Ordering {

  /** Strict lexicographic order by character code. */
  predicate Less(a: string, b: string)
    decreases |a|
  {
    if |a| == 0 then |b| > 0
    else if |b| == 0 then false
    else a[0] < b[0] || (a[0] == b[0] && Less(a[1..], b[1..]))
  }

  predicate LessEq(a: string, b: string) {
    a == b || Less(a, b)
  }

  lemma {:induction false} LessIrreflexive(a: string)
    ensures !Less(a, a)
    decreases |a|
  {
    if |a| > 0 {
      LessIrreflexive(a[1..]);
    }
  }

  lemma {:induction false} LessAsymmetric(a: string, b: string)
    requires Less(a, b)
    ensures !Less(b, a)
    decreases |a|
  {
    if |a| > 0 && |b| > 0 && a[0] == b[0] {
      LessAsymmetric(a[1..], b[1..]);
    }
  }

  lemma {:induction false} LessTransitive(a: string, b: string, c: string)
    requires Less(a, b) && Less(b, c)
    ensures Less(a, c)
    decreases |a|
  {
    if |a| > 0 && a[0] == b[0] && b[0] == c[0] {
      LessTransitive(a[1..], b[1..], c[1..]);
    }
  }

  lemma {:induction false} LessTotal(a: string, b: string)
    ensures a == b || Less(a, b) || Less(b, a)
    decreases |a|
  {
    if |a| > 0 && |b| > 0 && a[0] == b[0] {
      LessTotal(a[1..], b[1..]);
      if a[1..] == b[1..] {
        assert a == [a[0]] + a[1..] && b == [b[0]] + b[1..];
      }
    }
  }

  lemma LessEqTransitive(a: string, b: string, c: string)
    requires LessEq(a, b) && LessEq(b, c)
    ensures LessEq(a, c)
  {
    if a != b && b != c {
      LessTransitive(a, b, c);
    }
  }

  lemma LessEqAntisymmetric(a: string, b: string)
    requires LessEq(a, b) && LessEq(b, a)
    ensures a == b
  {
    if a != b {
      LessAsymmetric(a, b);
    }
  }

  /** `s` is in non-decreasing order of `key`. */
  ghost predicate SortedBy<T>(s: seq<T>, key: T -> string) {
    forall i, j :: 0 <= i < j < |s| ==> LessEq(key(s[i]), key(s[j]))
  }

  /** No two elements of `s` share a key. */
  ghost predicate KeysDistinct<T>(s: seq<T>, key: T -> string) {
    forall i, j :: 0 <= i < |s| && 0 <= j < |s| && i != j ==> key(s[i]) != key(s[j])
  }

  /** No element of `s` has the key `k`. */
  ghost predicate KeyAbsent<T>(s: seq<T>, key: T -> string, k: string) {
    forall i :: 0 <= i < |s| ==> key(s[i]) != k
  }

  /** Insertion of `x` into a sorted sequence, after the elements whose key is smaller. */
  function Insert<T>(x: T, s: seq<T>, key: T -> string): (r: seq<T>)
    requires SortedBy(s, key)
    ensures SortedBy(r, key)
    ensures multiset(r) == multiset(s) + multiset{x}
    ensures KeysDistinct(s, key) && KeyAbsent(s, key, key(x)) ==> KeysDistinct(r, key)
    decreases |s|
  {
    if |s| == 0 then [x]
    else if LessEq(key(x), key(s[0])) then
      var r := [x] + s;
      assert SortedBy(r, key) by {
        forall i, j | 0 <= i < j < |r| ensures LessEq(key(r[i]), key(r[j])) {
          if i == 0 && j > 1 {
            LessEqTransitive(key(x), key(s[0]), key(s[j - 1]));
          }
        }
      }
      r
    else
      var t := Insert(x, s[1..], key);
      LessTotal(key(x), key(s[0]));
      assert s == [s[0]] + s[1..];
      InsertHeadBound(x, s, t, key);
      ConsSorted(s[0], t, key);
      InsertConsDistinct(x, s, t, key);
      [s[0]] + t
  }

  /** Distinct keys survive putting the head back before the tail's insertion. */
  lemma InsertConsDistinct<T>(x: T, s: seq<T>, t: seq<T>, key: T -> string)
    requires |s| > 0 && multiset(t) == multiset(s[1..]) + multiset{x}
    requires KeysDistinct(s[1..], key) && KeyAbsent(s[1..], key, key(x)) ==> KeysDistinct(t, key)
    ensures KeysDistinct(s, key) && KeyAbsent(s, key, key(x)) ==> KeysDistinct([s[0]] + t, key)
  {
    if KeysDistinct(s, key) && KeyAbsent(s, key, key(x)) {
      forall p | 0 <= p < |s[1..]| ensures s[1..][p] == s[p + 1] { }
      InsertHeadDistinct(x, s, t, key);
      ConsDistinct(s[0], t, key);
    }
  }

  /** Each element of `t` is `x` or one of `s`'s tail. */
  lemma FromTail<T>(x: T, s: seq<T>, t: seq<T>, y: T) returns (k: nat)
    requires |s| > 0 && multiset(t) == multiset(s[1..]) + multiset{x} && y in t && y != x
    ensures 1 <= k < |s| && s[k] == y
  {
    assert y in multiset(t);
    assert y in s[1..];
    var i :| 0 <= i < |s[1..]| && s[1..][i] == y;
    k := i + 1;
  }

  /** After inserting a later `x` into the tail of a sorted `s`, the head still
      comes first. */
  lemma InsertHeadBound<T>(x: T, s: seq<T>, t: seq<T>, key: T -> string)
    requires SortedBy(s, key) && |s| > 0 && Less(key(s[0]), key(x))
    requires multiset(t) == multiset(s[1..]) + multiset{x}
    ensures forall y | y in t :: LessEq(key(s[0]), key(y))
  {
    forall y | y in t ensures LessEq(key(s[0]), key(y)) {
      if y != x {
        var k := FromTail(x, s, t, y);
      }
    }
  }

  /** ... and keeps a key of its own. */
  lemma InsertHeadDistinct<T>(x: T, s: seq<T>, t: seq<T>, key: T -> string)
    requires KeysDistinct(s, key) && KeyAbsent(s, key, key(x)) && |s| > 0
    requires multiset(t) == multiset(s[1..]) + multiset{x}
    ensures forall y | y in t :: key(y) != key(s[0])
  {
    forall y | y in t ensures key(y) != key(s[0]) {
      if y != x {
        var k := FromTail(x, s, t, y);
      }
    }
  }

  lemma ConsSorted<T>(h: T, t: seq<T>, key: T -> string)
    requires SortedBy(t, key) && forall y | y in t :: LessEq(key(h), key(y))
    ensures SortedBy([h] + t, key)
  {
    var r := [h] + t;
    forall i, j | 0 <= i < j < |r| ensures LessEq(key(r[i]), key(r[j])) {
      assert r[j] == t[j - 1];
      if i > 0 {
        assert r[i] == t[i - 1];
      }
    }
  }

  lemma ConsDistinct<T>(h: T, t: seq<T>, key: T -> string)
    requires KeysDistinct(t, key) && forall y | y in t :: key(y) != key(h)
    ensures KeysDistinct([h] + t, key)
  {
    var r := [h] + t;
    forall i, j | 0 <= i < |r| && 0 <= j < |r| && i != j ensures key(r[i]) != key(r[j]) {
      if i > 0 { assert r[i] == t[i - 1]; }
      if j > 0 { assert r[j] == t[j - 1]; }
    }
  }

  /** Insertion sort by `key`: a permutation of `s` in non-decreasing key order
      that keeps equal-key elements in their original order. */
  function SortBy<T>(s: seq<T>, key: T -> string): (r: seq<T>)
    ensures SortedBy(r, key)
    ensures multiset(r) == multiset(s)
    ensures |r| == |s|
    ensures KeysDistinct(s, key) ==> KeysDistinct(r, key)
    decreases |s|
  {
    if |s| == 0 then []
    else
      var t := SortBy(s[1..], key);
      var r := Insert(s[0], t, key);
      assert multiset(s) == multiset(s[1..]) + multiset{s[0]} by {
        assert s == [s[0]] + s[1..];
      }
      assert |r| == |s| by {
        assert |r| == |multiset(r)| && |s| == |multiset(s)|;
      }
      assert KeysDistinct(s, key) ==> KeysDistinct(t, key) && KeyAbsent(t, key, key(s[0])) by {
        if KeysDistinct(s, key) {
          DistinctTail(s, t, key);
        }
      }
      r
  }

  /** With distinct keys, the tail keeps them distinct, and no rearrangement of
      the tail holds the head's key. */
  lemma DistinctTail<T>(s: seq<T>, t: seq<T>, key: T -> string)
    requires |s| > 0 && KeysDistinct(s, key) && multiset(t) == multiset(s[1..])
    ensures KeysDistinct(s[1..], key) && KeyAbsent(t, key, key(s[0]))
  {
    forall p | 0 <= p < |s[1..]| ensures s[1..][p] == s[p + 1] { }
    forall i | 0 <= i < |t| ensures key(t[i]) != key(s[0]) {
      assert t[i] in multiset(s[1..]);
      var k :| 0 <= k < |s[1..]| && s[1..][k] == t[i];
      assert s[k + 1] == t[i];
    }
  }

  lemma SortedHeadsEqual<T>(a: seq<T>, b: seq<T>, key: T -> string)
    requires |a| > 0 && |b| > 0
    requires SortedBy(a, key) && SortedBy(b, key)
    requires KeysDistinct(a, key)
    requires multiset(a) == multiset(b)
    ensures a[0] == b[0]
  {
    assert b[0] in multiset(a);
    assert a[0] in multiset(b);
    var i :| 0 <= i < |a| && a[i] == b[0];
    var j :| 0 <= j < |b| && b[j] == a[0];
    assert LessEq(key(a[0]), key(b[0]));
    assert LessEq(key(b[0]), key(a[0]));
    LessEqAntisymmetric(key(a[0]), key(b[0]));
    assert i == 0;
  }

  lemma SortedTail<T>(a: seq<T>, key: T -> string)
    requires |a| > 0 && SortedBy(a, key) && KeysDistinct(a, key)
    ensures SortedBy(a[1..], key) && KeysDistinct(a[1..], key)
  {
    forall p, q | 0 <= p < |a[1..]| && 0 <= q < |a[1..]| && p != q
      ensures key(a[1..][p]) != key(a[1..][q])
    {
      assert a[1..][p] == a[p + 1] && a[1..][q] == a[q + 1];
    }
  }

  /** An element of a rearrangement of `s` sits at some index of `s`. */
  lemma SameElementsIndex<T>(x: T, r: seq<T>, s: seq<T>)
    requires multiset(r) == multiset(s) && x in r
    ensures exists k :: 0 <= k < |s| && s[k] == x
  {
    assert x in multiset(r);
    assert x in s;
  }

  lemma MultisetTail<T>(a: seq<T>, b: seq<T>)
    requires |a| > 0 && |b| > 0 && a[0] == b[0]
    requires multiset(a) == multiset(b)
    ensures multiset(a[1..]) == multiset(b[1..])
  {
    assert a == [a[0]] + a[1..] && b == [b[0]] + b[1..];
    assert multiset(a[1..]) == multiset(a) - multiset{a[0]};
    assert multiset(b[1..]) == multiset(b) - multiset{a[0]};
  }

  /** Two sorted arrangements of the same elements with distinct keys are equal:
      with unique keys, `ORDER BY key` determines the result. */
  lemma {:induction false} SortedUnique<T>(a: seq<T>, b: seq<T>, key: T -> string)
    requires SortedBy(a, key) && SortedBy(b, key)
    requires KeysDistinct(a, key)
    requires multiset(a) == multiset(b)
    ensures a == b
    decreases |a|
  {
    assert |a| == |multiset(a)| == |multiset(b)| == |b|;
    if |a| > 0 {
      SortedHeadsEqual(a, b, key);
      MultisetTail(a, b);
      SortedTail(a, key);
      assert SortedBy(b[1..], key);
      SortedUnique(a[1..], b[1..], key);
      assert a == [a[0]] + a[1..] && b == [b[0]] + b[1..];
    }
  }
  /** The rows of `s` that satisfy `keep`, in their original order: a `WHERE` clause. */
  function Where<T>(s: seq<T>, keep: T -> bool): (r: seq<T>)
    ensures |r| <= |s|
    ensures forall i :: 0 <= i < |r| ==> r[i] in s && keep(r[i])
    ensures forall i :: 0 <= i < |s| && keep(s[i]) ==> s[i] in r
    decreases |s|
  {
    if |s| == 0 then []
    else if keep(s[0]) then [s[0]] + Where(s[1..], keep)
    else Where(s[1..], keep)
  }

  /** Membership in the filtered sequence, element-wise. */
  lemma WhereIn<T>(s: seq<T>, keep: T -> bool)
    ensures forall x :: x in Where(s, keep) <==> x in s && keep(x)
  {
    var r := Where(s, keep);
    forall x | x in s && keep(x) ensures x in r {
      var i :| 0 <= i < |s| && s[i] == x;
    }
  }

  /** `rel` holds between every element and every later one. */
  ghost predicate Pairwise<T>(s: seq<T>, rel: (T, T) -> bool) {
    forall i, j :: 0 <= i < j < |s| ==> rel(s[i], s[j])
  }

  /** Dropping elements keeps every pairwise relation between the survivors. */
  lemma {:induction false} WherePairwise<T>(s: seq<T>, keep: T -> bool, rel: (T, T) -> bool)
    requires Pairwise(s, rel)
    ensures Pairwise(Where(s, keep), rel)
    decreases |s|
  {
    if |s| > 0 {
      var t := s[1..];
      assert Pairwise(t, rel) by {
        forall i, j | 0 <= i < j < |t| ensures rel(t[i], t[j]) {
          assert t[i] == s[i + 1] && t[j] == s[j + 1];
        }
      }
      WherePairwise(t, keep, rel);
      var w := Where(t, keep);
      if keep(s[0]) {
        forall j | 0 <= j < |w| ensures rel(s[0], w[j]) {
          assert w[j] in t;
          var k :| 0 <= k < |t| && t[k] == w[j];
          assert s[k + 1] == w[j];
        }
        assert Where(s, keep) == [s[0]] + w;
      }
    }
  }

  lemma SortedByTail<T>(s: seq<T>, key: T -> string)
    requires |s| > 0 && SortedBy(s, key)
    ensures SortedBy(s[1..], key)
  {
    forall i, j | 0 <= i < j < |s[1..]| ensures LessEq(key(s[1..][i]), key(s[1..][j])) {
      assert s[1..][i] == s[i + 1] && s[1..][j] == s[j + 1];
    }
  }

  /** Filtering commutes with inserting into a sorted sequence. */
  lemma {:induction false} WhereInsert<T>(x: T, s: seq<T>, key: T -> string, keep: T -> bool)
    requires SortedBy(s, key)
    ensures SortedBy(Where(s, keep), key)
    ensures Where(Insert(x, s, key), keep) == if keep(x) then Insert(x, Where(s, keep), key) else Where(s, keep)
    decreases |s|
  {
    WhereSorted(s, key, keep);
    if |s| > 0 {
      SortedByTail(s, key);
      WhereInsert(x, s[1..], key, keep);
      if LessEq(key(x), key(s[0])) {
        WhereInsertFront(x, s, key, keep);
      } else {
        WhereInsertLater(x, s, key, keep);
      }
    }
  }

  lemma WhereSorted<T>(s: seq<T>, key: T -> string, keep: T -> bool)
    requires SortedBy(s, key)
    ensures SortedBy(Where(s, keep), key)
  {
    var rel := (a: T, b: T) => LessEq(key(a), key(b));
    assert Pairwise(s, rel);
    WherePairwise(s, keep, rel);
  }

  /** `x` goes in front of `s`, and so in front of what the filter keeps. */
  lemma WhereInsertFront<T>(x: T, s: seq<T>, key: T -> string, keep: T -> bool)
    requires SortedBy(s, key) && |s| > 0 && LessEq(key(x), key(s[0]))
    ensures SortedBy(Where(s, keep), key)
    ensures Where(Insert(x, s, key), keep) == if keep(x) then Insert(x, Where(s, keep), key) else Where(s, keep)
  {
    WhereSorted(s, key, keep);
    var w := Where(s, keep);
    assert Insert(x, s, key) == [x] + s;
    assert ([x] + s)[0] == x && ([x] + s)[1..] == s;
    if keep(x) && |w| > 0 {
      assert w[0] in s;
      var k :| 0 <= k < |s| && s[k] == w[0];
      if k > 0 {
        LessEqTransitive(key(x), key(s[0]), key(w[0]));
      }
    }
  }

  /** `x` goes after the head of `s`: the filter treats the head alone. */
  lemma WhereInsertLater<T>(x: T, s: seq<T>, key: T -> string, keep: T -> bool)
    requires SortedBy(s, key) && |s| > 0 && !LessEq(key(x), key(s[0]))
    requires SortedBy(s[1..], key) && SortedBy(Where(s[1..], keep), key)
    requires Where(Insert(x, s[1..], key), keep)
             == if keep(x) then Insert(x, Where(s[1..], keep), key) else Where(s[1..], keep)
    ensures SortedBy(Where(s, keep), key)
    ensures Where(Insert(x, s, key), keep) == if keep(x) then Insert(x, Where(s, keep), key) else Where(s, keep)
  {
    var t := s[1..];
    HeadTail(s);
    WhereCons(s[0], t, keep);
    WhereSorted(s, key, keep);
    InsertAfterHead(x, s, key);
    WhereCons(s[0], Insert(x, t, key), keep);
    if keep(s[0]) && keep(x) {
      var w := Where(s, keep);
      assert w == [s[0]] + Where(t, keep);
      assert w[0] == s[0] && w[1..] == Where(t, keep);
      InsertAfterHead(x, w, key);
    }
  }

  lemma HeadTail<T>(s: seq<T>)
    requires |s| > 0
    ensures s == [s[0]] + s[1..]
  {
  }

  /** A sequence made of `s`'s head and then its tail is `s`. */
  lemma Reassemble<T>(x: seq<T>, a: seq<T>, b: seq<T>, s: seq<T>)
    requires |s| > 0 && a == [s[0]] && b == s[1..] && x == a + b
    ensures x == s
  {
    HeadTail(s);
  }

  lemma WhereCons<T>(h: T, t: seq<T>, keep: T -> bool)
    ensures Where([h] + t, keep) == if keep(h) then [h] + Where(t, keep) else Where(t, keep)
  {
    assert ([h] + t)[0] == h && ([h] + t)[1..] == t;
  }

  /** An element whose key is above the head's goes into the tail. */
  lemma InsertAfterHead<T>(x: T, s: seq<T>, key: T -> string)
    requires SortedBy(s, key) && |s| > 0 && !LessEq(key(x), key(s[0]))
    ensures SortedBy(s[1..], key)
    ensures Insert(x, s, key) == [s[0]] + Insert(x, s[1..], key)
  {
    SortedByTail(s, key);
  }

  /** Filtering a stably sorted sequence gives the same rows, in the same order,
      as sorting the filtered sequence: `WHERE` before or after `ORDER BY`. */
  lemma {:induction false} WhereSortBy<T>(s: seq<T>, key: T -> string, keep: T -> bool)
    ensures Where(SortBy(s, key), keep) == SortBy(Where(s, keep), key)
    decreases |s|
  {
    if |s| > 0 {
      var t := s[1..];
      WhereSortBy(t, key, keep);
      WhereInsert(s[0], SortBy(t, key), key, keep);
      if keep(s[0]) {
        var w := Where(s, keep);
        assert w == [s[0]] + Where(t, keep);
        assert w[0] == s[0] && w[1..] == Where(t, keep);
      }
    }
  }

  /** `s` back to front. */
  function Reverse<T>(s: seq<T>): (r: seq<T>)
    ensures |r| == |s|
    ensures forall i :: 0 <= i < |s| ==> r[i] == s[|s| - 1 - i]
    ensures multiset(r) == multiset(s)
    decreases |s|
  {
    if |s| == 0 then []
    else
      assert s == s[..|s| - 1] + [s[|s| - 1]];
      [s[|s| - 1]] + Reverse(s[..|s| - 1])
  }

  /** Reversing a sorted sequence puts it in non-increasing key order. */
  lemma ReverseSorted<T>(s: seq<T>, key: T -> string)
    requires SortedBy(s, key)
    ensures forall i, j :: 0 <= i < j < |s| ==> LessEq(key(Reverse(s)[j]), key(Reverse(s)[i]))
  {
    var r := Reverse(s);
    forall i, j | 0 <= i < j < |s| ensures LessEq(key(r[j]), key(r[i])) {
      assert r[j] == s[|s| - 1 - j] && r[i] == s[|s| - 1 - i];
    }
  }
}

=== FILE: picker.dfy ===
/** The project picker (`ProjectSelectionModal.tsx`): which list it shows,
    the case-insensitive search over it, the per-route cache of projects
    fetched from an API, and what selecting a project does. */
module ProjectPicker {
  import opened Wrappers
  import opened Text

  /** A project as the interface lists it; `source` is "recent", "favorite"
      or the name of the API route it came from. */
  datatype Project = Project(name: string, description: string, lastUsed: Option<string>,
                             source: Option<string>, isFavorite: Option<bool>)

  /** The key projects are listed by. */
  function NameOf(p: Project): string {
    p.name
  }

  /** The picker's tabs: every recent project, the favourites, or one API route. */
  datatype FilterKind = AllProjects | FavoritesOnly | ApiRoute(routeId: int)

  /** The list the picker searches: the route's loaded list, or nothing while
      that route has not been loaded. */
  function SourceProjects(filter: FilterKind, projects: seq<Project>, favorites: seq<Project>,
                          apiProjects: map<int, seq<Project>>): seq<Project>
  {
    match filter
    case AllProjects => projects
    case FavoritesOnly => favorites
    case ApiRoute(id) => if id in apiProjects then apiProjects[id] else []
  }

  /** The search test: the query occurs in the name or in the description,
      both compared in lower case. */
  predicate Matches(p: Project, query: string) {
    Contains(Lower(p.name), Lower(query)) || Contains(Lower(p.description), Lower(query))
  }

  /** `r` is `s` with some elements left out and the others in their order:
      each element of `r` is matched, greedily, with a later one of `s`. */
  predicate Subsequence<T(==)>(r: seq<T>, s: seq<T>)
    decreases |s|
  {
    if |r| == 0 then true
    else if |s| == 0 then false
    else if r[0] == s[0] then Subsequence(r[1..], s[1..])
    else Subsequence(r, s[1..])
  }

  /** `sourceProjects.filter(...)`: the matching projects, every one of them,
      in the order of the list, and nothing else. */
  function FilterProjects(source: seq<Project>, query: string): (r: seq<Project>)
    ensures |r| <= |source|
    ensures forall k :: 0 <= k < |r| ==> Matches(r[k], query)
    ensures forall p :: multiset(r)[p] == if Matches(p, query) then multiset(source)[p] else 0
    ensures Subsequence(r, source)
    decreases |source|
  {
    if |source| == 0 then []
    else
      var rest := FilterProjects(source[1..], query);
      FilterStepCounts(source, query, rest);
      FilterStepOrder(source, query, rest);
      if Matches(source[0], query) then [source[0]] + rest else rest
  }

  /** One step of the filter keeps the counts: the head is counted exactly
      when it matches. */
  lemma FilterStepCounts(source: seq<Project>, query: string, rest: seq<Project>)
    requires |source| > 0
    requires forall p :: multiset(rest)[p] == if Matches(p, query) then multiset(source[1..])[p] else 0
    ensures var r := if Matches(source[0], query) then [source[0]] + rest else rest;
            forall p :: multiset(r)[p] == if Matches(p, query) then multiset(source)[p] else 0
  {
    assert source == [source[0]] + source[1..];
  }

  /** One step of the filter keeps the order: a kept head leads, and a
      dropped head is skipped by every matching element. */
  lemma FilterStepOrder(source: seq<Project>, query: string, rest: seq<Project>)
    requires |source| > 0
    requires forall k :: 0 <= k < |rest| ==> Matches(rest[k], query)
    requires Subsequence(rest, source[1..])
    ensures Subsequence(if Matches(source[0], query) then [source[0]] + rest else rest, source)
  {
    if Matches(source[0], query) {
      assert ([source[0]] + rest)[1..] == rest;
    } else if |rest| > 0 {
      assert rest[0] != source[0] by { assert Matches(rest[0], query); }
    }
  }

  /** `updateFilteredProjects`: the search applied to the list of the chosen tab. */
  function FilteredProjects(filter: FilterKind, query: string, projects: seq<Project>,
                            favorites: seq<Project>, apiProjects: map<int, seq<Project>>): (r: seq<Project>)
    ensures filter.ApiRoute? && filter.routeId !in apiProjects ==> r == []
    ensures forall k :: 0 <= k < |r| ==> Matches(r[k], query)
  {
    FilterProjects(SourceProjects(filter, projects, favorites, apiProjects), query)
  }

  /** Filtering keeps the order of the list: it distributes over concatenation. */
  lemma {:induction false} FilterAppend(a: seq<Project>, b: seq<Project>, query: string)
    ensures FilterProjects(a + b, query) == FilterProjects(a, query) + FilterProjects(b, query)
    decreases |a|
  {
    if |a| == 0 {
      assert a + b == b;
    } else {
      assert (a + b)[0] == a[0];
      assert (a + b)[1..] == a[1..] + b;
      FilterAppend(a[1..], b, query);
    }
  }

  /** Every string contains the empty string. */
  lemma ContainsEmpty(s: string)
    ensures Contains(s, "")
  {
  }

  /** An empty search shows the whole list. */
  lemma {:induction false} FilterEmptyQuery(source: seq<Project>)
    ensures FilterProjects(source, "") == source
    decreases |source|
  {
    if |source| > 0 {
      ContainsEmpty(Lower(source[0].name));
      assert Lower("") == "";
      FilterEmptyQuery(source[1..]);
      assert source == [source[0]] + source[1..];
    }
  }

  /** Searching again with the same query changes nothing. */
  lemma {:induction false} FilterIdempotent(source: seq<Project>, query: string)
    ensures FilterProjects(FilterProjects(source, query), query) == FilterProjects(source, query)
    decreases |source|
  {
    if |source| > 0 {
      FilterIdempotent(source[1..], query);
    }
  }

  /** The picker's own state. */
  datatype PickerState = PickerState(filter: FilterKind, query: string,
                                     apiProjects: map<int, seq<Project>>)

  /** A route's projects are fetched only for a route tab not loaded yet. */
  predicate NeedsFetch(st: PickerState, filter: FilterKind) {
    filter.ApiRoute? && filter.routeId !in st.apiProjects
  }

  /** `handleFilterChange`: switch tab, and when the route has not been loaded,
      store what the fetch resolved to (`None`: the fetch was rejected and
      nothing is stored). `answer` is consulted only when a fetch happens; the
      fetch is taken to resolve before the next change. */
  function ChangeFilter(st: PickerState, filter: FilterKind, answer: Option<seq<Project>>): (r: PickerState)
    ensures r.filter == filter && r.query == st.query
    ensures !NeedsFetch(st, filter) || answer.None? ==> r.apiProjects == st.apiProjects
    ensures NeedsFetch(st, filter) && answer.Some? ==>
              r.apiProjects == st.apiProjects[filter.routeId := answer.value]
    ensures forall id :: id in st.apiProjects ==> id in r.apiProjects && r.apiProjects[id] == st.apiProjects[id]
    ensures forall id :: id in r.apiProjects && id !in st.apiProjects ==> filter == ApiRoute(id)
  {
    if NeedsFetch(st, filter) && answer.Some? then
      PickerState(filter, st.query, st.apiProjects[filter.routeId := answer.value])
    else PickerState(filter, st.query, st.apiProjects)
  }

  /** A run of tab changes, each with the answer its fetch would get; returns
      the final state and the routes fetched, in order. */
  function Session(st: PickerState, filters: seq<FilterKind>, answers: seq<Option<seq<Project>>>)
    : (r: (PickerState, seq<int>))
    requires |answers| == |filters|
    ensures st.apiProjects.Keys <= r.0.apiProjects.Keys
    decreases |filters|
  {
    if |filters| == 0 then (st, [])
    else
      var fetched := if NeedsFetch(st, filters[0]) then [filters[0].routeId] else [];
      var next := ChangeFilter(st, filters[0], answers[0]);
      var rest := Session(next, filters[1..], answers[1..]);
      (rest.0, fetched + rest.1)
  }

  /** No id repeats, and none is among `loaded`. */
  predicate FreshAndDistinct(ids: seq<int>, loaded: set<int>) {
    (forall i :: 0 <= i < |ids| ==> ids[i] !in loaded)
    && (forall i, j :: 0 <= i < j < |ids| ==> ids[i] != ids[j])
  }

  /** When every fetch resolves before the next tab change (the caller turns
      every failure into an empty list), each route is fetched at most once,
      and never one already loaded. Overlapping changes are outside the model:
      a second click on a route whose fetch is still pending fetches again. */
  lemma {:induction false} FetchAtMostOnce(st: PickerState, filters: seq<FilterKind>,
                                           answers: seq<Option<seq<Project>>>)
    requires |answers| == |filters|
    requires forall i :: 0 <= i < |answers| ==> answers[i].Some?
    ensures FreshAndDistinct(Session(st, filters, answers).1, st.apiProjects.Keys)
    decreases |filters|
  {
    if |filters| > 0 {
      var next := ChangeFilter(st, filters[0], answers[0]);
      FetchAtMostOnce(next, filters[1..], answers[1..]);
      var rest := Session(next, filters[1..], answers[1..]).1;
      var fetched := if NeedsFetch(st, filters[0]) then [filters[0].routeId] else [];
      assert Session(st, filters, answers).1 == fetched + rest;
      assert FreshAndDistinct(rest, next.apiProjects.Keys);
      assert FreshAndDistinct(rest, st.apiProjects.Keys);
      if NeedsFetch(st, filters[0]) {
        assert filters[0].routeId in next.apiProjects;
        assert filters[0].routeId !in rest;
      }
    }
  }

  /** `handleSelect`: the project is handed to the caller and the search is cleared. */
  function Select(st: PickerState, p: Project): (r: (PickerState, Project))
    ensures r.0.query == [] && r.1 == p
    ensures r.0.filter == st.filter && r.0.apiProjects == st.apiProjects
  {
    (st.(query := []), p)
  }

  /** After a selection the picker shows the whole list of the current tab. */
  lemma SelectShowsAll(st: PickerState, p: Project, projects: seq<Project>, favorites: seq<Project>)
    ensures var s := Select(st, p).0;
            FilteredProjects(s.filter, s.query, projects, favorites, s.apiProjects)
            == SourceProjects(st.filter, projects, favorites, st.apiProjects)
  {
    FilterEmptyQuery(SourceProjects(st.filter, projects, favorites, st.apiProjects));
  }
}

=== FILE: store.dfy ===
/** The backend's SQLite database of favourites, API routes, report settings and
    caches, as an immutable value. Every statement of `Database` becomes a
    function from the database before to the database after (and its answer);
    the clock is the parameter `now`, and SQLite failures other than constraint
    violations are not modelled. */
module Store {
  import opened Wrappers
  import opened Ordering
  import Commands
  import HistoryTab

  datatype Favorite = Favorite(id: int, name: string, description: string, createdAt: string)

  /** A row of `api_routes` or of `report_api_routes`. */
  datatype Route = Route(id: int, name: string, url: string, enabled: bool, createdAt: string)

  datatype Settings = Settings(id: int, autoSend: bool, routeId: Option<int>,
                               lastSent: Option<string>, updatedAt: string)

  datatype CachedProject = CachedProject(id: int, name: string, description: string,
                                         routeId: int, lastSynced: string)

  datatype CalendarEntry = CalendarEntry(id: int, yearMonth: string, data: string, cachedAt: string)

  datatype Preference = Preference(id: int, value: string, updatedAt: string)

  /** The seven tables. A table keeps its rows in rowid order together with the
      largest id its AUTOINCREMENT counter has handed out (`last…`); a new row
      gets the next id. `calendar_cache` and `user_preferences` are read only
      through their UNIQUE column, so they are maps from it. */
  datatype Db = Db(
    favorites: seq<Favorite>, lastFavorite: int,
    apiRoutes: seq<Route>, lastApiRoute: int,
    reportRoutes: seq<Route>, lastReportRoute: int,
    settings: seq<Settings>, lastSettings: int,
    projects: seq<CachedProject>, lastProject: int,
    calendar: map<string, CalendarEntry>, lastCalendar: int,
    preferences: map<string, Preference>, lastPreference: int)

  /** A new database file after `init_tables`. */
  const EMPTY: Db := Db([], 0, [], 0, [], 0, [], 0, [], 0, map[], 0, map[], 0)

  // ---------------------------------------------------------------- favourites

  predicate SameFavorite(f: Favorite, name: string, description: string) {
    f.name == name && f.description == description
  }

  /** UNIQUE(name, description), as a relation between two rows. */
  predicate DistinctFavorites(a: Favorite, b: Favorite) {
    !SameFavorite(b, a.name, a.description)
  }

  /** `is_favorite`: the number of rows holding the pair is positive. */
  predicate IsFavorite(db: Db, name: string, description: string) {
    exists i :: 0 <= i < |db.favorites| && SameFavorite(db.favorites[i], name, description)
  }

  /** `add_favorite`: INSERT OR IGNORE. A pair that is already stored keeps its
      row, its id and its `created_at`; a new pair gets a row stamped `now`.
      Either way the `AUTOINCREMENT` counter moves on: SQLite draws the new
      rowid before the UNIQUE check ignores the row, and records it all the
      same. */
  function AddFavorite(db: Db, name: string, description: string, now: string): (r: Db)
    ensures forall n, d :: IsFavorite(r, n, d) <==> IsFavorite(db, n, d) || (n == name && d == description)
    ensures IsFavorite(db, name, description) ==> r.favorites == db.favorites
    ensures !IsFavorite(db, name, description) ==>
              r.favorites == db.favorites + [Favorite(db.lastFavorite + 1, name, description, now)]
    ensures r.lastFavorite == db.lastFavorite + 1
    ensures r.(favorites := db.favorites, lastFavorite := db.lastFavorite) == db
  {
    if IsFavorite(db, name, description) then db.(lastFavorite := db.lastFavorite + 1)
    else
      var f := Favorite(db.lastFavorite + 1, name, description, now);
      var r := db.(favorites := db.favorites + [f], lastFavorite := db.lastFavorite + 1);
      assert r.favorites[|db.favorites|] == f;
      assert forall n, d :: IsFavorite(r, n, d) <==> IsFavorite(db, n, d) || (n == name && d == description) by {
        forall n, d
          ensures IsFavorite(r, n, d) <==> IsFavorite(db, n, d) || (n == name && d == description)
        {
          if IsFavorite(db, n, d) {
            var i :| 0 <= i < |db.favorites| && SameFavorite(db.favorites[i], n, d);
            assert r.favorites[i] == db.favorites[i];
          }
          if IsFavorite(r, n, d) {
            var i :| 0 <= i < |r.favorites| && SameFavorite(r.favorites[i], n, d);
            if i < |db.favorites| {
              assert r.favorites[i] == db.favorites[i];
            }
          }
        }
      }
      r
  }

  /** A repeated add leaves a gap in the ids: after adding a pair twice, the
      next new pair gets the id three past the old counter. */
  lemma RepeatedAddSkipsId(db: Db, a: string, b: string, c: string, d: string, now: string)
    requires !IsFavorite(db, a, b) && !IsFavorite(db, c, d) && (a, b) != (c, d)
    ensures var r := AddFavorite(AddFavorite(AddFavorite(db, a, b, now), a, b, now), c, d, now);
            Favorite(db.lastFavorite + 3, c, d, now) in r.favorites && r.lastFavorite == db.lastFavorite + 3
  {
    var r1 := AddFavorite(db, a, b, now);
    var r2 := AddFavorite(r1, a, b, now);
    assert IsFavorite(r1, a, b);
    assert !IsFavorite(r2, c, d);
    var r3 := AddFavorite(r2, c, d, now);
    assert r3.favorites[|r2.favorites|] == Favorite(db.lastFavorite + 3, c, d, now);
  }

  /** `remove_favorite`: DELETE of the rows holding the pair. */
  function RemoveFavorite(db: Db, name: string, description: string): (r: Db)
    ensures forall f :: f in r.favorites <==> f in db.favorites && !SameFavorite(f, name, description)
    ensures forall n, d :: IsFavorite(r, n, d) <==> IsFavorite(db, n, d) && !(n == name && d == description)
    ensures Pairwise(db.favorites, DistinctFavorites) ==> Pairwise(r.favorites, DistinctFavorites)
    ensures r.(favorites := db.favorites) == db
  {
    var keep := (f: Favorite) => !SameFavorite(f, name, description);
    var r := db.(favorites := Where(db.favorites, keep));
    WhereIn(db.favorites, keep);
    assert Pairwise(db.favorites, DistinctFavorites) ==> Pairwise(r.favorites, DistinctFavorites) by {
      if Pairwise(db.favorites, DistinctFavorites) {
        WherePairwise(db.favorites, keep, DistinctFavorites);
      }
    }
    assert forall n, d :: IsFavorite(r, n, d) <==> IsFavorite(db, n, d) && !(n == name && d == description) by {
      forall n, d
        ensures IsFavorite(r, n, d) <==> IsFavorite(db, n, d) && !(n == name && d == description)
      {
        if IsFavorite(r, n, d) {
          var i :| 0 <= i < |r.favorites| && SameFavorite(r.favorites[i], n, d);
          assert r.favorites[i] in db.favorites;
        }
        if IsFavorite(db, n, d) && !(n == name && d == description) {
          var i :| 0 <= i < |db.favorites| && SameFavorite(db.favorites[i], n, d);
          assert db.favorites[i] in r.favorites;
        }
      }
    }
    r
  }

  function CreatedAt(f: Favorite): string {
    f.createdAt
  }

  /** `get_all_favorites`: every row, latest `created_at` first. Rows with equal
      timestamps come out in one fixed order; SQL leaves that order open. */
  function AllFavorites(db: Db): (r: seq<Favorite>)
    ensures multiset(r) == multiset(db.favorites)
    ensures forall i, j :: 0 <= i < j < |r| ==> LessEq(r[j].createdAt, r[i].createdAt)
  {
    var up := SortBy(db.favorites, CreatedAt);
    ReverseSorted(up, CreatedAt);
    Reverse(up)
  }

  /** The (project, description) pairs the history view reads from the
      favourites list. */
  function FavoritePairs(favs: seq<Favorite>): (r: seq<(string, string)>)
    ensures |r| == |favs|
    ensures forall i :: 0 <= i < |favs| ==> r[i] == (favs[i].name, favs[i].description)
  {
    seq(|favs|, i requires 0 <= i < |favs| => (favs[i].name, favs[i].description))
  }

  /** The key set the history view builds from `get_all_favorites` marks every
      stored pair as a favourite; and, while no stored or asked-for project
      name holds '|', it marks nothing else. */
  lemma LoadedFavorites(db: Db, name: string, description: string)
    ensures var keys := HistoryTab.FavoriteKeys(FavoritePairs(AllFavorites(db)));
            IsFavorite(db, name, description) ==> HistoryTab.IsFavorite(keys, name, description)
    ensures var keys := HistoryTab.FavoriteKeys(FavoritePairs(AllFavorites(db)));
            ((forall i :: 0 <= i < |db.favorites| ==> '|' !in db.favorites[i].name) && '|' !in name &&
             HistoryTab.IsFavorite(keys, name, description)) ==> IsFavorite(db, name, description)
  {
    var all := AllFavorites(db);
    var keys := HistoryTab.FavoriteKeys(FavoritePairs(all));
    if IsFavorite(db, name, description) {
      StoredIsListed(db.favorites, all, name, description);
    }
    if (forall i :: 0 <= i < |db.favorites| ==> '|' !in db.favorites[i].name) && '|' !in name
       && HistoryTab.IsFavorite(keys, name, description)
    {
      ListedIsStored(db.favorites, all, name, description);
    }
  }

  /** A stored pair is among the pairs of any listing of the favourites. */
  lemma StoredIsListed(favs: seq<Favorite>, all: seq<Favorite>, name: string, description: string)
    requires multiset(all) == multiset(favs)
    requires exists i :: 0 <= i < |favs| && SameFavorite(favs[i], name, description)
    ensures (name, description) in FavoritePairs(all)
  {
    var i :| 0 <= i < |favs| && SameFavorite(favs[i], name, description);
    SameElementsIndex(favs[i], favs, all);
    var j :| 0 <= j < |all| && all[j] == favs[i];
    assert FavoritePairs(all)[j] == (name, description);
  }

  /** Without `|` in project names, a key of the listing names a stored pair. */
  lemma ListedIsStored(favs: seq<Favorite>, all: seq<Favorite>, name: string, description: string)
    requires multiset(all) == multiset(favs)
    requires forall i :: 0 <= i < |favs| ==> '|' !in favs[i].name
    requires '|' !in name
    requires HistoryTab.IsFavorite(HistoryTab.FavoriteKeys(FavoritePairs(all)), name, description)
    ensures exists i :: 0 <= i < |favs| && SameFavorite(favs[i], name, description)
  {
    var pairs := FavoritePairs(all);
    var k := HistoryTab.FavKey(name, description);
    var j :| 0 <= j < |pairs| && k == HistoryTab.FavKey(pairs[j].0, pairs[j].1);
    SameElementsIndex(all[j], all, favs);
    var i :| 0 <= i < |favs| && favs[i] == all[j];
    HistoryTab.FavKeyInjective(name, description, pairs[j].0, pairs[j].1);
    assert SameFavorite(favs[i], name, description);
  }

  /** The `is_favorite` command answers "true" exactly for a stored pair. */
  function IsFavoriteCommand(db: Db, name: string, description: string): (r: Commands.CommandResult)
    ensures r.success
    ensures r.output == "true" <==> IsFavorite(db, name, description)
    ensures r.output == "false" <==> !IsFavorite(db, name, description)
  {
    Commands.IsFavoriteResult(Ok(IsFavorite(db, name, description)))
  }

  // ---------------------------------------------------------------- API routes

  function RouteName(x: Route): string {
    x.name
  }

  predicate RouteEnabled(x: Route) {
    x.enabled
  }

  predicate IdBefore(a: Route, b: Route) {
    a.id < b.id
  }

  /** UNIQUE(name) of `api_routes`, as a relation between two rows. */
  predicate DistinctNames(a: Route, b: Route) {
    a.name != b.name
  }

  /** Ids strictly increase in rowid order and never exceed the counter. */
  ghost predicate RouteIds(rows: seq<Route>, last: int) {
    Pairwise(rows, IdBefore) && forall i :: 0 <= i < |rows| ==> rows[i].id <= last
  }

  predicate HasRouteNamed(rows: seq<Route>, name: string) {
    exists i :: 0 <= i < |rows| && rows[i].name == name
  }

  predicate HasRouteId(rows: seq<Route>, id: int) {
    exists i :: 0 <= i < |rows| && rows[i].id == id
  }

  /** Renaming row `id` to `name` would clash with another row. */
  predicate NameTaken(rows: seq<Route>, id: int, name: string) {
    HasRouteId(rows, id) && exists i :: 0 <= i < |rows| && rows[i].id != id && rows[i].name == name
  }

  /** The row an INSERT adds: enabled, with the next id, stamped `now`. */
  function NewRoute(last: int, name: string, url: string, now: string): Route {
    Route(last + 1, name, url, true, now)
  }

  /** `UPDATE … SET name, url, enabled WHERE id`: the row with that id takes
      the new values and keeps its id and `created_at`; every other row is
      untouched. */
  function UpdateRows(rows: seq<Route>, id: int, name: string, url: string, enabled: bool): (r: seq<Route>)
    ensures |r| == |rows|
    ensures forall i :: 0 <= i < |rows| ==> r[i].id == rows[i].id && r[i].createdAt == rows[i].createdAt
    ensures forall i :: 0 <= i < |rows| && rows[i].id != id ==> r[i] == rows[i]
    ensures forall i :: 0 <= i < |rows| && rows[i].id == id ==>
              r[i].name == name && r[i].url == url && r[i].enabled == enabled
  {
    seq(|rows|, i requires 0 <= i < |rows| =>
      if rows[i].id == id then rows[i].(name := name, url := url, enabled := enabled) else rows[i])
  }

  /** An update naming an id no row has changes nothing. */
  lemma UpdateAbsentRow(rows: seq<Route>, id: int, name: string, url: string, enabled: bool)
    requires !HasRouteId(rows, id)
    ensures UpdateRows(rows, id, name, url, enabled) == rows
  {
    var r := UpdateRows(rows, id, name, url, enabled);
    forall i | 0 <= i < |rows| ensures r[i] == rows[i] {
      assert rows[i].id != id;
    }
  }

  /** `DELETE … WHERE id`. */
  function DeleteRows(rows: seq<Route>, id: int): (r: seq<Route>)
    ensures forall x :: x in r <==> x in rows && x.id != id
    ensures !HasRouteId(r, id)
    ensures Pairwise(rows, IdBefore) ==> Pairwise(r, IdBefore)
    ensures Pairwise(rows, DistinctNames) ==> Pairwise(r, DistinctNames)
  {
    var keep := (x: Route) => x.id != id;
    WhereIn(rows, keep);
    assert Pairwise(rows, IdBefore) ==> Pairwise(Where(rows, keep), IdBefore) by {
      if Pairwise(rows, IdBefore) {
        WherePairwise(rows, keep, IdBefore);
      }
    }
    assert Pairwise(rows, DistinctNames) ==> Pairwise(Where(rows, keep), DistinctNames) by {
      if Pairwise(rows, DistinctNames) {
        WherePairwise(rows, keep, DistinctNames);
      }
    }
    Where(rows, keep)
  }

  /** `… ORDER BY name`: the rows, sorted by name. */
  function ByName(rows: seq<Route>): (r: seq<Route>)
    ensures SortedBy(r, RouteName)
    ensures multiset(r) == multiset(rows)
  {
    SortBy(rows, RouteName)
  }

  /** `… WHERE enabled = 1 ORDER BY name`. */
  function EnabledByName(rows: seq<Route>): (r: seq<Route>)
    ensures SortedBy(r, RouteName)
    ensures forall x :: x in r <==> x in rows && x.enabled
  {
    var w := Where(rows, RouteEnabled);
    var r := SortBy(w, RouteName);
    WhereIn(rows, RouteEnabled);
    assert forall x :: x in r <==> x in w by {
      forall x ensures x in r <==> x in w {
        assert x in r <==> x in multiset(r);
        assert x in w <==> x in multiset(w);
      }
    }
    r
  }

  /** The enabled list is exactly the full list with the disabled rows taken
      out, in the same order. */
  lemma EnabledIsFilteredAll(rows: seq<Route>)
    ensures EnabledByName(rows) == Where(ByName(rows), RouteEnabled)
  {
    WhereSortBy(rows, RouteName, RouteEnabled);
  }

  const UNIQUE_ROUTE_NAME: string := "UNIQUE constraint failed: api_routes.name"

  /** `add_api_route`: a plain INSERT, refused when the name is taken; a new
      route starts enabled. The answer is the new row's id. */
  function AddApiRoute(db: Db, name: string, url: string, now: string): (r: Result<(Db, int)>)
    ensures r.Err? <==> HasRouteNamed(db.apiRoutes, name)
    ensures r.Err? ==> r.error == UNIQUE_ROUTE_NAME
    ensures r.Ok? ==> Route(r.value.1, name, url, true, now) in r.value.0.apiRoutes
    ensures r.Ok? ==> forall x :: x in r.value.0.apiRoutes <==>
                        x in db.apiRoutes || x == Route(r.value.1, name, url, true, now)
    ensures r.Ok? ==> r.value.0.(apiRoutes := db.apiRoutes, lastApiRoute := db.lastApiRoute) == db
    ensures r.Ok? ==> r.value.1 == db.lastApiRoute + 1 && r.value.0.lastApiRoute == r.value.1
    ensures r.Ok? && RouteIds(db.apiRoutes, db.lastApiRoute) ==> !HasRouteId(db.apiRoutes, r.value.1)
  {
    if HasRouteNamed(db.apiRoutes, name) then Err(UNIQUE_ROUTE_NAME)
    else
      var x := NewRoute(db.lastApiRoute, name, url, now);
      Ok((db.(apiRoutes := db.apiRoutes + [x], lastApiRoute := x.id), x.id))
  }

  /** `update_api_route`: refused when another row already has the new name;
      an id no row has changes nothing. */
  function UpdateApiRoute(db: Db, id: int, name: string, url: string, enabled: bool): (r: Result<Db>)
    ensures r.Err? <==> NameTaken(db.apiRoutes, id, name)
    ensures r.Err? ==> r.error == UNIQUE_ROUTE_NAME
    ensures r.Ok? ==> r.value == db.(apiRoutes := UpdateRows(db.apiRoutes, id, name, url, enabled))
    ensures !HasRouteId(db.apiRoutes, id) ==> r == Ok(db)
  {
    if NameTaken(db.apiRoutes, id, name) then Err(UNIQUE_ROUTE_NAME)
    else
      assert !HasRouteId(db.apiRoutes, id) ==> UpdateRows(db.apiRoutes, id, name, url, enabled) == db.apiRoutes by {
        if !HasRouteId(db.apiRoutes, id) {
          UpdateAbsentRow(db.apiRoutes, id, name, url, enabled);
        }
      }
      Ok(db.(apiRoutes := UpdateRows(db.apiRoutes, id, name, url, enabled)))
  }

  /** `delete_api_route`, taken with foreign keys not enforced: the cached
      projects of the route stay. */
  function DeleteApiRoute(db: Db, id: int): (r: Db)
    ensures forall x :: x in r.apiRoutes <==> x in db.apiRoutes && x.id != id
    ensures r.(apiRoutes := db.apiRoutes) == db
  {
    db.(apiRoutes := DeleteRows(db.apiRoutes, id))
  }

  function AllApiRoutes(db: Db): seq<Route> {
    ByName(db.apiRoutes)
  }

  function EnabledApiRoutes(db: Db): seq<Route> {
    EnabledByName(db.apiRoutes)
  }

  /** The `add_api_route` command: the database after it and the result the
      settings screen receives. */
  function AddApiRouteCommand(db: Db, name: string, url: string, now: string): (r: (Db, Commands.CommandResult))
    ensures r.1.success <==> !HasRouteNamed(db.apiRoutes, name)
    ensures r.1.success ==> r.1.output == "API route added" && HasRouteNamed(r.0.apiRoutes, name)
    ensures !r.1.success ==> r.0 == db && r.1.error == Some("Failed to add API route: " + UNIQUE_ROUTE_NAME)
  {
    var res := AddApiRoute(db, name, url, now);
    var c := Commands.FromDb(res, "API route added", "Failed to add API route: ");
    if res.Ok? then
      var x := Route(res.value.1, name, url, true, now);
      var i :| 0 <= i < |res.value.0.apiRoutes| && res.value.0.apiRoutes[i] == x;
      (res.value.0, c)
    else (db, c)
  }

  // --------------------------------------------------------- report API routes

  /** `add_report_api_route`: like `add_api_route`, but the table has no
      UNIQUE name, so the insert always happens. */
  function AddReportRoute(db: Db, name: string, url: string, now: string): (r: (Db, int))
    ensures Route(r.1, name, url, true, now) in r.0.reportRoutes
    ensures forall x :: x in r.0.reportRoutes <==> x in db.reportRoutes || x == Route(r.1, name, url, true, now)
    ensures r.0.(reportRoutes := db.reportRoutes, lastReportRoute := db.lastReportRoute) == db
    ensures r.1 == db.lastReportRoute + 1 && r.0.lastReportRoute == r.1
    ensures RouteIds(db.reportRoutes, db.lastReportRoute) ==> !HasRouteId(db.reportRoutes, r.1)
  {
    var x := NewRoute(db.lastReportRoute, name, url, now);
    (db.(reportRoutes := db.reportRoutes + [x], lastReportRoute := x.id), x.id)
  }

  function UpdateReportRoute(db: Db, id: int, name: string, url: string, enabled: bool): Db {
    db.(reportRoutes := UpdateRows(db.reportRoutes, id, name, url, enabled))
  }

  function DeleteReportRoute(db: Db, id: int): Db {
    db.(reportRoutes := DeleteRows(db.reportRoutes, id))
  }

  function AllReportRoutes(db: Db): seq<Route> {
    ByName(db.reportRoutes)
  }

  function EnabledReportRoutes(db: Db): seq<Route> {
    EnabledByName(db.reportRoutes)
  }

  /** Two report routes may share a name, where the second API route with
      that name is refused. */
  lemma SameNameTwice(db: Db, name: string, url1: string, url2: string, t1: string, t2: string)
    ensures var (d1, id1) := AddReportRoute(db, name, url1, t1);
            var (d2, id2) := AddReportRoute(d1, name, url2, t2);
            id1 != id2 && Route(id1, name, url1, true, t1) in d2.reportRoutes &&
            Route(id2, name, url2, true, t2) in d2.reportRoutes
    ensures match AddApiRoute(db, name, url1, t1)
            case Ok((d1, _)) => AddApiRoute(d1, name, url2, t2).Err?
            case Err(_) => true
  {
    match AddApiRoute(db, name, url1, t1)
    case Ok((d1, id)) =>
      var i :| 0 <= i < |d1.apiRoutes| && d1.apiRoutes[i] == Route(id, name, url1, true, t1);
    case Err(_) =>
  }

  // ----------------------------------------------------------- report settings

  /** `get_report_settings`: the first row; on an empty table, a default row
      (no automatic sending, no route, never sent) is inserted and returned. */
  function GetReportSettings(db: Db, now: string): (r: (Db, Settings))
    ensures r.1 in r.0.settings
    ensures |db.settings| > 0 ==> r.0 == db && r.1 == db.settings[0]
    ensures |db.settings| == 0 ==> r.0.settings == [r.1] && r.1.id == db.lastSettings + 1
    ensures |db.settings| == 0 ==> !r.1.autoSend && r.1.routeId.None? && r.1.lastSent.None? && r.1.updatedAt == now
    ensures r.0.(settings := db.settings, lastSettings := db.lastSettings) == db
  {
    if |db.settings| > 0 then (db, db.settings[0])
    else
      var row := Settings(db.lastSettings + 1, false, None, None, now);
      (db.(settings := [row], lastSettings := row.id), row)
  }

  /** `update_report_settings`: on an empty table a row with the given values
      (never sent) is inserted; otherwise EVERY row takes the given values and
      keeps its id and `last_sent_at`. */
  function UpdateReportSettings(db: Db, autoSend: bool, routeId: Option<int>, now: string): (r: Db)
    ensures |r.settings| == if |db.settings| == 0 then 1 else |db.settings|
    ensures forall i :: 0 <= i < |r.settings| ==>
              r.settings[i].autoSend == autoSend && r.settings[i].routeId == routeId &&
              r.settings[i].updatedAt == now
    ensures forall i :: 0 <= i < |db.settings| ==>
              r.settings[i].id == db.settings[i].id && r.settings[i].lastSent == db.settings[i].lastSent
    ensures |db.settings| == 0 ==> r.settings[0].lastSent.None?
    ensures r.(settings := db.settings, lastSettings := db.lastSettings) == db
  {
    if |db.settings| == 0 then
      var row := Settings(db.lastSettings + 1, autoSend, routeId, None, now);
      db.(settings := [row], lastSettings := row.id)
    else
      db.(settings := seq(|db.settings|, i requires 0 <= i < |db.settings| =>
        db.settings[i].(autoSend := autoSend, routeId := routeId, updatedAt := now)))
  }

  /** `update_last_sent_at`: every row records the time; an empty table stays
      empty. */
  function UpdateLastSentAt(db: Db, lastSent: string, now: string): (r: Db)
    ensures |db.settings| == 0 ==> r == db
    ensures |r.settings| == |db.settings|
    ensures forall i :: 0 <= i < |db.settings| ==>
              r.settings[i] == db.settings[i].(lastSent := Some(lastSent), updatedAt := now)
    ensures r.(settings := db.settings) == db
  {
    db.(settings := seq(|db.settings|, i requires 0 <= i < |db.settings| =>
      db.settings[i].(lastSent := Some(lastSent), updatedAt := now)))
  }

  /** What is saved is what is read next, whether or not a row existed. */
  lemma SettingsRoundTrip(db: Db, autoSend: bool, routeId: Option<int>, t1: string, t2: string)
    ensures var s := GetReportSettings(UpdateReportSettings(db, autoSend, routeId, t1), t2).1;
            s.autoSend == autoSend && s.routeId == routeId
  {
  }

  /** Once the settings row exists, a recorded sending time is read back. */
  lemma LastSentRoundTrip(db: Db, lastSent: string, t1: string, t2: string)
    requires |db.settings| > 0
    ensures GetReportSettings(UpdateLastSentAt(db, lastSent, t1), t2).1.lastSent == Some(lastSent)
  {
  }

  /** Reading the settings a second time changes nothing and gives the same row. */
  lemma GetSettingsTwice(db: Db, t1: string, t2: string)
    ensures var (d1, s1) := GetReportSettings(db, t1);
            GetReportSettings(d1, t2) == (d1, s1)
  {
  }

  // ------------------------------------------------------------ calendar cache

  /** `get_calendar_cache`. */
  function GetCalendarCache(db: Db, yearMonth: string): Option<CalendarEntry> {
    if yearMonth in db.calendar then Some(db.calendar[yearMonth]) else None
  }

  /** `save_calendar_cache`: INSERT OR REPLACE under UNIQUE(year_month). A
      later read of the month sees this data; other months are untouched. */
  function SaveCalendarCache(db: Db, yearMonth: string, data: string, now: string): (r: Db)
    ensures GetCalendarCache(r, yearMonth).Some?
    ensures GetCalendarCache(r, yearMonth).value.data == data
    ensures GetCalendarCache(r, yearMonth).value.yearMonth == yearMonth
    ensures GetCalendarCache(r, yearMonth).value.cachedAt == now
    ensures forall m :: m != yearMonth ==> GetCalendarCache(r, m) == GetCalendarCache(db, m)
    ensures r.(calendar := db.calendar, lastCalendar := db.lastCalendar) == db
  {
    var entry := CalendarEntry(db.lastCalendar + 1, yearMonth, data, now);
    db.(calendar := db.calendar[yearMonth := entry], lastCalendar := entry.id)
  }

  /** `clear_calendar_cache`: the month reads as absent; others are untouched. */
  function ClearCalendarCache(db: Db, yearMonth: string): (r: Db)
    ensures GetCalendarCache(r, yearMonth).None?
    ensures forall m :: m != yearMonth ==> GetCalendarCache(r, m) == GetCalendarCache(db, m)
    ensures r.(calendar := db.calendar) == db
  {
    db.(calendar := db.calendar - {yearMonth})
  }

  /** Saving a month twice keeps only the second data. */
  lemma CalendarLastSaveWins(db: Db, yearMonth: string, d1: string, d2: string, t1: string, t2: string)
    ensures GetCalendarCache(SaveCalendarCache(SaveCalendarCache(db, yearMonth, d1, t1), yearMonth, d2, t2), yearMonth).value.data == d2
  {
  }

  // ----------------------------------------------------------- cached projects

  predicate SameProject(p: CachedProject, name: string, description: string, routeId: int) {
    p.name == name && p.description == description && p.routeId == routeId
  }

  /** UNIQUE(name, description, source_api_route_id), as a relation between two rows. */
  predicate DistinctProjects(a: CachedProject, b: CachedProject) {
    !SameProject(b, a.name, a.description, a.routeId)
  }

  function ProjectKey(p: CachedProject): (string, string, int) {
    (p.name, p.description, p.routeId)
  }

  function ProjectName(p: CachedProject): string {
    p.name
  }

  /** One INSERT OR REPLACE: the row holding the same triple, if any, is
      deleted, and a new row with the next id is appended. */
  function SaveProject(db: Db, name: string, description: string, routeId: int, now: string): (r: Db)
    ensures CachedProject(db.lastProject + 1, name, description, routeId, now) in r.projects
    ensures forall p :: p in r.projects <==>
              (p in db.projects && !SameProject(p, name, description, routeId)) ||
              p == CachedProject(db.lastProject + 1, name, description, routeId, now)
    ensures Pairwise(db.projects, DistinctProjects) ==> Pairwise(r.projects, DistinctProjects)
    ensures r.lastProject > db.lastProject
    ensures r.(projects := db.projects, lastProject := db.lastProject) == db
  {
    var keep := (p: CachedProject) => !SameProject(p, name, description, routeId);
    var w := Where(db.projects, keep);
    var x := CachedProject(db.lastProject + 1, name, description, routeId, now);
    var rows := w + [x];
    WhereIn(db.projects, keep);
    assert Pairwise(db.projects, DistinctProjects) ==> Pairwise(rows, DistinctProjects) by {
      if Pairwise(db.projects, DistinctProjects) {
        WherePairwise(db.projects, keep, DistinctProjects);
        forall i, j | 0 <= i < j < |rows| ensures DistinctProjects(rows[i], rows[j]) {
          if j == |w| {
            assert rows[i] == w[i] && rows[j] == x;
          } else {
            assert rows[i] == w[i] && rows[j] == w[j];
          }
        }
      }
    }
    db.(projects := rows, lastProject := x.id)
  }

  /** `save_cached_projects`: one INSERT OR REPLACE per triple, in order, all
      stamped `now`. Afterwards every saved triple has a row, every old row
      whose triple was not saved is still there, and no triple has two rows. */
  function SaveCachedProjects(db: Db, items: seq<(string, string, int)>, now: string): (r: Db)
    ensures forall k :: k in items ==> exists p :: p in r.projects && ProjectKey(p) == k
    ensures forall p :: p in db.projects && ProjectKey(p) !in items ==> p in r.projects
    ensures forall p :: p in r.projects ==> p in db.projects || ProjectKey(p) in items
    ensures forall p :: p in r.projects && ProjectKey(p) in items ==> p.lastSynced == now && p.id > db.lastProject
    ensures Pairwise(db.projects, DistinctProjects) ==> Pairwise(r.projects, DistinctProjects)
    ensures r.lastProject >= db.lastProject
    ensures r.(projects := db.projects, lastProject := db.lastProject) == db
    decreases |items|
  {
    if |items| == 0 then db
    else
      var (name, description, routeId) := items[0];
      var mid := SaveProject(db, name, description, routeId, now);
      var r := SaveCachedProjects(mid, items[1..], now);
      SaveStep(db, items, now, mid, r);
      r
  }

  /** One step of `SaveCachedProjects`: saving the first triple into `db`
      gives `mid`, and saving the rest into `mid` gives `r`. */
  lemma SaveStep(db: Db, items: seq<(string, string, int)>, now: string, mid: Db, r: Db)
    requires |items| > 0
    requires mid == SaveProject(db, items[0].0, items[0].1, items[0].2, now)
    requires forall k :: k in items[1..] ==> exists p :: p in r.projects && ProjectKey(p) == k
    requires forall p :: p in mid.projects && ProjectKey(p) !in items[1..] ==> p in r.projects
    requires forall p :: p in r.projects ==> p in mid.projects || ProjectKey(p) in items[1..]
    requires forall p :: p in r.projects && ProjectKey(p) in items[1..] ==> p.lastSynced == now && p.id > mid.lastProject
    ensures forall k :: k in items ==> exists p :: p in r.projects && ProjectKey(p) == k
    ensures forall p :: p in db.projects && ProjectKey(p) !in items ==> p in r.projects
    ensures forall p :: p in r.projects ==> p in db.projects || ProjectKey(p) in items
    ensures forall p :: p in r.projects && ProjectKey(p) in items ==> p.lastSynced == now && p.id > db.lastProject
  {
    var (name, description, routeId) := items[0];
    var x := CachedProject(db.lastProject + 1, name, description, routeId, now);
    forall k | k in items ensures exists p :: p in r.projects && ProjectKey(p) == k {
      if k !in items[1..] {
        assert k == items[0] && ProjectKey(x) == k;
        assert x in r.projects;
      }
    }
    forall p | p in db.projects && ProjectKey(p) !in items ensures p in r.projects {
      assert ProjectKey(p) != items[0];
      assert p in mid.projects;
    }
    forall p | p in r.projects ensures p in db.projects || ProjectKey(p) in items {
      if p !in db.projects && ProjectKey(p) !in items[1..] {
        assert p in mid.projects;
      }
    }
    forall p | p in r.projects && ProjectKey(p) in items ensures p.lastSynced == now && p.id > db.lastProject {
      if ProjectKey(p) !in items[1..] {
        assert ProjectKey(p) == items[0];
        assert p in mid.projects;
      }
    }
  }

  /** `delete_cached_projects_by_api`: exactly the rows of that route go. */
  function DeleteCachedProjects(db: Db, routeId: int): (r: Db)
    ensures forall p :: p in r.projects <==> p in db.projects && p.routeId != routeId
    ensures Pairwise(db.projects, DistinctProjects) ==> Pairwise(r.projects, DistinctProjects)
    ensures r.(projects := db.projects) == db
  {
    var keep := (p: CachedProject) => p.routeId != routeId;
    WhereIn(db.projects, keep);
    assert Pairwise(db.projects, DistinctProjects) ==> Pairwise(Where(db.projects, keep), DistinctProjects) by {
      if Pairwise(db.projects, DistinctProjects) {
        WherePairwise(db.projects, keep, DistinctProjects);
      }
    }
    db.(projects := Where(db.projects, keep))
  }

  /** `get_cached_projects`: the rows of one route, or all rows, by name. */
  function GetCachedProjects(db: Db, routeId: Option<int>): (r: seq<CachedProject>)
    ensures SortedBy(r, ProjectName)
    ensures forall p :: p in r <==> p in db.projects && (routeId.None? || p.routeId == routeId.value)
  {
    var rows := match routeId
      case None => db.projects
      case Some(id) => Where(db.projects, (p: CachedProject) => p.routeId == id);
    var r := SortBy(rows, ProjectName);
    assert forall p :: p in r <==> p in rows by {
      if routeId.Some? {
        WhereIn(db.projects, (p: CachedProject) => p.routeId == routeId.value);
      }
      forall p ensures p in r <==> p in rows {
        assert p in r <==> p in multiset(r);
        assert p in rows <==> p in multiset(rows);
      }
    }
    r
  }

  /** After deleting a route's projects, none are listed for it. */
  lemma DeletedRouteListsNothing(db: Db, routeId: int)
    ensures GetCachedProjects(DeleteCachedProjects(db, routeId), Some(routeId)) == []
  {
  }

  // --------------------------------------------------------------- preferences

  /** `get_preference`. */
  function GetPreference(db: Db, key: string): Option<string> {
    if key in db.preferences then Some(db.preferences[key].value) else None
  }

  /** `set_preference`: INSERT OR REPLACE under UNIQUE(key). */
  function SetPreference(db: Db, key: string, value: string, now: string): (r: Db)
    ensures GetPreference(r, key) == Some(value)
    ensures forall k :: k != key ==> GetPreference(r, k) == GetPreference(db, k)
    ensures r.(preferences := db.preferences, lastPreference := db.lastPreference) == db
  {
    var row := Preference(db.lastPreference + 1, value, now);
    db.(preferences := db.preferences[key := row], lastPreference := row.id)
  }

  // ------------------------------------------------------------- constraints

  /** The constraints of the schema that the statements above can reach:
      UNIQUE(name, description) on favourites, UNIQUE(name) on API routes,
      UNIQUE(name, description, source_api_route_id) on cached projects,
      increasing AUTOINCREMENT ids on both route tables, and at most one
      settings row (the code only ever inserts into an empty table). */
  ghost predicate Valid(db: Db) {
    Pairwise(db.favorites, DistinctFavorites) &&
    RouteIds(db.apiRoutes, db.lastApiRoute) && Pairwise(db.apiRoutes, DistinctNames) &&
    RouteIds(db.reportRoutes, db.lastReportRoute) &&
    |db.settings| <= 1 &&
    Pairwise(db.projects, DistinctProjects)
  }

  lemma EmptyValid()
    ensures Valid(EMPTY)
  {
  }

  lemma {:induction false} AddFavoriteValid(db: Db, name: string, description: string, now: string)
    requires Pairwise(db.favorites, DistinctFavorites)
    ensures Pairwise(AddFavorite(db, name, description, now).favorites, DistinctFavorites)
  {
    if !IsFavorite(db, name, description) {
      var rows := AddFavorite(db, name, description, now).favorites;
      var f := Favorite(db.lastFavorite + 1, name, description, now);
      assert rows == db.favorites + [f];
      forall i, j | 0 <= i < j < |rows| ensures DistinctFavorites(rows[i], rows[j]) {
        assert rows[i] == db.favorites[i];
        if j == |db.favorites| {
          assert !SameFavorite(db.favorites[i], name, description);
        } else {
          assert rows[j] == db.favorites[j];
        }
      }
    }
  }

  lemma {:induction false} InsertRouteValid(rows: seq<Route>, last: int, name: string, url: string, now: string)
    requires RouteIds(rows, last)
    ensures RouteIds(rows + [NewRoute(last, name, url, now)], last + 1)
    ensures Pairwise(rows, DistinctNames) && !HasRouteNamed(rows, name) ==>
              Pairwise(rows + [NewRoute(last, name, url, now)], DistinctNames)
  {
    var r := rows + [NewRoute(last, name, url, now)];
    forall i, j | 0 <= i < j < |r| ensures IdBefore(r[i], r[j]) {
      assert r[i] == rows[i];
      if j < |rows| {
        assert r[j] == rows[j];
      }
    }
    if Pairwise(rows, DistinctNames) && !HasRouteNamed(rows, name) {
      forall i, j | 0 <= i < j < |r| ensures DistinctNames(r[i], r[j]) {
        assert r[i] == rows[i];
        if j < |rows| {
          assert r[j] == rows[j];
        }
      }
    }
  }

  lemma UpdateRowsValid(rows: seq<Route>, last: int, id: int, name: string, url: string, enabled: bool)
    requires RouteIds(rows, last)
    ensures RouteIds(UpdateRows(rows, id, name, url, enabled), last)
    ensures Pairwise(rows, DistinctNames) && !NameTaken(rows, id, name) ==>
              Pairwise(UpdateRows(rows, id, name, url, enabled), DistinctNames)
  {
    var r := UpdateRows(rows, id, name, url, enabled);
    assert Pairwise(r, IdBefore) by {
      forall i, j | 0 <= i < j < |r| ensures IdBefore(r[i], r[j]) {
        assert IdBefore(rows[i], rows[j]);
      }
    }
    if Pairwise(rows, DistinctNames) && !NameTaken(rows, id, name) {
      forall i, j | 0 <= i < j < |r| ensures DistinctNames(r[i], r[j]) {
        assert IdBefore(rows[i], rows[j]);
        if rows[i].id == id {
          assert HasRouteId(rows, id);
          assert rows[j].name != name;
        } else if rows[j].id == id {
          assert HasRouteId(rows, id);
          assert rows[i].name != name;
        } else {
          assert DistinctNames(rows[i], rows[j]);
        }
      }
    }
  }

  lemma DeleteRowsValid(rows: seq<Route>, last: int, id: int)
    requires RouteIds(rows, last)
    ensures RouteIds(DeleteRows(rows, id), last)
  {
    var r := DeleteRows(rows, id);
    forall i | 0 <= i < |r| ensures r[i].id <= last {
      assert r[i] in rows;
    }
  }

  /** One write the backend can perform, with its arguments. */
  datatype Write =
    | FavoriteAdd(name: string, description: string)
    | FavoriteRemove(name: string, description: string)
    | ApiRouteAdd(name: string, url: string)
    | ApiRouteUpdate(id: int, name: string, url: string, enabled: bool)
    | ApiRouteDelete(id: int)
    | ReportRouteAdd(name: string, url: string)
    | ReportRouteUpdate(id: int, name: string, url: string, enabled: bool)
    | ReportRouteDelete(id: int)
    | SettingsRead
    | SettingsUpdate(autoSend: bool, selectedRoute: Option<int>)
    | LastSentUpdate(lastSent: string)
    | CalendarSave(yearMonth: string, data: string)
    | CalendarClear(yearMonth: string)
    | ProjectsSave(items: seq<(string, string, int)>)
    | ProjectsDelete(routeId: int)
    | PreferenceSet(key: string, value: string)

  /** The database after one write at time `now`; a refused statement leaves
      it as it was. */
  function Apply(db: Db, w: Write, now: string): Db {
    match w
    case FavoriteAdd(n, d) => AddFavorite(db, n, d, now)
    case FavoriteRemove(n, d) => RemoveFavorite(db, n, d)
    case ApiRouteAdd(n, u) => (match AddApiRoute(db, n, u, now) case Ok(v) => v.0 case Err(_) => db)
    case ApiRouteUpdate(id, n, u, e) => (match UpdateApiRoute(db, id, n, u, e) case Ok(v) => v case Err(_) => db)
    case ApiRouteDelete(id) => DeleteApiRoute(db, id)
    case ReportRouteAdd(n, u) => AddReportRoute(db, n, u, now).0
    case ReportRouteUpdate(id, n, u, e) => UpdateReportRoute(db, id, n, u, e)
    case ReportRouteDelete(id) => DeleteReportRoute(db, id)
    case SettingsRead => GetReportSettings(db, now).0
    case SettingsUpdate(a, r) => UpdateReportSettings(db, a, r, now)
    case LastSentUpdate(t) => UpdateLastSentAt(db, t, now)
    case CalendarSave(m, data) => SaveCalendarCache(db, m, data, now)
    case CalendarClear(m) => ClearCalendarCache(db, m)
    case ProjectsSave(items) => SaveCachedProjects(db, items, now)
    case ProjectsDelete(id) => DeleteCachedProjects(db, id)
    case PreferenceSet(k, v) => SetPreference(db, k, v, now)
  }

  /** Every write keeps the schema's constraints. */
  lemma ApplyValid(db: Db, w: Write, now: string)
    requires Valid(db)
    ensures Valid(Apply(db, w, now))
  {
    if w.FavoriteAdd? || w.FavoriteRemove? {
      ApplyFavoriteValid(db, w, now);
    } else if w.ApiRouteAdd? || w.ApiRouteUpdate? || w.ApiRouteDelete? {
      ApplyApiRouteValid(db, w, now);
    } else if w.ReportRouteAdd? || w.ReportRouteUpdate? || w.ReportRouteDelete? {
      ApplyReportRouteValid(db, w, now);
    } else {
      ApplyOtherValid(db, w, now);
    }
  }

  lemma ApplyFavoriteValid(db: Db, w: Write, now: string)
    requires Valid(db) && (w.FavoriteAdd? || w.FavoriteRemove?)
    ensures Valid(Apply(db, w, now))
  {
    if w.FavoriteAdd? {
      AddFavoriteValid(db, w.name, w.description, now);
    }
  }

  lemma ApplyApiRouteValid(db: Db, w: Write, now: string)
    requires Valid(db) && (w.ApiRouteAdd? || w.ApiRouteUpdate? || w.ApiRouteDelete?)
    ensures Valid(Apply(db, w, now))
  {
    match w
    case ApiRouteAdd(n, u) =>
      InsertRouteValid(db.apiRoutes, db.lastApiRoute, n, u, now);
    case ApiRouteUpdate(id, n, u, e) =>
      UpdateRowsValid(db.apiRoutes, db.lastApiRoute, id, n, u, e);
    case ApiRouteDelete(id) =>
      DeleteRowsValid(db.apiRoutes, db.lastApiRoute, id);
  }

  lemma ApplyReportRouteValid(db: Db, w: Write, now: string)
    requires Valid(db) && (w.ReportRouteAdd? || w.ReportRouteUpdate? || w.ReportRouteDelete?)
    ensures Valid(Apply(db, w, now))
  {
    match w
    case ReportRouteAdd(n, u) =>
      InsertRouteValid(db.reportRoutes, db.lastReportRoute, n, u, now);
    case ReportRouteUpdate(id, n, u, e) =>
      UpdateRowsValid(db.reportRoutes, db.lastReportRoute, id, n, u, e);
    case ReportRouteDelete(id) =>
      DeleteRowsValid(db.reportRoutes, db.lastReportRoute, id);
  }

  lemma ApplyOtherValid(db: Db, w: Write, now: string)
    requires Valid(db)
    requires !(w.FavoriteAdd? || w.FavoriteRemove? || w.ApiRouteAdd? || w.ApiRouteUpdate? || w.ApiRouteDelete?
               || w.ReportRouteAdd? || w.ReportRouteUpdate? || w.ReportRouteDelete?)
    ensures Valid(Apply(db, w, now))
  {
  }

  /** The database after a series of writes, each with its time. */
  function Replay(db: Db, writes: seq<(Write, string)>): Db
    decreases |writes|
  {
    if |writes| == 0 then db else Replay(Apply(db, writes[0].0, writes[0].1), writes[1..])
  }

  /** Every database the backend can reach from a new file satisfies the
      constraints: in particular no favourite pair, API route name or cached
      (name, description, route) triple is ever stored twice, and there is
      never more than one settings row. */
  lemma {:induction false} ReplayValid(db: Db, writes: seq<(Write, string)>)
    requires Valid(db)
    ensures Valid(Replay(db, writes))
    decreases |writes|
  {
    if |writes| > 0 {
      ApplyValid(db, writes[0].0, writes[0].1);
      ReplayValid(Apply(db, writes[0].0, writes[0].1), writes[1..]);
    }
  }

  lemma ReachableValid(writes: seq<(Write, string)>)
    ensures Valid(Replay(EMPTY, writes))
  {
    EmptyValid();
    ReplayValid(EMPTY, writes);
  }
}

=== FILE: text.dfy ===
/** Strings as sequences of characters: whitespace trimming, substring search,
    single-character splitting and ASCII case folding, with the JavaScript
    string methods they stand for (`trim`, `includes`, `startsWith`, `split`,
    `toLowerCase`). Whitespace is ASCII whitespace throughout. */
module Text {

  /** The whitespace of `\s` and of `trim`, restricted to ASCII. */
  predicate IsSpace(c: char) {
    c == ' ' || c == '\t' || c == '\n' || c == '\r' || c == '\U{000B}' || c == '\U{000C}'
  }

  predicate AllSpace(s: string) {
    forall i :: 0 <= i < |s| ==> IsSpace(s[i])
  }

  predicate NoSpace(s: string) {
    forall i :: 0 <= i < |s| ==> !IsSpace(s[i])
  }

  /** A whitespace-free, non-empty run: what `\S+` matches. */
  predicate IsWord(s: string) {
    |s| > 0 && NoSpace(s)
  }

  /** A non-empty run of whitespace: what `\s+` matches. */
  predicate IsGap(s: string) {
    |s| > 0 && AllSpace(s)
  }

  /** No whitespace at either end. */
  predicate IsTrimmed(s: string) {
    |s| == 0 || (!IsSpace(s[0]) && !IsSpace(s[|s| - 1]))
  }

  function TrimStart(s: string): (r: string)
    ensures |r| <= |s| && r == s[|s| - |r|..]
    ensures AllSpace(s[..|s| - |r|])
    ensures |r| > 0 ==> !IsSpace(r[0])
    decreases |s|
  {
    if |s| > 0 && IsSpace(s[0]) then TrimStart(s[1..]) else s
  }

  /** A string that does not start with whitespace has nothing to trim at the start. */
  lemma TrimStartKeeps(s: string)
    requires |s| == 0 || !IsSpace(s[0])
    ensures TrimStart(s) == s
  {
  }

  function TrimEnd(s: string): (r: string)
    ensures |r| <= |s| && r == s[..|r|]
    ensures AllSpace(s[|r|..])
    ensures |r| > 0 ==> !IsSpace(r[|r| - 1])
    decreases |s|
  {
    if |s| > 0 && IsSpace(s[|s| - 1]) then
      DropLastSuffix(s, |TrimEnd(s[..|s| - 1])|);
      TrimEnd(s[..|s| - 1])
    else s
  }

  /** A suffix of `s` is the same suffix of `s` without its last character,
      then that character. */
  lemma DropLastSuffix(s: string, k: nat)
    requires k < |s|
    ensures s[k..] == s[..|s| - 1][k..] + [s[|s| - 1]]
  {
  }

  /** `String.prototype.trim`: the string without its leading and trailing whitespace. */
  function Trim(s: string): (r: string)
    ensures IsTrimmed(r)
    ensures r == [] <==> AllSpace(s)
  {
    var t := TrimStart(s);
    BlankTrimStart(s);
    BlankTrimEnd(t);
    TrimEnd(t)
  }

  lemma BlankTrimStart(s: string)
    ensures TrimStart(s) == [] <==> AllSpace(s)
  {
    var r := TrimStart(s);
    assert r == [] ==> s[..|s|] == s;
  }

  lemma BlankTrimEnd(s: string)
    ensures TrimEnd(s) == [] <==> AllSpace(s)
  {
  }

  /** Trimming a string that is already trimmed changes nothing. */
  lemma TrimTrimmed(s: string)
    requires IsTrimmed(s)
    ensures Trim(s) == s
  {
  }

  /** Whitespace padding around a trimmed string is exactly what `Trim` removes. */
  lemma TrimPadded(a: string, s: string, b: string)
    requires AllSpace(a) && AllSpace(b) && IsTrimmed(s)
    ensures Trim(a + s + b) == s
  {
    if |s| == 0 {
      assert a + s + b == a + b;
      AllSpaceConcat(a, b);
    } else {
      assert a + s + b == a + (s + b);
      TrimStartPrefix(a, s + b);
      TrimEndSuffix(s, b);
    }
  }

  lemma AllSpaceConcat(a: string, b: string)
    requires AllSpace(a) && AllSpace(b)
    ensures AllSpace(a + b)
  {
    forall i | 0 <= i < |a + b| ensures IsSpace((a + b)[i]) {
      if i < |a| { assert (a + b)[i] == a[i]; } else { assert (a + b)[i] == b[i - |a|]; }
    }
  }

  lemma {:induction false} TrimStartPrefix(a: string, y: string)
    requires AllSpace(a) && |y| > 0 && !IsSpace(y[0])
    ensures TrimStart(a + y) == y
    decreases |a|
  {
    if |a| > 0 {
      assert (a + y)[0] == a[0];
      assert (a + y)[1..] == a[1..] + y;
      TrimStartPrefix(a[1..], y);
    } else {
      assert a + y == y;
    }
  }

  lemma {:induction false} TrimEndSuffix(y: string, b: string)
    requires AllSpace(b) && |y| > 0 && !IsSpace(y[|y| - 1])
    ensures TrimEnd(y + b) == y
    decreases |b|
  {
    if |b| > 0 {
      assert (y + b)[|y + b| - 1] == b[|b| - 1];
      assert (y + b)[..|y + b| - 1] == y + b[..|b| - 1];
      TrimEndSuffix(y, b[..|b| - 1]);
    } else {
      assert y + b == y;
    }
  }

  /** `s.startsWith(p)`. */
  predicate StartsWith(s: string, p: string) {
    |p| <= |s| && s[..|p|] == p
  }

  /** `s.includes(sub)`: `sub` occurs at some position of `s`. */
  predicate Contains(s: string, sub: string)
    decreases |s|
  {
    StartsWith(s, sub) || (|s| > 0 && Contains(s[1..], sub))
  }

  /** `sub` occurs in `s` at position `i`. */
  predicate OccursAt(s: string, sub: string, i: int) {
    0 <= i <= |s| - |sub| && s[i..i + |sub|] == sub
  }

  /** `Contains` is the existence of an occurrence. */
  lemma {:induction false} ContainsIff(s: string, sub: string)
    ensures Contains(s, sub) <==> exists i :: OccursAt(s, sub, i)
    decreases |s|
  {
    if |s| > 0 {
      ContainsIff(s[1..], sub);
      if exists i :: OccursAt(s, sub, i) {
        var i :| OccursAt(s, sub, i);
        if i > 0 {
          assert s[1..][i - 1..i - 1 + |sub|] == s[i..i + |sub|];
          assert OccursAt(s[1..], sub, i - 1);
        } else {
          assert StartsWith(s, sub);
        }
      }
      if Contains(s[1..], sub) {
        var j :| OccursAt(s[1..], sub, j);
        assert s[j + 1..j + 1 + |sub|] == s[1..][j..j + |sub|];
        assert OccursAt(s, sub, j + 1);
      }
      if StartsWith(s, sub) {
        assert OccursAt(s, sub, 0);
      }
    } else {
      if StartsWith(s, sub) {
        assert OccursAt(s, sub, 0);
      }
    }
  }

  /** A text holding no occurrence of the first character of `sub` does not contain `sub`. */
  lemma {:induction false} NotContainsWithoutHead(s: string, sub: string)
    requires |sub| > 0 && sub[0] !in s
    ensures !Contains(s, sub)
    decreases |s|
  {
    if |s| > 0 {
      assert s[0] != sub[0];
      NotContainsWithoutHead(s[1..], sub);
    }
  }

  /** An occurrence in a piece is an occurrence in the whole. */
  lemma ContainsIn(a: string, b: string, c: string, sub: string)
    requires Contains(b, sub)
    ensures Contains(a + b + c, sub)
  {
    ContainsIff(b, sub);
    var i :| OccursAt(b, sub, i);
    assert (a + b + c)[|a| + i..|a| + i + |sub|] == b[i..i + |sub|];
    assert OccursAt(a + b + c, sub, |a| + i);
    ContainsIff(a + b + c, sub);
  }

  /** A text missing some character of `sub` does not contain `sub`. */
  lemma NotContainsMissing(s: string, sub: string, j: nat)
    requires j < |sub| && sub[j] !in s
    ensures !Contains(s, sub)
  {
    forall i | 0 <= i <= |s| - |sub| ensures !OccursAt(s, sub, i) {
      assert s[i..i + |sub|][j] == s[i + j];
    }
    ContainsIff(s, sub);
  }

  /** A slice within the first part of a concatenation. */
  lemma SliceLeft(a: string, b: string, i: nat, j: nat)
    requires i <= j <= |a|
    ensures (a + b)[i..j] == a[i..j]
  {
  }

  /** A slice within the second part of a concatenation. */
  lemma SliceRight(a: string, b: string, i: nat, j: nat)
    requires |a| <= i <= j <= |a| + |b|
    ensures (a + b)[i..j] == b[i - |a|..j - |a|]
  {
  }

  /** `sub` cannot straddle a one-character separator it does not hold: it
      occurs in `a + [c] + b` only if it occurs in `a` or in `b`. */
  lemma NotContainsAcrossChar(a: string, c: char, b: string, sub: string)
    requires |sub| > 0 && c !in sub
    requires !Contains(a, sub) && !Contains(b, sub)
    ensures !Contains(a + [c] + b, sub)
  {
    var s := a + [c] + b;
    var n, l := |a|, |sub|;
    ContainsIff(a, sub);
    ContainsIff(b, sub);
    forall i | 0 <= i <= |s| - l ensures !OccursAt(s, sub, i) {
      if i + l <= n {
        assert !OccursAt(a, sub, i);
        SliceLeft(a + [c], b, i, i + l);
        SliceLeft(a, [c], i, i + l);
      } else if i > n {
        assert !OccursAt(b, sub, i - n - 1);
        SliceRight(a + [c], b, i, i + l);
      } else {
        assert sub[n - i] != c;
        assert s[i..i + l][n - i] == s[n] == c;
      }
    }
    ContainsIff(s, sub);
  }

  /** No two spaces in a row. */
  predicate NoDoubleSpace(s: string) {
    forall j :: 0 <= j < |s| - 1 ==> s[j] != ' ' || s[j + 1] != ' '
  }

  /** `sub` cannot straddle a two-space gap when it holds no two spaces in a
      row and neither starts nor ends with a space. */
  lemma NotContainsAcrossGap(a: string, b: string, sub: string)
    requires |sub| > 0 && sub[0] != ' ' && sub[|sub| - 1] != ' ' && NoDoubleSpace(sub)
    requires !Contains(a, sub) && !Contains(b, sub)
    ensures !Contains(a + "  " + b, sub)
  {
    var s := a + "  " + b;
    var n, l := |a|, |sub|;
    ContainsIff(a, sub);
    ContainsIff(b, sub);
    assert s[n] == ' ' && s[n + 1] == ' ';
    forall i | 0 <= i <= |s| - l ensures !OccursAt(s, sub, i) {
      if i + l <= n {
        assert !OccursAt(a, sub, i);
        SliceLeft(a + "  ", b, i, i + l);
        SliceLeft(a, "  ", i, i + l);
      } else if i >= n + 2 {
        assert !OccursAt(b, sub, i - n - 2);
        SliceRight(a + "  ", b, i, i + l);
      } else if i == n + 1 {
        assert s[i..i + l][0] == s[n + 1];
      } else if i + l == n + 1 {
        assert s[i..i + l][l - 1] == s[n];
      } else {
        assert sub[n - i] != ' ' || sub[n - i + 1] != ' ';
        assert s[i..i + l][n - i] == s[n] && s[i..i + l][n - i + 1] == s[n + 1];
      }
    }
    ContainsIff(s, sub);
  }

  /** A join contains what any of its pieces contains. */
  lemma {:induction false} ContainsJoin(parts: seq<string>, sep: char, k: nat, sub: string)
    requires k < |parts| && Contains(parts[k], sub)
    ensures Contains(Join(parts, sep), sub)
    decreases k
  {
    if |parts| == 1 {
    } else if k == 0 {
      ContainsIn([], parts[0], [sep] + Join(parts[1..], sep), sub);
      assert [] + parts[0] + ([sep] + Join(parts[1..], sep)) == Join(parts, sep);
    } else {
      ContainsJoin(parts[1..], sep, k - 1, sub);
      ContainsIn(parts[0] + [sep], Join(parts[1..], sep), [], sub);
      assert parts[0] + [sep] + Join(parts[1..], sep) + [] == Join(parts, sep);
    }
  }

  /** A join of pieces that do not contain `sub` does not contain it, when
      `sub` does not hold the separator. */
  lemma {:induction false} NotContainsJoin(parts: seq<string>, sep: char, sub: string)
    requires |parts| > 0 && |sub| > 0 && sep !in sub
    requires forall i :: 0 <= i < |parts| ==> !Contains(parts[i], sub)
    ensures !Contains(Join(parts, sep), sub)
    decreases |parts|
  {
    if |parts| > 1 {
      NotContainsJoin(parts[1..], sep, sub);
      NotContainsAcrossChar(parts[0], sep, Join(parts[1..], sep), sub);
    }
  }

  /** The position of the first `c` in `s`. */
  function IndexOf(s: string, c: char): (k: nat)
    requires c in s
    ensures k < |s| && s[k] == c && c !in s[..k]
  {
    if s[0] == c then 0 else 1 + IndexOf(s[1..], c)
  }

  /** The first occurrence is the one before which `c` does not occur. */
  lemma {:induction false} IndexOfFirst(s: string, c: char, j: nat)
    requires j < |s| && s[j] == c && c !in s[..j]
    ensures IndexOf(s, c) == j
  {
    if j > 0 {
      assert s[0] == s[..j][0];
      assert s[1..][..j - 1] == s[..j][1..];
      IndexOfFirst(s[1..], c, j - 1);
    }
  }

  /** Gluing pieces back together with `sep` between neighbours: `parts.join(sep)`. */
  function Join(parts: seq<string>, sep: char): string
    requires |parts| > 0
  {
    if |parts| == 1 then parts[0] else parts[0] + [sep] + Join(parts[1..], sep)
  }

  /** A character other than `sep` occurs in the join only if it occurs in a piece. */
  lemma {:induction false} JoinAvoids(parts: seq<string>, sep: char, c: char)
    requires |parts| > 0 && c != sep
    requires forall i :: 0 <= i < |parts| ==> c !in parts[i]
    ensures c !in Join(parts, sep)
    decreases |parts|
  {
    if |parts| > 1 {
      JoinAvoids(parts[1..], sep, c);
    }
  }

  /** The join starts with the first piece. */
  lemma JoinFirst(parts: seq<string>, sep: char)
    requires |parts| > 0
    ensures |Join(parts, sep)| >= |parts[0]| && Join(parts, sep)[..|parts[0]|] == parts[0]
  {
  }

  /** The join ends with the last piece. */
  lemma {:induction false} JoinLast(parts: seq<string>, sep: char)
    requires |parts| > 0
    ensures var j := Join(parts, sep); var l := parts[|parts| - 1];
            |j| >= |l| && j[|j| - |l|..] == l
    decreases |parts|
  {
    if |parts| > 1 {
      JoinLast(parts[1..], sep);
      assert parts[1..][|parts| - 2] == parts[|parts| - 1];
    }
  }

  /** `s.split(sep)` for a one-character separator: always at least one piece,
      no piece holds `sep`, and joining the pieces gives `s` back. */
  function Split(s: string, sep: char): (r: seq<string>)
    ensures |r| > 0
    ensures forall i :: 0 <= i < |r| ==> sep !in r[i]
    ensures Join(r, sep) == s
    decreases |s|
  {
    if sep !in s then [s]
    else
      var k := IndexOf(s, sep);
      var rest := Split(s[k + 1..], sep);
      assert s == s[..k] + [sep] + s[k + 1..];
      [s[..k]] + rest
  }

  /** Splitting a join of separator-free pieces recovers the pieces. */
  lemma {:induction false} SplitJoin(parts: seq<string>, sep: char)
    requires |parts| > 0
    requires forall i :: 0 <= i < |parts| ==> sep !in parts[i]
    ensures Split(Join(parts, sep), sep) == parts
    decreases |parts|
  {
    if |parts| > 1 {
      var s := Join(parts, sep);
      assert s == parts[0] + [sep] + Join(parts[1..], sep);
      assert sep in s by { assert s[|parts[0]|] == sep; }
      assert s[..|parts[0]|] == parts[0];
      IndexOfFirst(s, sep, |parts[0]|);
      var k := IndexOf(s, sep);
      assert s[k + 1..] == Join(parts[1..], sep);
      SplitJoin(parts[1..], sep);
    }
  }

  /** ASCII `toLowerCase` on one character. */
  function LowerChar(c: char): char {
    if 'A' <= c <= 'Z' then (c as int - 'A' as int + 'a' as int) as char else c
  }

  /** ASCII `toLowerCase`. */
  function Lower(s: string): (r: string)
    ensures |r| == |s|
    ensures forall i :: 0 <= i < |s| ==> r[i] == LowerChar(s[i])
  {
    if |s| == 0 then [] else [LowerChar(s[0])] + Lower(s[1..])
  }
}

=== FILE: wrappers.dfy ===
/** Failure-carrying results shared by every part of the model. */
module Wrappers {

  /** An optional value: a missing row, an absent argument, a failed match. */
  datatype Option<+T> = None | Some(value: T) {

    /** The value, or `default` when there is none. */
    function GetOr(default: T): T {
      match this
      case Some(v) => v
      case None => default
    }
  }

  /** A value or an error message, as a `SqlResult` or an early error return. */
  datatype Result<+T> = Ok(value: T) | Err(error: string) {

    predicate IsFailure() {
      Err?
    }

    function PropagateFailure<U>(): Result<U>
      requires Err?
    {
      Err(error)
    }

    function Extract(): T
      requires Ok?
    {
      value
    }
  }
}
